=== FILE: README.md ===
# DOLFIN bookkeeping cores in Dafny

This project models five pieces of integer and sequence bookkeeping from
DOLFIN, the finite-element library, and proves properties of them.

* **Multi-adaptive time slab** (`dolfin/ode/MultiAdaptiveTimeSlab.cpp`).
  The slab keeps parallel arrays for sub-slabs, elements, dofs and
  dependency slots. Each group of arrays has an allocation record holding
  a capacity and a next-free cursor. `elast[i]` threads the chain of
  elements of component `i`. The model covers:
  * growth-only reallocation (`alloc_s/e/j/d`, `allocData`);
  * the counts of the size pass (`computeDataSize` and both
    `countDependencies`);
  * element creation (`create_e`, `create_j`, `create_d`);
  * `reset`, `coverSlab` and `shift`;
  * solver selection (`chooseSolver`).

  Modules: `TimeSlabData`, `TimeSlabBuild`, `TimeSlabSample` and
  `TimeSlabSolver`. The arrays are sequence fields of an immutable `Slab`
  record, and each operation returns a new record. A `dolfin_assert` that
  fails becomes an `Err(Fault)` result.
* **Row/column table** (`cpp/dolfin/common/Table.cpp`, module `Tables`).
  It is a map from (row, column) to text, with a second map for numeric
  values. Row and column lists are kept duplicate-free in first-insertion
  order. The model covers:
  * the typed setters and the throwing getters;
  * the `TableEntry` assign and convert operations;
  * the size summary;
  * the aligned text rendering and the LaTeX rendering.

  Module `Decimal` models the decimal text the stream writes for integers.
* **Integral registry** (`cpp/dolfin/fem/FormIntegrals.cpp`, module
  `FormIntegrals`). Each integral type has a list sorted by id. The model
  covers:
  * sorted insertion that refuses duplicate ids;
  * the bounds-checked accessors;
  * the grouping of marked mesh entities by integral id (`set_domains`);
  * the default cell domain.

  A mesh is reduced to its topological dimension, a marker dimension and a
  sequence of marker values.
* **Graph renumbering glue** (`dolfin/graph/BoostGraphRenumbering.cpp`,
  module `GraphRenumbering`). The model covers:
  * the edge filters that turn a DOLFIN graph into a Boost adjacency list;
  * the inversion of the ordering Boost returns into an old-to-new map.

  Each Boost ordering is a function parameter assumed to return a
  permutation.
* **Wave-equation sparsity** (`src/demo/bench/ode/main.cpp`, module
  `WaveEquation`). The model covers:
  * the system size `2(n+1)^3` in 32-bit arithmetic;
  * the decomposition of an index into grid coordinates, on the unbounded
    grid and as the loop computes it in `unsigned int`;
  * the neighbour lists that `setSparsity` declares.

Shared modules:
* `Results` holds the `Result` type;
* `Arith` holds small facts about multiplication and division;
* `Seqs` holds the predicate `Distinct`;
* `Doubles` models the conversion of an integer to an IEEE 754 binary64
  `double`;
* `DependencySlots` models the slot array `de` of the time slab as a plain
  sequence, with the slot search and its properties.

## Model

| member | source | states |
|---|---|---|
| TimeSlabData.AllocS | dolfin/ode/MultiAdaptiveTimeSlab.cpp:508-520 | `alloc_s`: the cursor is reset to 0 and the capacity becomes `max(old, newsize)`. Capacity never shrinks and old contents are kept. Storage is untouched when large enough. Nothing outside the sub-slab arrays changes. |
| TimeSlabData.AllocE | dolfin/ode/MultiAdaptiveTimeSlab.cpp:522-536 | The same growth-only reallocation for the four element arrays `ei, es, ee, ed`. |
| TimeSlabData.AllocJ | dolfin/ode/MultiAdaptiveTimeSlab.cpp:538-549 | The same growth-only reallocation for the dof array `jx`. |
| TimeSlabData.AllocD | dolfin/ode/MultiAdaptiveTimeSlab.cpp:551-562 | The same growth-only reallocation for the dependency-slot array `de`. |
| TimeSlabData.AllocData | dolfin/ode/MultiAdaptiveTimeSlab.cpp:324-343 | `allocData`: takes the counts of the size pass, gives each group capacity `max(old, count)` with its cursor at 0, and keeps the old prefixes. Every one of the first `nd` dependency slots becomes -1, and later slots keep their values. |
| TimeSlabData.PrepareBuild | dolfin/ode/MultiAdaptiveTimeSlab.cpp:75-80 | The state `build` reaches before creating elements: the arena invariant holds, all cursors are 0, no component has a last element, capacities cover the counted sizes, and the counts are those of the size pass. |
| TimeSlabBuild.AdjacentIntervalsSplitTime | dolfin/ode/MultiAdaptiveTimeSlab.cpp:678-684 | With `within(t, a, b)` meaning `a + eps < t <= b + eps`, two adjacent intervals split the times of their union: each time lies in exactly one of them, and the shared end point belongs to the left one. |
| TimeSlabBuild.NestedIntervalsAreWithin | dolfin/ode/MultiAdaptiveTimeSlab.cpp:686-691 | The interval form of `within` accepts every interval nested in another, itself included. |
| TimeSlabBuild.CountDependenciesByTime | dolfin/ode/MultiAdaptiveTimeSlab.cpp:610-634 | The first `countDependencies` is `nsize` times the number of dependency positions whose component lags more than `eps` behind `i0`. It is therefore a multiple of `nsize` and at most `nsize * |deps|`. |
| TimeSlabBuild.CountDependenciesByElement | dolfin/ode/MultiAdaptiveTimeSlab.cpp:636-676 | The second `countDependencies` is `nsize` times the number of dependency positions whose component has no element yet or whose last element ends more than `eps` before `b0`. It is at most `nsize * |deps|`. |
| TimeSlabBuild.MarkReached | dolfin/ode/MultiAdaptiveTimeSlab.cpp:591-593 | The size pass records `b` as the latest time of every component of the group, and no other time changes to anything but `b`. |
| TimeSlabBuild.GroupDependencies | dolfin/ode/MultiAdaptiveTimeSlab.cpp:599-600 | The slots counted for one sub-slab's group are a multiple of `nsize` and at most `nsize` per dependency of the group. |
| TimeSlabBuild.SizePassFrom | dolfin/ode/MultiAdaptiveTimeSlab.cpp:582-608 | Along a trace of visited sub-slabs: `ns` grows by one per sub-slab and `ne` by the group sizes. `nj` stays `nsize * ne`, and `nd` stays a multiple of `nsize` bounded by `nsize` times the total degree. |
| TimeSlabBuild.SizePass | dolfin/ode/MultiAdaptiveTimeSlab.cpp:324-332 | The counts of a whole size pass from zero: `ns` is the number of sub-slabs and `ne` the number of elements. `nj == nsize * ne`, and `nd` is a multiple of `nsize` within the degree bound. |
| TimeSlabBuild.CreateDofs | dolfin/ode/MultiAdaptiveTimeSlab.cpp:424-435 | `create_j` fails exactly when `next + nsize` exceeds the capacity, or when the sum is 0 and the unsigned `next + nsize - 1` wraps. Otherwise it advances the cursor by exactly `nsize`, fills the `nsize` new dofs with `u0[index]`, and leaves every other dof and field unchanged. |
| TimeSlabBuild.CreateDependencies | dolfin/ode/MultiAdaptiveTimeSlab.cpp:437-506 | `create_d` serves the slot requests `Requests` in the loop order of the source. There is one request per pair of a dependent component and a dof point inside `(a0, b0]`. The component's last element must contain `[a0, b0]` and lie in another sub-slab. The result is `Fill` of those requests, so only empty (-1) slots change and only to `e0`. A full range is the assertion failure. |
| TimeSlabBuild.RecordDependency | dolfin/ode/MultiAdaptiveTimeSlab.cpp:450-504 | One pass of the dependency loop serves exactly the requests of component `i1`. There are none when `elast[i1] == -1`, when the element's interval does not contain `[a0, b0]`, or when it lies in sub-slab `s0`. |
| TimeSlabBuild.RecordPoints | dolfin/ode/MultiAdaptiveTimeSlab.cpp:474-504 | The dof loop serves one request on `e1` for every dof point `a1 + k1 * npoint(n)` inside `(a0, b0]`, in order of `n`, and stops at the first full range. |
| TimeSlabBuild.TakeSlot | dolfin/ode/MultiAdaptiveTimeSlab.cpp:485-501 | The slot search succeeds exactly when `[ed[e1], ed[e1 + 1])` has an empty slot. It then writes `e0` into the first one and nothing else, and otherwise changes nothing. |
| TimeSlabBuild.RequestsAreRecords | dolfin/ode/MultiAdaptiveTimeSlab.cpp:448-484 | An element is requested exactly when it is the last element of a component in `transpose[i0]`, that element must record the new element, and at least one of its dof points falls inside `(a0, b0]`. |
| TimeSlabBuild.LinkElement | dolfin/ode/MultiAdaptiveTimeSlab.cpp:417-421 | The end of `create_e` changes only the slots and `elast[index]`, which becomes `pos`. It fails exactly when `create_d`'s fill of the requests (`LinkSlots`) fails, with the same fault. Otherwise the slots are that fill's result, and they go only from empty to `pos`. |
| TimeSlabBuild.PlaceElement | dolfin/ode/MultiAdaptiveTimeSlab.cpp:402-415 | Past the element capacity check, element `pos = next` gets its component, its sub-slab and its predecessor `elast[index]`, and `next` grows by one. `create_j` then fails exactly when the dof array is full. Otherwise the new dofs `[next, next + nsize)` hold `u0[index]`, the dofs before and after them are kept, and nothing else changes. |
| TimeSlabBuild.RequestsFrame | dolfin/ode/MultiAdaptiveTimeSlab.cpp:485-502 | `create_d`'s requests depend only on `elast`, the sub-slabs of the last elements, `sa`, `sb`, `ed` and the number of slots. Two slabs that agree there make the same requests. |
| TimeSlabBuild.LinkSlotsBeforeElement | dolfin/ode/MultiAdaptiveTimeSlab.cpp:408-418 | Writing element `pos` and its dofs before `create_d` runs does not change the slots `create_d` fills, because every last element lies below `pos`. |
| DependencySlots.FirstFree | dolfin/ode/MultiAdaptiveTimeSlab.cpp:493-501 | The search returns the lowest empty slot of `[lo, hi)`, or reports the range full exactly when no slot there is empty. |
| DependencySlots.Fill | dolfin/ode/MultiAdaptiveTimeSlab.cpp:483-502 | Serving requests in order only turns empty slots into `e0`. A failure names the element of one of the requests. |
| DependencySlots.FillCount | dolfin/ode/MultiAdaptiveTimeSlab.cpp:493-501 | A successful fill changes exactly as many slots as there are requests. |
| DependencySlots.FillServes | dolfin/ode/MultiAdaptiveTimeSlab.cpp:493-501 | After a successful fill, the range of every request holds a slot that was empty and now holds `e0`. |
| DependencySlots.FillStaysInRanges | dolfin/ode/MultiAdaptiveTimeSlab.cpp:493-501 | Every slot a fill changes lies in the range of one of the requests. |
| DependencySlots.FillFails | dolfin/ode/MultiAdaptiveTimeSlab.cpp:493-502 | A fill fails exactly when some request finds its range full once the earlier requests are served. The fault then names that request's element, the failed `dolfin_assert(found)`. |
| DependencySlots.FillAppend | dolfin/ode/MultiAdaptiveTimeSlab.cpp:448-505 | Serving two request lists one after the other is serving their concatenation, which is why the loops of `create_d` can be split. |
| TimeSlabBuild.CreateElement | dolfin/ode/MultiAdaptiveTimeSlab.cpp:397-422 | `create_e` fails on a full element array, and then on a full dof array. Past both checks, it fails exactly when `create_d`'s fill of the requests made on the input slab fails, with that fill's fault. Otherwise the element at `pos = next` records its component, its sub-slab and its predecessor `elast[index]`, and `next` grows by one. `elast[index]` becomes `pos`, the new dofs hold `u0[index]`, and the slots are the fill's result. `ei`, `es` and `ee` change only at `pos`, and `jx` only in the new block. Every field `create_e` does not write is unchanged, and the arena invariant is kept. |
| TimeSlabBuild.Chain | dolfin/ode/MultiAdaptiveTimeSlab.cpp:397-422 | Following `ee` from any element reaches -1 through strictly smaller elements of the same component: the predecessor threading of `create_e` is well founded. |
| TimeSlabSample.Reset | dolfin/ode/MultiAdaptiveTimeSlab.cpp:170-186 | After `reset`, every dof of every element `e < ne` equals `u0[ei[e]]`. Dofs beyond the elements and every other field are unchanged. |
| TimeSlabSample.LastInIsLast | dolfin/ode/MultiAdaptiveTimeSlab.cpp:693-709 | The last element of a component within a range of elements is the one no later element of that component follows. If the range has none, the prior value is kept. |
| TimeSlabSample.CoverSlab | dolfin/ode/MultiAdaptiveTimeSlab.cpp:693-709 | `coverSlab(s, e0)` returns the first `e >= e0` with `es[e] != s`, or `ne` (or `e0` when `e0 > ne`). Each `elast[i]` becomes the last element of `i` in `[e0, e)`, or keeps its value. Nothing else changes. |
| TimeSlabSample.Shift | dolfin/ode/MultiAdaptiveTimeSlab.cpp:137-168 | `shift` fails, at the first offending component, when a component has no last element or its last element does not end at the slab end. Otherwise `u[i]` is the last dof of `elast[i]`, and `update` is offered `u`. `u0` becomes `u` exactly when `update` accepts, and otherwise stays as it was. After `reset`, the end values are the initial values. |
| TimeSlabSolver.ChooseSolver | dolfin/ode/MultiAdaptiveTimeSlab.cpp:1027-1056 | An implicit ODE is refused whatever the name. Otherwise "fixed-point" and "default" give the fixed-point solver, "newton" gives Newton, and every other name is an unknown-solver error. Both directions of each case are stated. |
| TimeSlabSolver.SolverNameRoundTrip | dolfin/ode/MultiAdaptiveTimeSlab.cpp:1034-1048 | Each solver kind is chosen by its own name, and "default" chooses the same solver as "fixed-point". |
| Decimal.NatRoundTrip | cpp/dolfin/common/Table.cpp:37-43 | Reading back the decimal text written for a `size_t` gives the value. |
| Decimal.FromNatInjective | cpp/dolfin/common/Table.cpp:37-43 | Distinct values are written as distinct texts. |
| Decimal.IntRoundTrip | cpp/dolfin/common/Table.cpp:29-35 | The text written for an `int`, with its sign, reads back as the value. |
| Tables.NewTable | cpp/dolfin/common/Table.cpp:17-21 | A new table has no rows, no columns and no values. |
| Tables.AddLabel | cpp/dolfin/common/Table.cpp:58-69 | A label is appended only when absent. The list stays duplicate-free, keeps its old prefix and gains exactly that label. |
| Tables.SetString | cpp/dolfin/common/Table.cpp:55-74 | `set(row, col, string)` adds the row and column labels if absent and stores the value under the key. Every other key keeps its text and the numeric values are unchanged. |
| Tables.SetInt | cpp/dolfin/common/Table.cpp:29-35 | The `int` setter stores the decimal text exactly as the string setter would, and records the value as a double under the key only. The title and the justification are unchanged. |
| Tables.SetSize | cpp/dolfin/common/Table.cpp:37-43 | The `size_t` setter stores the decimal text. Under the key only, it records the value converted to `double`: exact below 2^53, otherwise the nearest binary64 value. The title and the justification are unchanged. |
| Tables.Snap | cpp/dolfin/common/Table.cpp:47-48 | A value below `DBL_EPSILON` in magnitude becomes 0, and every other value is kept. |
| Tables.SetReal | cpp/dolfin/common/Table.cpp:45-53 | The `double` setter snaps the value, stores its formatted text through the string setter, and records the snapped value. The title and the justification are unchanged. |
| Tables.Get | cpp/dolfin/common/Table.cpp:76-87 | `get` returns the stored text exactly when the key was set, and otherwise throws a missing-value error. |
| Tables.GetValue | cpp/dolfin/common/Table.cpp:89-100 | `get_value` returns the stored double exactly when one was recorded, and otherwise throws a missing-double error. |
| Tables.SetThenGet | cpp/dolfin/common/Table.cpp:55-87 | After `set(r, c, v)`, `get(r, c)` is `v` and every other key reads as before. `get_value` is unaffected. |
| Tables.SetIntThenGet | cpp/dolfin/common/Table.cpp:29-35 | After the `int` setter, `get_value` is the value, and `get` is text that reads back as the value. |
| Tables.SetSizeThenGet | cpp/dolfin/common/Table.cpp:37-43 | After the `size_t` setter, `get` is text that reads back as the value exactly. `get_value` is the value rounded to a `double`: the value itself below 2^53, and 2^53 for 2^53 + 1. |
| Doubles.RoundToDoubleNearest | cpp/dolfin/common/Table.cpp:42 | `static_cast<double>` of a `size_t` gives a multiple of the binary64 spacing at the value, at most half a spacing away, and even on a tie. No multiple of the spacing is closer. |
| Doubles.UlpBounds | cpp/dolfin/common/Table.cpp:42 | The spacing is that of a 53-bit significand: from 2^53 on, the value lies in `[2^52 * ulp, 2^53 * ulp)`. |
| Doubles.FirstInexact | cpp/dolfin/common/Table.cpp:42 | Every value up to 2^53 converts exactly, and 2^53 + 1 converts to 2^53. |
| Tables.SetStrings | cpp/dolfin/common/Table.cpp:55-74 | A sequence of string sets keeps the table well formed and leaves the numeric values alone. The keys afterwards are exactly the old keys plus the set ones. |
| Tables.StringsOnlyHaveNoValues | cpp/dolfin/common/Table.cpp:89-100 | In a table filled only through the string setter, `get_value` throws for every key. `get` succeeds exactly for the keys that were set, and for no other key. |
| Tables.Assign | cpp/dolfin/common/Table.cpp:238-260 | Assignment through a `TableEntry` keeps the table well formed and registers its row and column. |
| Tables.EntryRoundTrip | cpp/dolfin/common/Table.cpp:238-262 | Assigning through a `TableEntry` and converting back gives the text the matching setter stored. For a string, that is the string itself. |
| Tables.Summary | cpp/dolfin/common/Table.cpp:183-186 | `str(false)` is `<Table of size R x C>`. |
| Tables.SummaryDeterminesSize | cpp/dolfin/common/Table.cpp:183-186 | The summary determines the number of rows and of columns. |
| Tables.RowCells | cpp/dolfin/common/Table.cpp:119-124 | The cells of one row are read in column order. The read fails exactly when a cell is missing, and then names a missing cell. |
| Tables.Cells | cpp/dolfin/common/Table.cpp:115-125 | All cells are read row by row. The read fails exactly when some cell is missing. |
| Tables.Widths | cpp/dolfin/common/Table.cpp:112-125 | The first width is the longest of the title and the row labels. Each column width is the longest of its header and its cells, so every header and cell fits. |
| Tables.FieldsLength | cpp/dolfin/common/Table.cpp:139-153 | Fields that fit their widths render to two characters per column plus the widths. |
| Tables.FieldHoldsText | cpp/dolfin/common/Table.cpp:139-153 | Field `j` of a rendered line holds its text at its column's start, after the padding when right-justified. |
| Tables.LinesLayout | cpp/dolfin/common/Table.cpp:126-181 | Every line has the length `row_size`. The header line starts with the title, the second line is all dashes, and each row line starts with its label. |
| Tables.StrVerbose | cpp/dolfin/common/Table.cpp:102-182 | `str(true)` is "" without rows. Otherwise it succeeds exactly when every cell is set: a missing one throws. The text is the header, the dash line and one line per row, joined by newlines. |
| Tables.LatexCellsJoin | cpp/dolfin/common/Table.cpp:203-222 | A LaTeX table line is its cells joined by `&` and ended by `\\`. |
| Tables.StrLatex | cpp/dolfin/common/Table.cpp:191-230 | `str_latex` is "Empty table" when rows or columns are empty. Otherwise it succeeds exactly when every cell is set, and the text begins with the title and the opening of the `tabular` environment and ends with its closing. |
| FormIntegrals.InsertionPointSorted | cpp/dolfin/fem/FormIntegrals.cpp:48-60 | On a sorted list, the insertion-point scan throws exactly when the id is present. Inserting at the point it returns keeps the list strictly increasing. |
| FormIntegrals.InsertIds | cpp/dolfin/fem/FormIntegrals.cpp:66 | Inserting an integral adds exactly its id to the ids present. |
| FormIntegrals.Register | cpp/dolfin/fem/FormIntegrals.cpp:38-67 | On a sorted list, registration throws exactly when the id is present. On success the list grows by one, stays strictly increasing, gains exactly the new id, and other types are untouched. |
| FormIntegrals.IntegralIds | cpp/dolfin/fem/FormIntegrals.cpp:75-83 | `integral_ids` lists the stored ids in stored order, which is ascending on a sorted list. |
| FormIntegrals.RegisterThenIds | cpp/dolfin/fem/FormIntegrals.cpp:38-83 | A successful registration increases `num_integrals` by one and puts the id in `integral_ids`. Registering it again throws. |
| FormIntegrals.IntegralDomains | cpp/dolfin/fem/FormIntegrals.cpp:85-92 | `integral_domains` throws exactly when `i >= size`, and otherwise returns the active entities of integral `i`. |
| FormIntegrals.GetTabulateTensorAsWritten | cpp/dolfin/fem/FormIntegrals.cpp:25-36 | As written, `get_tabulate_tensor_function` throws exactly when `i > size`. At `i == size` it reads past the end. |
| FormIntegrals.GuardLetsSizeThrough | cpp/dolfin/fem/FormIntegrals.cpp:32 | The guard lets `i == size` through, even on an empty registry. |
| FormIntegrals.GetTabulateTensor | cpp/dolfin/fem/FormIntegrals.cpp:25-36 | With the guard `i >= size`, the accessor throws exactly when the index is out of range, and otherwise returns kernel `i`. |
| FormIntegrals.CorrectedGuardAgrees | cpp/dolfin/fem/FormIntegrals.cpp:25-36 | The corrected accessor agrees with the written one wherever that one returns or throws. It throws where the written one reads past the end. |
| FormIntegrals.Narrow | cpp/dolfin/fem/FormIntegrals.cpp:131 | A `size_t` marker value used as an `int` key is reduced modulo 2^32 in two's complement. Values below 2^31 are unchanged. |
| FormIntegrals.VertexMarkerRefusedAsWritten | cpp/dolfin/fem/FormIntegrals.cpp:109-116 | The written dimension for vertex integrals is 1, so a vertex marker, of dimension 0, is refused on every mesh. |
| FormIntegrals.ExpectedDimension | cpp/dolfin/fem/FormIntegrals.cpp:106-111 | Cells expect the mesh dimension and facets one less, as written. Vertices expect dimension 0. |
| FormIntegrals.MatchingIsMarked | cpp/dolfin/fem/FormIntegrals.cpp:129-134 | The entities filed for an id are exactly the indices whose marker value selects it, in ascending order. |
| FormIntegrals.LastWithIdUnique | cpp/dolfin/fem/FormIntegrals.cpp:119-127 | Among integrals sharing an id, only one is the last with it: the one the reverse map keeps. |
| FormIntegrals.ReverseMap | cpp/dolfin/fem/FormIntegrals.cpp:118-127 | The reverse map holds exactly the non-default ids present and points each at an integral with that id. Non-default integrals have their entities cleared, and the default one keeps its entities. |
| FormIntegrals.FileEntities | cpp/dolfin/fem/FormIntegrals.cpp:129-134 | The marker loop appends each marked entity to the integral the reverse map names for its value. Nothing else changes. |
| FormIntegrals.SetDomains | cpp/dolfin/fem/FormIntegrals.cpp:94-135 | As written, `set_domains` does nothing on an empty list. It throws exactly when the marker dimension differs from the written expectation, so a vertex marker is always refused. Otherwise `DomainsFiled` holds: each non-default integral gets the ascending indices marked with its id, the default integral is untouched, and other types are unchanged. |
| FormIntegrals.SetDomainsCorrected | cpp/dolfin/fem/FormIntegrals.cpp:94-135 | With vertices expecting dimension 0, `set_domains` throws exactly on a real dimension mismatch and accepts a vertex marker. On success it files the entities as `DomainsFiled` states. |
| FormIntegrals.FileDomains | cpp/dolfin/fem/FormIntegrals.cpp:118-134 | The two loops of `set_domains` establish `DomainsFiled`. |
| FormIntegrals.SetDefaultCellDomains | cpp/dolfin/fem/FormIntegrals.cpp:144-150 | A default (id -1) first cell integral becomes active on `0, ..., numCells - 1`. Every other integral stays as it was. |
| GraphRenumbering.BuildUndirectedGraph | dolfin/graph/BoostGraphRenumbering.cpp:156-177 | Edge `(v, w)` is added exactly when `w` is a neighbour of `v` and `v < w`. There are no loops and no reversed duplicates, and a well-formed graph gives exactly `n` vertices. |
| GraphRenumbering.BuildDirectedGraph | dolfin/graph/BoostGraphRenumbering.cpp:179-200 | Edge `(v, w)` is added exactly when `w` is a neighbour of `v` and `v != w`. A well-formed graph gives exactly `n` vertices. |
| GraphRenumbering.PermutationOnto | dolfin/graph/BoostGraphRenumbering.cpp:62-64 | A permutation of `0..n-1` takes every value (pigeonhole), so the map loop writes every entry. |
| GraphRenumbering.OldToNew | dolfin/graph/BoostGraphRenumbering.cpp:62-64 | `map[inv_perm[i]] = i` leaves each entry holding the last `i` that wrote it, and 0 where nothing wrote. For a permutation, `map` is its inverse permutation in both directions. |
| GraphRenumbering.ComputeCuthillMckee | dolfin/graph/BoostGraphRenumbering.cpp:38-67 | Vertex `ordering[k]` gets the new index `k`, or `n - 1 - k` when the ordering is written through the reverse iterator. The result is a permutation. |
| GraphRenumbering.ComputeKing | dolfin/graph/BoostGraphRenumbering.cpp:69-94 | The King ordering is always written reversed: vertex `ordering[k]` gets `n - 1 - k`, and the result is a permutation. |
| GraphRenumbering.ComputeMinimumDegree | dolfin/graph/BoostGraphRenumbering.cpp:123-154 | The minimum-degree ordering of the directed graph is written forwards: vertex `ordering[k]` gets `k`, and the result is a permutation. |
| GraphRenumbering.ReversedNumbering | dolfin/graph/BoostGraphRenumbering.cpp:52-64 | For the same ordering, the reversed numbering of every vertex is `n - 1 -` its forward numbering. |
| WaveEquation.SizeWithoutWrap | src/demo/bench/ode/main.cpp:13-22 | When `2(n+1)^3` fits in 32 bits, `N = 2(n+1)^3` and `offset = N/2 = (n+1)^3`. |
| WaveEquation.CoordIndex | src/demo/bench/ode/main.cpp:40-44 | For `j < (n+1)^3`, the coordinates `jx, jy, jz` lie in `[0, n]` and `j == jx + m*jy + m*m*jz`. |
| WaveEquation.IndexCoord | src/demo/bench/ode/main.cpp:40-44 | The decomposition inverts the index: every grid point is recovered from its index. |
| WaveEquation.DeclaredSizeCounts | src/demo/bench/ode/main.cpp:46-61 | The size given to `setsize` equals the number of `set` calls that follow. It is at most 6, at least 3 when `n >= 1`, and 0 when `n == 0`. |
| WaveEquation.StepIndex | src/demo/bench/ode/main.cpp:56-61 | A unit step along x, y or z moves the index by 1, `m` or `m*m`. |
| WaveEquation.NeighboursAreAdjacent | src/demo/bench/ode/main.cpp:56-61 | The indices set for grid point `j` are exactly the grid points at distance one from `j`. |
| WaveEquation.StepsDistinct | src/demo/bench/ode/main.cpp:56-61 | The six guarded candidates are pairwise distinct and differ from `j`. |
| WaveEquation.NeighboursDistinct | src/demo/bench/ode/main.cpp:56-61 | The neighbour list has no duplicates and does not contain `j`. |
| WaveEquation.DependenciesInRange | src/demo/bench/ode/main.cpp:27-62 | When `2(n+1)^3` fits in 32 bits, the loop never traps. For `i < offset` the list is exactly `[i + offset]`, which is within the system. For `i >= offset` the list is the grid neighbours of `j = i - offset`: every index lies in `[0, offset)` and differs from `j`, and the list has no duplicates. |
| WaveEquation.Neighbours32Agree | src/demo/bench/ode/main.cpp:41-61 | When `2(n+1)^3` fits in 32 bits, the unsigned `jx, jy, jz` and the six guarded `set` arguments equal the unbounded grid coordinates and neighbours. |
| WaveEquation.SquareWrapsToZero | src/demo/bench/ode/main.cpp:41-44 | At `n = 65535`, `m*m` wraps to 0, so `j / (m*m)` divides by zero for every node. |

## Left out

- Numerical parts of the time slab (`solve`, `check`, `cg_feval`, `dg_feval`, `usample`, `ksample`, `rsample`, `sample`): floating-point evaluation through `Method`, `Adaptivity` and solver classes that are not part of this model.
- `createTimeSlab`, `create_s`, `computeEndTime` and the recursion of `computeDataSize`: they depend on `Partition::update` and step arithmetic not shown. The size pass takes the visited sub-slabs as a trace parameter, and `CreateElement` takes the dof points (`method->npoint`) as a parameter.
- `coverTime` and `coverNext`: the tolerance-driven search. `Shift` starts from the state `coverTime(_b)` leaves, and `coverNext` is never called in the file.
- `disp`, `message`, the `write` of the final solution in `shift`, and `save` and file output in the demo: diagnostics and I/O.
- `real_epsilon()`: its value lies outside this model. `Eps` is a fixed positive constant, and no proof depends on its value.
- TimeSlabBuild.CreateDofs: the sum `next + nsize` is not reduced modulo 2^32. Only the wrap of a zero sum is modelled, where `next + nsize - 1` becomes the largest `uint`. A sum of 2^32 or more would wrap the unsigned check to a small value that passes, but the model refuses it like any other sum above the capacity.
- TimeSlabBuild.CreateDependencies: slot ranges of different elements are not required to be disjoint. So the count is stated over all slots (`FillCount`), not per element range.
- TimeSlabBuild.SizePass: the dependency count is stated as an upper bound with the `nsize` granularity. Whether `create_d` later fills every counted slot depends on the partition oracle, so no all-slots-filled property is claimed.
- The reallocation fill values: freshly grown array entries hold a fill value, as the C++ `new[]` contents are unspecified.
- Tables.SetReal: the text of a `double` (`setprecision(5)` stream formatting) is a parameter `format`. Only the `DBL_EPSILON` snapping is modelled.
- Tables.StrVerbose: the text is stated through its layout (`LinesLayout`, `FieldHoldsText`) rather than character by character. The padding count `width - |x|` is clamped at 0; the unsigned subtraction in the source never underflows there, because every width is a maximum over its column. Strings are sequences of characters, so widths count characters where the source's `size()` counts bytes. The two agree for single-byte text; for multi-byte UTF-8 labels the model's widths and padding are smaller than the source's.
- The `TableEntry` returned by `operator()` is a reference wrapper: only its assign and convert operations are modelled.
- Mesh topology in `set_domains` and `set_default_domains`: a mesh is its dimension, the marker's dimension and its values, and the cell count. The facet branches of `set_default_domains` rely on mesh connectivity classes that are not part of this model.
- The Boost orderings (`cuthill_mckee_ordering`, `king_ordering`, `minimum_degree_ordering`) and the `delta` parameter: a foreign library. Each ordering is a function parameter that must return a permutation, and `boost_index_map` is the identity of a `vecS` graph.
- WaveEquation.DependenciesInRange: proved only when `2(n+1)^3 < 2^32` (n at most 1289). Beyond that the unsigned constructor argument wraps. `SystemSize`, `Coord32` and `Neighbours32` compute that wrap, and `SquareWrapsToZero` shows the division by zero at n = 65535, but no range or adjacency property is claimed there.
- WaveEquation.CoordIndex, WaveEquation.IndexCoord, WaveEquation.DeclaredSizeCounts, WaveEquation.StepIndex, WaveEquation.NeighboursAreAdjacent and WaveEquation.NeighboursDistinct: these state the grid numbering in unbounded arithmetic (`Coord`, `Neighbours`). The loop computes `m*m`, `j / (m*m)` and `j + m*m` in `unsigned int`, and `Neighbours32Agree` proves the two agree only while `2(n+1)^3 < 2^32`. For larger `n` these lemmas say nothing about the program.
- The right-hand sides `f` of the wave equation (`src/demo/bench/ode/main.cpp:78-128`), its initial data `u0` and its mesh are not modelled: floating-point arithmetic. The sparsity pattern exists to declare what `f` reads, and it is incomplete. The multi-adaptive `f` reads `u[j]` for unknown `i = offset + j`, which `setSparsity` does not declare; `DependenciesInRange` proves that omission (`i - offset` is never in the list). The two versions of `f` also differ: the multi-adaptive one returns `a*sum` for the second half, and the vectorised one stores `sum` without the factor `a`.
- `dolfin/la/KrylovSolver.h`, `src/kernel/ode/SimpleTimeSlab.cpp`, `cpp/dolfin/common/TimeLogManager.h` and `cpp/dolfin/function/dolfin_function.h`: backend dispatch, thin forwarding and declarations, with no bookkeeping of their own.

## Findings

| source | as written | input that shows it | evidently intended | confidence | as-written member | corrected member |
|---|---|---|---|---|---|---|
| cpp/dolfin/fem/FormIntegrals.cpp:32 | `get_tabulate_tensor_function` throws only when `i > integrals.size()` | any type with `i == integrals.size()`, for example `i = 0` on an empty list: the guard passes and `integrals[i]` reads past the end | throw when `i >= integrals.size()`, as `integral_domains` does at line 89 | high, not executed | FormIntegrals.GetTabulateTensorAsWritten | FormIntegrals.GetTabulateTensor |
| cpp/dolfin/fem/FormIntegrals.cpp:109-110 | `set_domains` expects dimension 1 for vertex integrals | a vertex integral with a vertex marker (dimension 0) on any mesh: the check refuses it | vertices are entities of dimension 0 | medium, not executed | FormIntegrals.SetDomains | FormIntegrals.SetDomainsCorrected |

=== FILE: arith.dfy ===
/** Facts about integer multiplication, division and remainder that the
    solver does not find unaided. */
module Arith {

  lemma MulMono(m: nat, a: int, b: int)
    requires a <= b
    ensures m * a <= m * b
  {
    assert m * b == m * a + m * (b - a);
  }

  /** Quotient and remainder are determined by `x == m * q + r`, `0 <= r < m`. */
  lemma DivModUnique(x: int, m: int, q: int, r: int)
    requires m >= 1 && 0 <= r < m && x == m * q + r
    ensures x / m == q && x % m == r
  {
    var q0 := x / m;
    if q > q0 {
      MulMono(m, q0 + 1, q);
    } else if q < q0 {
      MulMono(m, q + 1, q0);
    }
  }

  lemma MultipleSum(x: nat, y: nat, m: nat)
    requires m >= 1 && x % m == 0 && y % m == 0
    ensures (x + y) % m == 0
  {
    DivModUnique(x + y, m, x / m + y / m, 0);
  }

  lemma Multiple(m: nat, q: nat)
    requires m >= 1
    ensures (m * q) % m == 0
  {
    DivModUnique(m * q, m, q, 0);
  }

  function Max(x: nat, y: nat): nat {
    if x < y then y else x
  }

  /** Multiplication distributes over addition. */
  lemma MulAdd(m: int, x: int, y: int)
    ensures m * (x + y) == m * x + m * y
  {
  }
}

=== FILE: decimal.dfy ===
/** Decimal text of integers, as `std::stringstream << value` writes an `int`
    or a `std::size_t`: an optional minus sign followed by the digits, without
    leading zeros. The parser is the reference the printer is checked
    against. */
module Decimal {

  predicate IsDigit(c: char) {
    '0' <= c <= '9'
  }

  predicate AllDigits(s: string) {
    forall k :: 0 <= k < |s| ==> IsDigit(s[k])
  }

  function DigitValue(c: char): (d: nat)
    requires IsDigit(c)
    ensures d < 10
  {
    (c as int - '0' as int) as nat
  }

  function DigitChar(d: nat): (c: char)
    requires d < 10
    ensures IsDigit(c) && DigitValue(c) == d
  {
    (d + '0' as int) as char
  }

  /** The digits of `n`, most significant first. */
  function FromNat(n: nat): (s: string)
    ensures |s| >= 1 && AllDigits(s)
    ensures n == 0 <==> s == "0"
    ensures n > 0 ==> s[0] != '0'
  {
    if n < 10 then [DigitChar(n)] else FromNat(n / 10) + [DigitChar(n % 10)]
  }

  /** The value of a digit string. */
  function ToNat(s: string): nat
    requires AllDigits(s)
  {
    if |s| == 0 then 0 else 10 * ToNat(s[..|s| - 1]) + DigitValue(s[|s| - 1])
  }

  lemma {:induction false} NatRoundTrip(n: nat)
    ensures ToNat(FromNat(n)) == n
  {
    if n >= 10 {
      NatRoundTrip(n / 10);
      var s := FromNat(n);
      assert s[..|s| - 1] == FromNat(n / 10);
    }
  }

  /** Different numbers print differently. */
  lemma FromNatInjective(m: nat, n: nat)
    ensures FromNat(m) == FromNat(n) <==> m == n
  {
    NatRoundTrip(m);
    NatRoundTrip(n);
  }

  /** The text of a signed integer: a minus sign for negative values. */
  function FromInt(v: int): (s: string)
    ensures |s| >= 1
    ensures s[0] == '-' <==> v < 0
    ensures v < 0 ==> s[1..] == FromNat(-v)
    ensures v >= 0 ==> s == FromNat(v)
  {
    if v < 0 then "-" + FromNat(-v) else FromNat(v)
  }

  /** Text that reads back as a signed integer. */
  predicate IsIntText(s: string) {
    if |s| > 0 && s[0] == '-' then |s| > 1 && AllDigits(s[1..]) else |s| > 0 && AllDigits(s)
  }

  function ToInt(s: string): int
    requires IsIntText(s)
  {
    if s[0] == '-' then -(ToNat(s[1..]) as int) else ToNat(s)
  }

  lemma IntRoundTrip(v: int)
    ensures IsIntText(FromInt(v)) && ToInt(FromInt(v)) == v
  {
    if v < 0 {
      NatRoundTrip(-v);
    } else {
      NatRoundTrip(v);
    }
  }
}

=== FILE: dependency_slots.dfy ===
/** The dependency slots of a time slab (`de` in
    dolfin/ode/MultiAdaptiveTimeSlab.cpp) as a plain sequence. Element `e`
    owns the slot range `[ed[e], ed[e + 1])`; recording a dependency on `e`
    takes the first empty slot of that range. A sequence of such requests
    either fills one slot per request or stops at the first request whose
    range is full. */
module DependencySlots {
  import opened Results
  import opened TimeSlabData

  /** Slots only ever go from empty to `e0`: a filled slot is never
      overwritten. */
  predicate FillsOnly(before: seq<int>, after: seq<int>, e0: nat) {
    && |after| == |before|
    && forall d :: 0 <= d < |before| ==>
         after[d] == before[d] || (before[d] == NoElement && after[d] == e0)
  }

  /** The outcome of a slot search. */
  datatype Slot = Free(d: nat) | Full

  /** The first empty slot of `[lo, hi)`, scanning upwards. */
  function FirstFree(de: seq<int>, lo: nat, hi: nat): (r: Slot)
    requires hi <= |de|
    ensures r.Free? ==> lo <= r.d < hi && de[r.d] == NoElement
    ensures r.Free? ==> forall d :: lo <= d < r.d ==> de[d] != NoElement
    ensures r.Full? ==> forall d :: lo <= d < hi ==> de[d] != NoElement
    decreases hi - lo
  {
    if lo >= hi then Full
    else if de[lo] == NoElement then Free(lo)
    else FirstFree(de, lo + 1, hi)
  }

  /** Every requested element owns a slot range inside `n` slots. */
  predicate RangesIn(reqs: seq<nat>, ed: seq<nat>, n: nat) {
    forall k :: 0 <= k < |reqs| ==> reqs[k] + 1 < |ed| && ed[reqs[k] + 1] <= n
  }

  /** Serve the requests in order: each records `e0` in the first empty slot
      of its element's range, and a full range stops everything. */
  function Fill(de: seq<int>, reqs: seq<nat>, ed: seq<nat>, e0: nat): (r: Result<seq<int>, Fault>)
    requires RangesIn(reqs, ed, |de|)
    ensures r.Ok? ==> FillsOnly(de, r.value, e0)
    ensures r.Err? ==> exists k :: 0 <= k < |reqs| && r.error == NoFreeSlot(reqs[k])
    decreases |reqs|
  {
    if |reqs| == 0 then Ok(de)
    else
      match FirstFree(de, ed[reqs[0]], ed[reqs[0] + 1])
      case Full => Err(NoFreeSlot(reqs[0]))
      case Free(d) =>
        var r := Fill(de[d := e0], reqs[1..], ed, e0);
        assert r.Err? ==> exists k :: 1 <= k < |reqs| && r.error == NoFreeSlot(reqs[k]) by {
          if r.Err? {
            var k :| 0 <= k < |reqs[1..]| && r.error == NoFreeSlot(reqs[1..][k]);
            assert reqs[1..][k] == reqs[k + 1];
          }
        }
        r
  }

  /** Serving a request `e` ahead of `rest`: a full range stops with
      `NoFreeSlot(e)`, otherwise its first empty slot takes `e0` and the rest
      is served from there. */
  lemma FillFirst(de: seq<int>, e: nat, rest: seq<nat>, ed: seq<nat>, e0: nat)
    requires e + 1 < |ed| && ed[e + 1] <= |de| && RangesIn(rest, ed, |de|)
    ensures RangesIn([e] + rest, ed, |de|)
    ensures FirstFree(de, ed[e], ed[e + 1]).Full? ==> Fill(de, [e] + rest, ed, e0) == Err(NoFreeSlot(e))
    ensures FirstFree(de, ed[e], ed[e + 1]).Free? ==>
      Fill(de, [e] + rest, ed, e0) == Fill(de[FirstFree(de, ed[e], ed[e + 1]).d := e0], rest, ed, e0)
  {
    assert ([e] + rest)[0] == e && ([e] + rest)[1..] == rest;
  }

  lemma RangesInAppend(a: seq<nat>, b: seq<nat>, ed: seq<nat>, n: nat)
    requires RangesIn(a, ed, n) && RangesIn(b, ed, n)
    ensures RangesIn(a + b, ed, n)
  {
    forall k | 0 <= k < |a + b| ensures (a + b)[k] + 1 < |ed| && ed[(a + b)[k] + 1] <= n {
      if k < |a| {
        assert (a + b)[k] == a[k];
      } else {
        assert (a + b)[k] == b[k - |a|];
      }
    }
  }

  /** Serving `a + b` serves `a`, then `b` from where `a` left the slots. */
  lemma {:induction false} FillAppend(de: seq<int>, a: seq<nat>, b: seq<nat>, ed: seq<nat>, e0: nat)
    requires RangesIn(a, ed, |de|) && RangesIn(b, ed, |de|)
    ensures RangesIn(a + b, ed, |de|)
    ensures Fill(de, a + b, ed, e0) ==
      if Fill(de, a, ed, e0).Err? then Fill(de, a, ed, e0) else Fill(Fill(de, a, ed, e0).value, b, ed, e0)
    decreases |a|
  {
    RangesInAppend(a, b, ed, |de|);
    if |a| == 0 {
      assert a + b == b;
    } else {
      assert a + b == [a[0]] + (a[1..] + b) && a == [a[0]] + a[1..];
      RangesInAppend(a[1..], b, ed, |de|);
      FillFirst(de, a[0], a[1..] + b, ed, e0);
      FillFirst(de, a[0], a[1..], ed, e0);
      match FirstFree(de, ed[a[0]], ed[a[0] + 1])
      case Full =>
      case Free(d) =>
        FillAppend(de[d := e0], a[1..], b, ed, e0);
    }
  }

  /** The number of positions below `n` where `x` and `y` differ. */
  function Changed(x: seq<int>, y: seq<int>, n: nat): nat
    requires n <= |x| && n <= |y|
  {
    if n == 0 then 0 else Changed(x, y, n - 1) + (if x[n - 1] != y[n - 1] then 1 else 0)
  }

  /** Setting one differing position of `x` to its value in `y` removes one
      difference. */
  lemma {:induction false} ChangedUpdate(x: seq<int>, y: seq<int>, n: nat, d: nat, v: int)
    requires n <= |x| == |y| && d < |x| && x[d] != v && y[d] == v
    ensures Changed(x, y, n) == Changed(x[d := v], y, n) + (if d < n then 1 else 0)
  {
    if n > 0 {
      ChangedUpdate(x, y, n - 1, d, v);
    }
  }

  lemma NoneChanged(x: seq<int>, n: nat)
    requires n <= |x|
    ensures Changed(x, x, n) == 0
  {
  }

  /** Served requests fill exactly one slot each. */
  lemma {:induction false} FillCount(de: seq<int>, reqs: seq<nat>, ed: seq<nat>, e0: nat)
    requires RangesIn(reqs, ed, |de|) && Fill(de, reqs, ed, e0).Ok?
    ensures Changed(de, Fill(de, reqs, ed, e0).value, |de|) == |reqs|
    decreases |reqs|
  {
    var after := Fill(de, reqs, ed, e0).value;
    if |reqs| == 0 {
      NoneChanged(de, |de|);
    } else {
      var d := FirstFree(de, ed[reqs[0]], ed[reqs[0] + 1]).d;
      assert Fill(de, reqs, ed, e0) == Fill(de[d := e0], reqs[1..], ed, e0);
      FillCount(de[d := e0], reqs[1..], ed, e0);
      assert after == Fill(de[d := e0], reqs[1..], ed, e0).value;
      assert Changed(de[d := e0], after, |de|) == |reqs| - 1;
      assert after[d] == e0 && de[d] != e0;
      ChangedUpdate(de, after, |de|, d, e0);
    }
  }

  /** Some slot of element `e`'s range was empty in `de` and holds `e0`
      in `after`. */
  predicate Served(de: seq<int>, after: seq<int>, ed: seq<nat>, e: nat, e0: nat)
    requires e + 1 < |ed| && ed[e + 1] <= |de| && |after| == |de|
  {
    exists d :: ed[e] <= d < ed[e + 1] && de[d] == NoElement && after[d] == e0
  }

  /** Every request ends with a slot of its element's range that was empty
      and now holds `e0`. */
  lemma {:induction false} FillServes(de: seq<int>, reqs: seq<nat>, ed: seq<nat>, e0: nat)
    requires RangesIn(reqs, ed, |de|) && Fill(de, reqs, ed, e0).Ok?
    ensures forall k :: 0 <= k < |reqs| ==> Served(de, Fill(de, reqs, ed, e0).value, ed, reqs[k], e0)
    decreases |reqs|
  {
    var after := Fill(de, reqs, ed, e0).value;
    if |reqs| > 0 {
      var d := FirstFree(de, ed[reqs[0]], ed[reqs[0] + 1]).d;
      var de' := de[d := e0];
      assert after == Fill(de', reqs[1..], ed, e0).value;
      FillServes(de', reqs[1..], ed, e0);
      forall k | 0 <= k < |reqs| ensures Served(de, after, ed, reqs[k], e0) {
        if k == 0 {
          assert ed[reqs[k]] <= d < ed[reqs[k] + 1] && de[d] == NoElement && after[d] == e0;
        } else {
          assert reqs[1..][k - 1] == reqs[k];
          assert Served(de', after, ed, reqs[k], e0);
          var d' :| ed[reqs[k]] <= d' < ed[reqs[k] + 1] && de'[d'] == NoElement && after[d'] == e0;
          assert de[d'] == NoElement;
        }
      }
    }
  }

  /** Every slot that changed lies in the range of some request. */
  lemma {:induction false} FillStaysInRanges(de: seq<int>, reqs: seq<nat>, ed: seq<nat>, e0: nat)
    requires RangesIn(reqs, ed, |de|) && Fill(de, reqs, ed, e0).Ok?
    ensures forall d :: 0 <= d < |de| && Fill(de, reqs, ed, e0).value[d] != de[d] ==>
      exists k :: 0 <= k < |reqs| && ed[reqs[k]] <= d < ed[reqs[k] + 1]
    decreases |reqs|
  {
    var after := Fill(de, reqs, ed, e0).value;
    if |reqs| > 0 {
      var d0 := FirstFree(de, ed[reqs[0]], ed[reqs[0] + 1]).d;
      assert after == Fill(de[d0 := e0], reqs[1..], ed, e0).value;
      FillStaysInRanges(de[d0 := e0], reqs[1..], ed, e0);
      forall d | 0 <= d < |de| && after[d] != de[d]
        ensures exists k :: 0 <= k < |reqs| && ed[reqs[k]] <= d < ed[reqs[k] + 1]
      {
        if d != d0 {
          var k :| 0 <= k < |reqs[1..]| && ed[reqs[1..][k]] <= d < ed[reqs[1..][k] + 1];
          assert reqs[1..][k] == reqs[k + 1];
        }
      }
    }
  }

  /** Request `k` is the one that stops the fill: the requests before it
      are served and its element's range is then full. */
  predicate Stuck(de: seq<int>, reqs: seq<nat>, ed: seq<nat>, e0: nat, k: nat)
    requires RangesIn(reqs, ed, |de|)
  {
    && k < |reqs|
    && Fill(de, reqs[..k], ed, e0).Ok?
    && FirstFree(Fill(de, reqs[..k], ed, e0).value, ed[reqs[k]], ed[reqs[k] + 1]).Full?
  }

  /** Once the first request is served at slot `d`, the request that stops
      the fill is the one that stops the fill of the rest from there. */
  lemma StuckAfterFirst(de: seq<int>, reqs: seq<nat>, ed: seq<nat>, e0: nat, d: nat, k: nat)
    requires RangesIn(reqs, ed, |de|) && 0 < k < |reqs|
    requires FirstFree(de, ed[reqs[0]], ed[reqs[0] + 1]) == Free(d)
    ensures Stuck(de, reqs, ed, e0, k) <==> Stuck(de[d := e0], reqs[1..], ed, e0, k - 1)
  {
    assert reqs[..k][0] == reqs[0];
    assert reqs[..k][1..] == reqs[1..][..k - 1];
    assert reqs[1..][k - 1] == reqs[k];
    assert Fill(de, reqs[..k], ed, e0) == Fill(de[d := e0], reqs[1..][..k - 1], ed, e0);
  }

  /** A first request that finds its range full stops the fill at once. */
  lemma StuckAtFirst(de: seq<int>, reqs: seq<nat>, ed: seq<nat>, e0: nat)
    requires RangesIn(reqs, ed, |de|) && |reqs| > 0
    requires FirstFree(de, ed[reqs[0]], ed[reqs[0] + 1]).Full?
    ensures Fill(de, reqs, ed, e0) == Err(NoFreeSlot(reqs[0]))
    ensures Stuck(de, reqs, ed, e0, 0)
    ensures forall k: nat :: Stuck(de, reqs, ed, e0, k) ==> k == 0
  {
    assert reqs[..0] == [];
    forall k: nat | 0 < k < |reqs| ensures !Stuck(de, reqs, ed, e0, k) {
      assert reqs[..k][0] == reqs[0];
    }
  }

  /** A first request that is served leaves the outcome to the rest. */
  lemma {:induction false} StuckLater(de: seq<int>, reqs: seq<nat>, ed: seq<nat>, e0: nat, d: nat)
    requires RangesIn(reqs, ed, |de|) && |reqs| > 0
    requires FirstFree(de, ed[reqs[0]], ed[reqs[0] + 1]) == Free(d)
    ensures Fill(de, reqs, ed, e0).Err? <==> exists k: nat :: Stuck(de, reqs, ed, e0, k)
    ensures forall k: nat :: Stuck(de, reqs, ed, e0, k) ==> Fill(de, reqs, ed, e0) == Err(NoFreeSlot(reqs[k]))
    decreases |reqs|, 0
  {
    var de' := de[d := e0];
    assert reqs[..0] == [];
    assert Fill(de, reqs, ed, e0) == Fill(de', reqs[1..], ed, e0);
    assert !Stuck(de, reqs, ed, e0, 0);
    FillFails(de', reqs[1..], ed, e0);
    forall k: nat | Stuck(de, reqs, ed, e0, k)
      ensures Fill(de, reqs, ed, e0) == Err(NoFreeSlot(reqs[k]))
    {
      StuckAfterFirst(de, reqs, ed, e0, d, k);
      assert reqs[1..][k - 1] == reqs[k];
    }
    if Fill(de, reqs, ed, e0).Err? {
      var k': nat :| Stuck(de', reqs[1..], ed, e0, k');
      StuckAfterFirst(de, reqs, ed, e0, d, k' + 1);
    }
  }

  /** The fill fails exactly when some request finds its range full once the
      earlier ones are served, and it names that request's element. */
  lemma {:induction false} FillFails(de: seq<int>, reqs: seq<nat>, ed: seq<nat>, e0: nat)
    requires RangesIn(reqs, ed, |de|)
    ensures Fill(de, reqs, ed, e0).Err? <==> exists k: nat :: Stuck(de, reqs, ed, e0, k)
    ensures forall k: nat :: Stuck(de, reqs, ed, e0, k) ==> Fill(de, reqs, ed, e0) == Err(NoFreeSlot(reqs[k]))
    decreases |reqs|, 1
  {
    if |reqs| > 0 {
      match FirstFree(de, ed[reqs[0]], ed[reqs[0] + 1])
      case Full =>
        StuckAtFirst(de, reqs, ed, e0);
      case Free(d) =>
        StuckLater(de, reqs, ed, e0, d);
    }
  }
}

=== FILE: doubles.dfy ===
/** The conversion `static_cast<double>` of a non-negative integer: IEEE 754
    binary64 keeps 53 significant bits, so an integer of up to 53 bits is
    kept exactly and a larger one is rounded to the nearest multiple of its
    unit in the last place, ties going to the even multiple. */
module Doubles {
  import opened Arith

  const TwoTo52: nat := 0x10_0000_0000_0000
  const TwoTo53: nat := 0x20_0000_0000_0000

  /** The spacing of binary64 values around `v`: 1 below 2^53, doubling
      with every further bit of `v`. */
  function Ulp(v: nat): (u: nat)
    ensures u >= 1
  {
    if v < TwoTo53 then 1 else 2 * Ulp(v / 2)
  }

  /** `v` has at most 53 significant bits at its spacing: it lies in the
      binade `[2^52 * Ulp(v), 2^53 * Ulp(v))` once it reaches 2^53. */
  lemma {:induction false} UlpBounds(v: nat)
    ensures v < TwoTo53 * Ulp(v)
    ensures v >= TwoTo53 ==> TwoTo52 * Ulp(v) <= v
  {
    if v >= TwoTo53 {
      UlpBounds(v / 2);
    }
  }

  function Dist(a: nat, b: nat): nat {
    if a < b then b - a else a - b
  }

  /** `v` rounded to a multiple of `u`, to the nearer one and on a tie to
      the even one. */
  function RoundAt(v: nat, u: nat): nat
    requires u >= 1
  {
    var lo := v - v % u;
    if 2 * (v % u) < u || (2 * (v % u) == u && (v / u) % 2 == 0) then lo else lo + u
  }

  /** The multiples of `u` on either side of `v` are `u * (v / u)` and the
      next one. */
  lemma Neighbours(v: nat, u: nat)
    requires u >= 1
    ensures v - v % u == u * (v / u) && v - v % u + u == u * (v / u + 1)
    ensures (v - v % u) % u == 0 && (v - v % u) / u == v / u
    ensures (v - v % u + u) % u == 0 && (v - v % u + u) / u == v / u + 1
  {
    MulAdd(u, v / u, 1);
    DivModUnique(v - v % u, u, v / u, 0);
    DivModUnique(v - v % u + u, u, v / u + 1, 0);
  }

  /** `RoundAt(v, u)` is a multiple of `u` within `u / 2` of `v`, and even
      (as a multiple of `u`) on a tie. */
  lemma RoundAtSpacing(v: nat, u: nat)
    requires u >= 1
    ensures RoundAt(v, u) % u == 0
    ensures 2 * Dist(RoundAt(v, u), v) <= u
    ensures 2 * Dist(RoundAt(v, u), v) == u ==> (RoundAt(v, u) / u) % 2 == 0
  {
    Neighbours(v, u);
  }

  /** No multiple of `u` is closer to `v` than `RoundAt(v, u)`. */
  lemma RoundAtNearest(v: nat, u: nat, m: nat)
    requires u >= 1 && m % u == 0
    ensures Dist(RoundAt(v, u), v) <= Dist(m, v)
  {
    Neighbours(v, u);
    var q, j := v / u, m / u;
    assert m == u * j;
    if j <= q {
      MulMono(u, j, q);
      assert m <= v - v % u;
    } else {
      MulMono(u, q + 1, j);
      assert v - v % u + u <= m;
    }
  }

  /** The binary64 value nearest to `v`. */
  function RoundToDouble(v: nat): (r: nat)
    ensures v < TwoTo53 ==> r == v
  {
    if v < TwoTo53 then
      DivModUnique(v, 1, v, 0);
      RoundAt(v, 1)
    else RoundAt(v, Ulp(v))
  }

  /** `RoundToDouble(v)` is a multiple of the spacing at `v`, at most half a
      spacing away, even on a tie, and no multiple of the spacing is closer. */
  lemma RoundToDoubleNearest(v: nat, m: nat)
    requires m % Ulp(v) == 0
    ensures RoundToDouble(v) % Ulp(v) == 0
    ensures 2 * Dist(RoundToDouble(v), v) <= Ulp(v)
    ensures 2 * Dist(RoundToDouble(v), v) == Ulp(v) ==> (RoundToDouble(v) / Ulp(v)) % 2 == 0
    ensures Dist(RoundToDouble(v), v) <= Dist(m, v)
  {
    RoundAtSpacing(v, Ulp(v));
    RoundAtNearest(v, Ulp(v), m);
  }

  /** The smallest `std::size_t` the conversion changes: 2^53 + 1 is a tie
      between 2^53 and 2^53 + 2 and goes to 2^53. */
  lemma FirstInexact()
    ensures RoundToDouble(TwoTo53 + 1) == TwoTo53
    ensures forall v: nat :: v < TwoTo53 + 1 ==> RoundToDouble(v) == v
  {
    assert Ulp(TwoTo53 + 1) == 2;
  }
}

=== FILE: form_integrals.dfy ===
/** The registry of integral kernels of a form (cpp/dolfin/fem/FormIntegrals.cpp).
    For each integral type the registry keeps a list of integrals ordered by
    subdomain id. An integral holds its kernel, its id and the mesh entities
    it is active on. Kernels are opaque here; the mesh enters only as its
    topological dimension and the values and dimension of a marker. */
module FormIntegrals {
  import opened Results

  datatype IntegralType = Cell | ExteriorFacet | InteriorFacet | Vertex

  /** An opaque kernel (the `tabulate_tensor` function pointer). */
  type Kernel = nat

  datatype Integral = Integral(kernel: Kernel, id: int, activeEntities: seq<int>)

  datatype Registry = Registry(cell: seq<Integral>, exteriorFacet: seq<Integral>,
                               interiorFacet: seq<Integral>, vertex: seq<Integral>)

  /** The `std::runtime_error`s of the registry. */
  datatype RegistryError =
    | DuplicateId(id: int)
    | InvalidIndex(index: nat)
    | InvalidDimension(dim: nat)

  /** The id of the default integral, active everywhere unless told otherwise. */
  const DefaultId: int := -1

  function Integrals(reg: Registry, t: IntegralType): seq<Integral> {
    match t
    case Cell => reg.cell
    case ExteriorFacet => reg.exteriorFacet
    case InteriorFacet => reg.interiorFacet
    case Vertex => reg.vertex
  }

  /** Replace the list of type `t`; the other lists stay. */
  function WithIntegrals(reg: Registry, t: IntegralType, xs: seq<Integral>): (r: Registry)
    ensures Integrals(r, t) == xs
    ensures forall u :: u != t ==> Integrals(r, u) == Integrals(reg, u)
  {
    match t
    case Cell => reg.(cell := xs)
    case ExteriorFacet => reg.(exteriorFacet := xs)
    case InteriorFacet => reg.(interiorFacet := xs)
    case Vertex => reg.(vertex := xs)
  }

  /** Ids strictly increase along the list. */
  predicate Sorted(xs: seq<Integral>) {
    forall a, b :: 0 <= a < b < |xs| ==> xs[a].id < xs[b].id
  }

  predicate HasId(xs: seq<Integral>, id: int) {
    exists k :: 0 <= k < |xs| && xs[k].id == id
  }

  /** The scan of `register_tabulate_tensor` from position `pos`: the
      position before the first larger id, or an error at an equal id met
      on the way. */
  function InsertionPoint(xs: seq<Integral>, id: int, pos: nat): (r: Result<nat, RegistryError>)
    requires pos <= |xs|
    ensures r.Ok? ==> pos <= r.value <= |xs|
    ensures r.Ok? ==> forall k :: pos <= k < r.value ==> xs[k].id < id
    ensures r.Ok? ==> r.value == |xs| || xs[r.value].id > id
    ensures r.Err? ==> r.error == DuplicateId(id) && exists k :: pos <= k < |xs| && xs[k].id == id
    decreases |xs| - pos
  {
    if pos == |xs| then Ok(pos)
    else if xs[pos].id == id then Err(DuplicateId(id))
    else if xs[pos].id > id then Ok(pos)
    else InsertionPoint(xs, id, pos + 1)
  }

  /** `xs` with `x` inserted at `pos`. */
  function Insert(xs: seq<Integral>, pos: nat, x: Integral): (ys: seq<Integral>)
    requires pos <= |xs|
    ensures |ys| == |xs| + 1 && ys[pos] == x
    ensures forall k :: 0 <= k < pos ==> ys[k] == xs[k]
    ensures forall k :: pos < k < |ys| ==> ys[k] == xs[k - 1]
  {
    xs[..pos] + [x] + xs[pos..]
  }

  /** Inserting adds the new id and keeps every other. */
  lemma InsertIds(xs: seq<Integral>, pos: nat, x: Integral)
    requires pos <= |xs|
    ensures forall id :: HasId(Insert(xs, pos, x), id) <==> HasId(xs, id) || id == x.id
  {
    var ys := Insert(xs, pos, x);
    forall id | HasId(ys, id) ensures HasId(xs, id) || id == x.id {
      var k :| 0 <= k < |ys| && ys[k].id == id;
      if k < pos {
        assert xs[k].id == id;
      } else if k > pos {
        assert xs[k - 1].id == id;
      }
    }
    forall id | HasId(xs, id) ensures HasId(ys, id) {
      var k :| 0 <= k < |xs| && xs[k].id == id;
      if k < pos {
        assert ys[k].id == id;
      } else {
        assert ys[k + 1].id == id;
      }
    }
    assert ys[pos].id == x.id;
  }

  /** On a sorted list the scan fails exactly at a present id, and inserting
      at the point it finds keeps the list sorted. */
  lemma InsertionPointSorted(xs: seq<Integral>, id: int, x: Integral)
    requires Sorted(xs) && x.id == id
    ensures InsertionPoint(xs, id, 0).Err? <==> HasId(xs, id)
    ensures InsertionPoint(xs, id, 0).Ok? ==> Sorted(Insert(xs, InsertionPoint(xs, id, 0).value, x))
  {
    var r := InsertionPoint(xs, id, 0);
    if r.Ok? {
      var pos := r.value;
      assert forall k :: pos <= k < |xs| ==> xs[k].id > id by {
        forall k | pos <= k < |xs| ensures xs[k].id > id {
          if k > pos {
            assert xs[pos].id < xs[k].id;
          }
        }
      }
      var ys := Insert(xs, pos, x);
      forall a, b | 0 <= a < b < |ys| ensures ys[a].id < ys[b].id {
        if b < pos {
        } else if b == pos {
        } else if a < pos {
          assert xs[a].id < id;
        } else if a == pos {
        } else {
          assert xs[a - 1].id < xs[b - 1].id;
        }
      }
    }
  }

  /** `register_tabulate_tensor(type, id, kernel)`: insert a new integral
      without active entities at the insertion point. On a sorted list this
      refuses exactly the ids already present, keeps the list sorted, and
      adds the id and nothing else. */
  function Register(reg: Registry, t: IntegralType, id: int, kernel: Kernel): (r: Result<Registry, RegistryError>)
    ensures Sorted(Integrals(reg, t)) ==> (r.Err? <==> HasId(Integrals(reg, t), id))
    ensures r.Err? ==> r.error == DuplicateId(id) && HasId(Integrals(reg, t), id)
    ensures r.Ok? ==> forall u :: u != t ==> Integrals(r.value, u) == Integrals(reg, u)
    ensures r.Ok? ==> |Integrals(r.value, t)| == |Integrals(reg, t)| + 1
    ensures r.Ok? ==> exists pos :: (0 <= pos <= |Integrals(reg, t)|
      && Integrals(r.value, t) == Integrals(reg, t)[..pos] + [Integral(kernel, id, [])] + Integrals(reg, t)[pos..])
    ensures r.Ok? && Sorted(Integrals(reg, t)) ==> Sorted(Integrals(r.value, t))
    ensures r.Ok? ==> forall x :: HasId(Integrals(r.value, t), x) <==> HasId(Integrals(reg, t), x) || x == id
  {
    var xs := Integrals(reg, t);
    var x := Integral(kernel, id, []);
    assert Sorted(xs) ==> ((InsertionPoint(xs, id, 0).Err? <==> HasId(xs, id))
      && (InsertionPoint(xs, id, 0).Ok? ==> Sorted(Insert(xs, InsertionPoint(xs, id, 0).value, x)))) by {
      if Sorted(xs) {
        InsertionPointSorted(xs, id, x);
      }
    }
    var pos :- InsertionPoint(xs, id, 0);
    InsertIds(xs, pos, x);
    Ok(WithIntegrals(reg, t, Insert(xs, pos, x)))
  }

  /** `num_integrals(type)`. */
  function NumIntegrals(reg: Registry, t: IntegralType): (n: nat)
  {
    |Integrals(reg, t)|
  }

  /** `integral_ids(type)`: the ids in stored order, which for a sorted
      list is ascending. */
  function IntegralIds(reg: Registry, t: IntegralType): (ids: seq<int>)
    ensures |ids| == NumIntegrals(reg, t)
    ensures forall k :: 0 <= k < |ids| ==> ids[k] == Integrals(reg, t)[k].id
    ensures Sorted(Integrals(reg, t)) ==> forall a, b :: 0 <= a < b < |ids| ==> ids[a] < ids[b]
  {
    seq(|Integrals(reg, t)|, k requires 0 <= k < |Integrals(reg, t)| => Integrals(reg, t)[k].id)
  }

  /** A successful registration adds one integral whose id is then listed
      by `integral_ids`; registering the same id again fails. */
  lemma RegisterThenIds(reg: Registry, t: IntegralType, id: int, kernel: Kernel)
    requires Sorted(Integrals(reg, t)) && Register(reg, t, id, kernel).Ok?
    ensures var reg' := Register(reg, t, id, kernel).value;
      && NumIntegrals(reg', t) == NumIntegrals(reg, t) + 1
      && id in IntegralIds(reg', t)
      && Register(reg', t, id, kernel).Err?
  {
    var reg' := Register(reg, t, id, kernel).value;
    var k :| 0 <= k < |Integrals(reg', t)| && Integrals(reg', t)[k].id == id;
    assert IntegralIds(reg', t)[k] == id;
  }

  /** `integral_domains(type, i)`: the active entities of integral `i`, or
      an error for an index past the end. */
  function IntegralDomains(reg: Registry, t: IntegralType, i: nat): (r: Result<seq<int>, RegistryError>)
    ensures r.Err? <==> i >= NumIntegrals(reg, t)
    ensures r.Err? ==> r.error == InvalidIndex(i)
    ensures r.Ok? ==> r.value == Integrals(reg, t)[i].activeEntities
  {
    if i >= |Integrals(reg, t)| then Err(InvalidIndex(i)) else Ok(Integrals(reg, t)[i].activeEntities)
  }

  /** What `get_tabulate_tensor_function` can do: return a kernel, throw,
      or read the element one past the end of the list (undefined
      behaviour in C++). */
  datatype Access = Found(kernel: Kernel) | Thrown(error: RegistryError) | ReadPastEnd

  /** `get_tabulate_tensor_function(type, i)` as written: the guard refuses
      only indices above the size, so the index equal to the size reads
      past the end. */
  function GetTabulateTensorAsWritten(reg: Registry, t: IntegralType, i: nat): (r: Access)
    ensures r.Thrown? <==> i > NumIntegrals(reg, t)
    ensures r.ReadPastEnd? <==> i == NumIntegrals(reg, t)
    ensures r.Found? ==> i < NumIntegrals(reg, t) && r.kernel == Integrals(reg, t)[i].kernel
  {
    var xs := Integrals(reg, t);
    if i > |xs| then Thrown(InvalidIndex(i))
    else if i == |xs| then ReadPastEnd
    else Found(xs[i].kernel)
  }

  /** On every registry, the index equal to the number of integrals gets
      through the guard: with no integrals, index 0 does. */
  lemma GuardLetsSizeThrough(reg: Registry, t: IntegralType)
    ensures GetTabulateTensorAsWritten(reg, t, NumIntegrals(reg, t)) == ReadPastEnd
    ensures GetTabulateTensorAsWritten(Registry([], [], [], []), t, 0) == ReadPastEnd
  {
  }

  /** `get_tabulate_tensor_function(type, i)` with the guard `i >= size`
      that `integral_domains` uses: every index either names a kernel or is
      refused. */
  function GetTabulateTensor(reg: Registry, t: IntegralType, i: nat): (r: Result<Kernel, RegistryError>)
    ensures r.Err? <==> i >= NumIntegrals(reg, t)
    ensures r.Err? ==> r.error == InvalidIndex(i)
    ensures r.Ok? ==> r.value == Integrals(reg, t)[i].kernel
  {
    if i >= |Integrals(reg, t)| then Err(InvalidIndex(i)) else Ok(Integrals(reg, t)[i].kernel)
  }

  /** The corrected accessor agrees with the written one wherever the
      written one is defined, and refuses where it reads past the end. */
  lemma CorrectedGuardAgrees(reg: Registry, t: IntegralType, i: nat)
    ensures GetTabulateTensorAsWritten(reg, t, i).Found? ==> GetTabulateTensor(reg, t, i) == Ok(GetTabulateTensorAsWritten(reg, t, i).kernel)
    ensures GetTabulateTensorAsWritten(reg, t, i).Thrown? ==> GetTabulateTensor(reg, t, i) == Err(InvalidIndex(i))
    ensures GetTabulateTensorAsWritten(reg, t, i).ReadPastEnd? ==> GetTabulateTensor(reg, t, i) == Err(InvalidIndex(i))
  {
  }

  // ----- Subdomain markers -----

  /** The `int` that `std::map<int, int>::find` receives for a marker value
      of type `std::size_t`: the value modulo 2^32, read as two's
      complement. */
  function Narrow(v: nat): (r: int)
    ensures -0x8000_0000 <= r < 0x8000_0000
    ensures v < 0x8000_0000 ==> r == v
  {
    var w := v % 0x1_0000_0000;
    if w >= 0x8000_0000 then w - 0x1_0000_0000 else w
  }

  /** The entity dimension `set_domains` expects of a marker, as written:
      facets are one below the cell dimension, and vertices are given
      dimension 1. */
  function ExpectedDimensionAsWritten(t: IntegralType, tdim: nat): int {
    match t
    case ExteriorFacet => tdim - 1
    case InteriorFacet => tdim - 1
    case Vertex => 1
    case Cell => tdim
  }

  /** A vertex marker has entity dimension 0, and the written check refuses
      it on every mesh. */
  lemma VertexMarkerRefusedAsWritten(tdim: nat)
    ensures ExpectedDimensionAsWritten(Vertex, tdim) != 0
    ensures ExpectedDimension(Vertex, tdim) == 0
  {
  }

  /** The entity dimension of the marker for each integral type: cells,
      facets (one below), and vertices (dimension 0). */
  function ExpectedDimension(t: IntegralType, tdim: nat): (d: int)
    ensures t == Vertex ==> d == 0
    ensures t != Vertex ==> d == ExpectedDimensionAsWritten(t, tdim)
  {
    match t
    case ExteriorFacet => tdim - 1
    case InteriorFacet => tdim - 1
    case Vertex => 0
    case Cell => tdim
  }

  /** The ascending indices below `n` whose marker value selects `id`. */
  function Matching(marker: seq<nat>, id: int, n: nat): seq<int>
    requires n <= |marker|
  {
    if n == 0 then [] else Matching(marker, id, n - 1) + (if Narrow(marker[n - 1]) == id then [n - 1] else [])
  }

  /** `Matching` holds exactly the marked indices, in ascending order. */
  lemma {:induction false} MatchingIsMarked(marker: seq<nat>, id: int, n: nat)
    requires n <= |marker|
    ensures forall k :: k in Matching(marker, id, n) <==> 0 <= k < n && Narrow(marker[k]) == id
    ensures forall a, b :: 0 <= a < b < |Matching(marker, id, n)| ==> Matching(marker, id, n)[a] < Matching(marker, id, n)[b]
  {
    if n > 0 {
      MatchingIsMarked(marker, id, n - 1);
      var prev := Matching(marker, id, n - 1);
      forall a | 0 <= a < |prev| ensures prev[a] < n - 1 {
        assert prev[a] in prev;
      }
    }
  }

  /** No later integral of the list has the same id as integral `k`: the
      one `set_domains` files the id under. */
  predicate LastWithId(xs: seq<Integral>, k: nat)
    requires k < |xs|
  {
    forall k' :: k < k' < |xs| ==> xs[k'].id != xs[k].id
  }

  /** Only one integral of each id is the last with that id. */
  lemma LastWithIdUnique(xs: seq<Integral>, k: nat, k': nat)
    requires k < |xs| && k' < |xs| && xs[k].id == xs[k'].id
    requires LastWithId(xs, k) && LastWithId(xs, k')
    ensures k == k'
  {
  }

  /** The first loop of `set_domains`: clear the entities of every
      integral other than the default one and file each such id under the
      index of the last integral that has it. */
  method ReverseMap(xs: seq<Integral>) returns (idToIntegral: map<int, nat>, ys: seq<Integral>)
    ensures forall id :: id in idToIntegral <==> id != DefaultId && HasId(xs, id)
    ensures forall id :: id in idToIntegral ==>
      idToIntegral[id] < |xs| && xs[idToIntegral[id]].id == id && LastWithId(xs, idToIntegral[id])
    ensures |ys| == |xs|
    ensures forall k :: 0 <= k < |xs| ==> ys[k].kernel == xs[k].kernel && ys[k].id == xs[k].id
    ensures forall k :: 0 <= k < |xs| ==> ys[k].activeEntities == if xs[k].id == DefaultId then xs[k].activeEntities else []
  {
    idToIntegral := map[];
    ys := xs;
    var i := 0;
    while i < |xs|
      invariant 0 <= i <= |xs| && |ys| == |xs|
      invariant forall id :: id in idToIntegral <==> id != DefaultId && exists k :: 0 <= k < i && xs[k].id == id
      invariant forall id :: id in idToIntegral ==>
        idToIntegral[id] < i && xs[idToIntegral[id]].id == id
        && forall k' :: idToIntegral[id] < k' < i ==> xs[k'].id != id
      invariant forall k :: 0 <= k < |xs| ==> ys[k].kernel == xs[k].kernel && ys[k].id == xs[k].id
      invariant forall k :: i <= k < |xs| ==> ys[k] == xs[k]
      invariant forall k :: 0 <= k < i ==> ys[k].activeEntities == if xs[k].id == DefaultId then xs[k].activeEntities else []
    {
      if xs[i].id != DefaultId {
        ys := ys[i := ys[i].(activeEntities := [])];
        idToIntegral := idToIntegral[xs[i].id := i];
      }
      i := i + 1;
    }
  }

  /** The entities integral `y` at index `k` holds once the markers below
      `m` are filed: the marked ones are added to the integral its id is
      filed under. */
  function Filed(y: Integral, k: nat, idToIntegral: map<int, nat>, marker: seq<nat>, m: nat): seq<int>
    requires m <= |marker|
  {
    if y.id in idToIntegral && idToIntegral[y.id] == k
    then y.activeEntities + Matching(marker, y.id, m)
    else y.activeEntities
  }

  /** The second loop of `set_domains`: every marked entity is appended to
      the integral its marker value is filed under. */
  method FileEntities(ys: seq<Integral>, idToIntegral: map<int, nat>, marker: seq<nat>) returns (zs: seq<Integral>)
    requires forall id :: id in idToIntegral ==> idToIntegral[id] < |ys| && ys[idToIntegral[id]].id == id
    ensures |zs| == |ys|
    ensures forall k :: 0 <= k < |ys| ==> zs[k].kernel == ys[k].kernel && zs[k].id == ys[k].id
    ensures forall k :: 0 <= k < |ys| ==> zs[k].activeEntities == Filed(ys[k], k, idToIntegral, marker, |marker|)
  {
    zs := ys;
    var m := 0;
    while m < |marker|
      invariant 0 <= m <= |marker| && |zs| == |ys|
      invariant forall k :: 0 <= k < |ys| ==> zs[k].kernel == ys[k].kernel && zs[k].id == ys[k].id
      invariant forall k :: 0 <= k < |ys| ==> zs[k].activeEntities == Filed(ys[k], k, idToIntegral, marker, m)
    {
      var key := Narrow(marker[m]);
      if key in idToIntegral {
        var k := idToIntegral[key];
        zs := zs[k := zs[k].(activeEntities := zs[k].activeEntities + [m])];
      }
      m := m + 1;
    }
  }

  /** What `set_domains` leaves behind once the marker is accepted: the
      other integral types are untouched, and of the integrals of type `t`
      every one other than the default one is active on exactly the entities
      marked with its id (an integral shadowed by a later one with the same
      id ends with none), while the default integral keeps its entities. */
  predicate DomainsFiled(reg: Registry, t: IntegralType, marker: seq<nat>, reg': Registry) {
    && (forall u :: u != t ==> Integrals(reg', u) == Integrals(reg, u))
    && |Integrals(reg', t)| == |Integrals(reg, t)|
    && forall k :: 0 <= k < |Integrals(reg, t)| ==>
      var x, y := Integrals(reg, t)[k], Integrals(reg', t)[k];
      && y.kernel == x.kernel && y.id == x.id
      && (x.id == DefaultId ==> y.activeEntities == x.activeEntities)
      && (x.id != DefaultId && LastWithId(Integrals(reg, t), k) ==> y.activeEntities == Matching(marker, x.id, |marker|))
      && (x.id != DefaultId && !LastWithId(Integrals(reg, t), k) ==> y.activeEntities == [])
  }

  /** The two loops of `set_domains`, run on the integrals of type `t`. */
  method FileDomains(reg: Registry, t: IntegralType, marker: seq<nat>) returns (r: Registry)
    ensures DomainsFiled(reg, t, marker, r)
  {
    var xs := Integrals(reg, t);
    var idToIntegral, ys := ReverseMap(xs);
    var zs := FileEntities(ys, idToIntegral, marker);
    forall k | 0 <= k < |xs| && xs[k].id != DefaultId
      ensures idToIntegral[xs[k].id] == k <==> LastWithId(xs, k)
    {
      assert HasId(xs, xs[k].id);
      var k' := idToIntegral[xs[k].id];
      if LastWithId(xs, k) {
        LastWithIdUnique(xs, k, k');
      }
    }
    r := WithIntegrals(reg, t, zs);
  }

  /** `set_domains(type, marker)` for a mesh of dimension `tdim`, as
      written: nothing to do without integrals; refuse a marker whose
      dimension differs from `ExpectedDimensionAsWritten` (so every vertex
      marker, of dimension 0, is refused); otherwise file the marked
      entities. */
  method SetDomains(reg: Registry, t: IntegralType, tdim: nat, markerDim: nat, marker: seq<nat>)
    returns (r: Result<Registry, RegistryError>)
    ensures |Integrals(reg, t)| == 0 ==> r == Ok(reg)
    ensures |Integrals(reg, t)| > 0 ==> (r.Err? <==> ExpectedDimensionAsWritten(t, tdim) != markerDim)
    ensures |Integrals(reg, t)| > 0 && t == Vertex && markerDim == 0 ==> r.Err?
    ensures r.Err? ==> r.error == InvalidDimension(markerDim)
    ensures r.Ok? ==> DomainsFiled(reg, t, marker, r.value)
  {
    if |Integrals(reg, t)| == 0 {
      return Ok(reg);
    }
    if ExpectedDimensionAsWritten(t, tdim) != markerDim {
      return Err(InvalidDimension(markerDim));
    }
    var reg' := FileDomains(reg, t, marker);
    r := Ok(reg');
  }

  /** `set_domains` with the dimension check corrected to
      `ExpectedDimension`: a vertex marker of dimension 0 is accepted and
      filed like any other. */
  method SetDomainsCorrected(reg: Registry, t: IntegralType, tdim: nat, markerDim: nat, marker: seq<nat>)
    returns (r: Result<Registry, RegistryError>)
    ensures |Integrals(reg, t)| == 0 ==> r == Ok(reg)
    ensures |Integrals(reg, t)| > 0 ==> (r.Err? <==> ExpectedDimension(t, tdim) != markerDim)
    ensures t == Vertex && markerDim == 0 ==> r.Ok?
    ensures r.Err? ==> r.error == InvalidDimension(markerDim)
    ensures r.Ok? ==> DomainsFiled(reg, t, marker, r.value)
  {
    if |Integrals(reg, t)| == 0 {
      return Ok(reg);
    }
    if ExpectedDimension(t, tdim) != markerDim {
      return Err(InvalidDimension(markerDim));
    }
    var reg' := FileDomains(reg, t, marker);
    r := Ok(reg');
  }

  /** The cell branch of `set_default_domains`: a default cell integral, if
      there is one, becomes active on every cell `0, 1, ..., numCells - 1`;
      every other integral stays as it was. */
  function SetDefaultCellDomains(reg: Registry, numCells: nat): (r: Registry)
    ensures |reg.cell| > 0 && reg.cell[0].id == DefaultId ==>
      |r.cell| == |reg.cell| && r.cell[0].kernel == reg.cell[0].kernel && r.cell[0].id == DefaultId
      && |r.cell[0].activeEntities| == numCells
      && (forall k :: 0 <= k < numCells ==> r.cell[0].activeEntities[k] == k)
      && r.cell[1..] == reg.cell[1..]
    ensures !(|reg.cell| > 0 && reg.cell[0].id == DefaultId) ==> r == reg
    ensures r.exteriorFacet == reg.exteriorFacet && r.interiorFacet == reg.interiorFacet && r.vertex == reg.vertex
  {
    if |reg.cell| > 0 && reg.cell[0].id == DefaultId then
      reg.(cell := reg.cell[0 := reg.cell[0].(activeEntities := seq(numCells, k => k))])
    else reg
  }
}

=== FILE: graph_renumbering.dfy ===
/** Renumbering the vertices of a graph through Boost orderings
    (dolfin/graph/BoostGraphRenumbering.cpp): the conversion of a DOLFIN
    graph (one neighbour list per vertex) into a Boost adjacency list, and
    the inversion of the ordering Boost returns into an old-to-new map. The
    orderings themselves are parameters of the model. */
module GraphRenumbering {
  import opened Arith

  /** A DOLFIN graph: the neighbours of each vertex. */
  type Graph = seq<seq<nat>>

  /** A Boost adjacency list: its vertex count and its edges in the order
      they were added. */
  datatype BoostGraph = BoostGraph(numVertices: nat, edges: seq<(nat, nat)>)

  /** Every neighbour is a vertex of the graph. */
  predicate GraphWf(graph: Graph) {
    forall v, k :: 0 <= v < |graph| && 0 <= k < |graph[v]| ==> graph[v][k] < |graph|
  }

  /** `p` lists each of `0, ..., n - 1` exactly once. */
  predicate IsPermutation(p: seq<nat>, n: nat) {
    && |p| == n
    && (forall i :: 0 <= i < n ==> p[i] < n)
    && (forall i, i' :: 0 <= i < i' < n ==> p[i] != p[i'])
  }

  /** `boost::add_edge` on a `vecS` vertex list: an edge to a vertex beyond
      the current count grows the vertex count. */
  function AddEdge(g: BoostGraph, v: nat, w: nat): (r: BoostGraph)
  {
    BoostGraph(Max(g.numVertices, Max(v, w) + 1), g.edges + [(v, w)])
  }

  /** Add the edges from `v` to those of `nbrs` that `keep` accepts. */
  function AddNeighbours(g: BoostGraph, v: nat, nbrs: seq<nat>, keep: (nat, nat) -> bool): (r: BoostGraph)
    ensures forall e :: e in r.edges <==> e in g.edges || (e.0 == v && e.1 in nbrs && keep(v, e.1))
    ensures r.numVertices >= g.numVertices
    ensures g.numVertices > v && (forall k :: 0 <= k < |nbrs| ==> nbrs[k] < g.numVertices) ==> r.numVertices == g.numVertices
    decreases |nbrs|
  {
    if |nbrs| == 0 then g
    else
      var g' := if keep(v, nbrs[0]) then AddEdge(g, v, nbrs[0]) else g;
      var r := AddNeighbours(g', v, nbrs[1..], keep);
      assert forall w :: w in nbrs <==> w == nbrs[0] || w in nbrs[1..];
      r
  }

  /** The loops of both builders from vertex `v` on. */
  function AddVertices(g: BoostGraph, graph: Graph, v: nat, keep: (nat, nat) -> bool): (r: BoostGraph)
    requires v <= |graph|
    ensures forall e :: e in r.edges <==>
      e in g.edges || (v <= e.0 < |graph| && e.1 in graph[e.0] && keep(e.0, e.1))
    ensures r.numVertices >= g.numVertices
    ensures g.numVertices >= |graph| && GraphWf(graph) ==> r.numVertices == g.numVertices
    decreases |graph| - v
  {
    if v == |graph| then g
    else AddVertices(AddNeighbours(g, v, graph[v], keep), graph, v + 1, keep)
  }

  /** Both builders: start from `n` isolated vertices and add the accepted
      edges vertex by vertex. */
  function BuildGraph(graph: Graph, keep: (nat, nat) -> bool): (r: BoostGraph)
    ensures forall e :: e in r.edges <==> e.0 < |graph| && e.1 in graph[e.0] && keep(e.0, e.1)
    ensures r.numVertices >= |graph|
    ensures GraphWf(graph) ==> r.numVertices == |graph|
  {
    AddVertices(BoostGraph(|graph|, []), graph, 0, keep)
  }

  /** `build_undirected_graph`: keep the edge (v, w) only when `v < w`, so
      an undirected edge listed from both ends is added once and no loop is
      added. */
  function BuildUndirectedGraph(graph: Graph): (r: BoostGraph)
    ensures forall v: nat, w: nat :: (v, w) in r.edges <==> v < |graph| && w in graph[v] && v < w
    ensures forall v: nat, w: nat :: (v, w) in r.edges ==> v != w && (w, v) !in r.edges
    ensures r.numVertices >= |graph|
    ensures GraphWf(graph) ==> r.numVertices == |graph|
  {
    BuildGraph(graph, (v, w) => v < w)
  }

  /** `build_directed_graph`: keep every edge except loops. */
  function BuildDirectedGraph(graph: Graph): (r: BoostGraph)
    ensures forall v: nat, w: nat :: (v, w) in r.edges <==> v < |graph| && w in graph[v] && v != w
    ensures r.numVertices >= |graph|
    ensures GraphWf(graph) ==> r.numVertices == |graph|
  {
    BuildGraph(graph, (v, w) => v != w)
  }

  // ----- Inverting an ordering -----

  /** The vertices `0, ..., n - 1`. */
  function Range(n: nat): (r: set<nat>)
    ensures forall x: nat :: x in r <==> x < n
    ensures |r| == n
  {
    if n == 0 then {} else Range(n - 1) + {n - 1}
  }

  lemma {:induction false} DistinctCard(p: seq<nat>)
    requires forall i, i' :: 0 <= i < i' < |p| ==> p[i] != p[i']
    ensures |set i | 0 <= i < |p| :: p[i]| == |p|
  {
    if |p| > 0 {
      var init := p[..|p| - 1];
      DistinctCard(init);
      var before := set i | 0 <= i < |init| :: init[i];
      var after := set i | 0 <= i < |p| :: p[i];
      assert after == before + {p[|p| - 1]};
      assert p[|p| - 1] !in before;
    }
  }

  lemma {:induction false} SubsetCard(a: set<nat>, b: set<nat>)
    requires a <= b
    ensures |a| <= |b|
    decreases |b|
  {
    if a != {} {
      var x :| x in a;
      SubsetCard(a - {x}, b - {x});
    }
  }

  /** A permutation of `0, ..., n - 1` takes every value (pigeonhole). */
  lemma PermutationOnto(p: seq<nat>, n: nat)
    requires IsPermutation(p, n)
    ensures forall j :: 0 <= j < n ==> j in p
  {
    var values := set i | 0 <= i < n :: p[i];
    DistinctCard(p);
    forall j | 0 <= j < n ensures j in p {
      if j !in p {
        assert values <= Range(n) - {j};
        SubsetCard(values, Range(n) - {j});
        assert false;
      }
    }
  }

  /** The loop `map[inv_perm[i]] = i` over a zero-filled `map`. */
  method OldToNew(invPerm: seq<nat>, n: nat) returns (m: seq<nat>)
    requires |invPerm| == n && forall i :: 0 <= i < n ==> invPerm[i] < n
    ensures |m| == n
    ensures forall i :: 0 <= i < n && (forall i' :: i < i' < n ==> invPerm[i'] != invPerm[i]) ==> m[invPerm[i]] == i
    ensures forall j :: 0 <= j < n && (forall i :: 0 <= i < n ==> invPerm[i] != j) ==> m[j] == 0
    ensures IsPermutation(invPerm, n) ==>
      && IsPermutation(m, n)
      && (forall i :: 0 <= i < n ==> m[invPerm[i]] == i)
      && (forall j :: 0 <= j < n ==> invPerm[m[j]] == j)
  {
    m := seq(n, _ => 0);
    var i := 0;
    while i < n
      invariant 0 <= i <= n && |m| == n
      invariant forall k :: 0 <= k < i && (forall k' :: k < k' < i ==> invPerm[k'] != invPerm[k]) ==> m[invPerm[k]] == k
      invariant forall j :: 0 <= j < n && (forall k :: 0 <= k < i ==> invPerm[k] != j) ==> m[j] == 0
    {
      m := m[invPerm[i] := i];
      i := i + 1;
    }
    if IsPermutation(invPerm, n) {
      InverseOfPermutation(invPerm, m, n);
    }
  }

  /** A map that sends every `p[i]` to `i` is the inverse permutation of the
      permutation `p`. */
  lemma InverseOfPermutation(p: seq<nat>, m: seq<nat>, n: nat)
    requires IsPermutation(p, n) && |m| == n
    requires forall i :: 0 <= i < n && (forall i' :: i < i' < n ==> p[i'] != p[i]) ==> m[p[i]] == i
    ensures IsPermutation(m, n)
    ensures forall i :: 0 <= i < n ==> m[p[i]] == i
    ensures forall j :: 0 <= j < n ==> p[m[j]] == j
  {
    forall i | 0 <= i < n ensures m[p[i]] == i {
      assert forall i' :: i < i' < n ==> p[i'] != p[i];
    }
    PermutationOnto(p, n);
    forall j | 0 <= j < n ensures m[j] < n && p[m[j]] == j {
      assert j in p;
      var k :| 0 <= k < n && p[k] == j;
    }
    forall j, j' | 0 <= j < j' < n ensures m[j] != m[j'] {
      assert p[m[j]] == j && p[m[j']] == j';
    }
  }

  /** The sequence written through a reverse iterator: the first value
      lands last. */
  function Reverse(s: seq<nat>): (r: seq<nat>)
    ensures |r| == |s| && forall k :: 0 <= k < |s| ==> r[k] == s[|s| - 1 - k]
  {
    seq(|s|, k requires 0 <= k < |s| => s[|s| - 1 - k])
  }

  lemma ReversePermutation(s: seq<nat>, n: nat)
    requires IsPermutation(s, n)
    ensures IsPermutation(Reverse(s), n)
  {
  }

  /** `compute_cuthill_mckee(graph, reverse)`: order the undirected Boost
      graph with `ordering` (written forwards or backwards into `inv_perm`)
      and invert. Vertex `ordering[k]` gets the new index `k`, or `n - 1 - k`
      when reversed. */
  method ComputeCuthillMckee(graph: Graph, reverse: bool, ordering: BoostGraph -> seq<nat>)
    returns (m: seq<nat>)
    requires IsPermutation(ordering(BuildUndirectedGraph(graph)), |graph|)
    ensures IsPermutation(m, |graph|)
    ensures var ord := ordering(BuildUndirectedGraph(graph));
      forall k :: 0 <= k < |graph| ==> m[ord[k]] == if reverse then |graph| - 1 - k else k
  {
    var n := |graph|;
    var ord := ordering(BuildUndirectedGraph(graph));
    var invPerm := if reverse then Reverse(ord) else ord;
    ReversePermutation(ord, n);
    m := OldToNew(invPerm, n);
    if reverse {
      forall k | 0 <= k < n ensures m[ord[k]] == n - 1 - k {
        assert invPerm[n - 1 - k] == ord[k];
      }
    }
  }

  /** `compute_king(graph)`: the King ordering of the undirected Boost
      graph, always written backwards, inverted. */
  method ComputeKing(graph: Graph, ordering: BoostGraph -> seq<nat>) returns (m: seq<nat>)
    requires IsPermutation(ordering(BuildUndirectedGraph(graph)), |graph|)
    ensures IsPermutation(m, |graph|)
    ensures var ord := ordering(BuildUndirectedGraph(graph));
      forall k :: 0 <= k < |graph| ==> m[ord[k]] == |graph| - 1 - k
  {
    m := ComputeCuthillMckee(graph, true, ordering);
  }

  /** `compute_minimum_degree(graph, delta)`: the minimum-degree ordering
      of the directed Boost graph (with `delta` fixed inside `ordering`),
      written forwards, inverted. */
  method ComputeMinimumDegree(graph: Graph, ordering: BoostGraph -> seq<nat>) returns (m: seq<nat>)
    requires IsPermutation(ordering(BuildDirectedGraph(graph)), |graph|)
    ensures IsPermutation(m, |graph|)
    ensures var ord := ordering(BuildDirectedGraph(graph));
      forall k :: 0 <= k < |graph| ==> m[ord[k]] == k
  {
    var ord := ordering(BuildDirectedGraph(graph));
    m := OldToNew(ord, |graph|);
  }

  /** The reversed orderings number every vertex `n - 1 - k` where the
      forward ordering numbers it `k`. */
  lemma ReversedNumbering(m: seq<nat>, m': seq<nat>, ord: seq<nat>, n: nat)
    requires IsPermutation(ord, n) && |m| == n && |m'| == n
    requires forall k :: 0 <= k < n ==> m[ord[k]] == k
    requires forall k :: 0 <= k < n ==> m'[ord[k]] == n - 1 - k
    ensures forall v :: 0 <= v < n ==> m'[v] == n - 1 - m[v]
  {
    PermutationOnto(ord, n);
    forall v | 0 <= v < n ensures m'[v] == n - 1 - m[v] {
      assert v in ord;
      var k :| 0 <= k < n && ord[k] == v;
    }
  }
}

=== FILE: results.dfy ===
/** Failure-compatible result type shared by every module of the model.
    An `Err` stands for a C++ exception, an `error(...)` call or a failed
    `dolfin_assert`. */
module Results {

  datatype Result<+T, +E> = Ok(value: T) | Err(error: E) {

    predicate IsFailure() {
      Err?
    }

    function PropagateFailure<U>(): Result<U, E>
      requires Err?
    {
      Err(error)
    }

    function Extract(): T
      requires Ok?
    {
      value
    }
  }
}

=== FILE: seqs.dfy ===
/** Predicates on sequences shared by several modules. */
module Seqs {

  /** No element occurs twice. */
  predicate Distinct<T(==)>(xs: seq<T>) {
    forall a, b :: 0 <= a < b < |xs| ==> xs[a] != xs[b]
  }
}

=== FILE: table.dfy ===
/** A table of strings indexed by (row, column) labels
    (cpp/dolfin/common/Table.cpp). Rows and columns are listed in the order
    in which they were first used; numeric entries keep their value next to
    their text. `row_set` and `col_set`, which the class keeps to answer
    membership quickly, are the element sets of `rows` and `cols` here. */
module Tables {
  import opened Results
  import opened Decimal
  import opened Seqs
  import opened Doubles

  type Key = (string, string)

  /** Values of a C++ `int` and of a 64-bit `std::size_t`. */
  type Int32 = x: int | -0x8000_0000 <= x < 0x8000_0000
  type Size64 = x: int | 0 <= x < 0x1_0000_0000_0000_0000

  /** `DBL_EPSILON`, 2^-52. */
  const DblEpsilon: real := 1.0 / 4503599627370496.0

  /** The two `std::runtime_error`s of the getters. */
  datatype TableError = MissingValue(row: string, col: string) | MissingDouble(row: string, col: string)

  datatype Table = Table(
    name: string,
    rightJustify: bool,
    rows: seq<string>,
    cols: seq<string>,
    values: map<Key, string>,
    dvalues: map<Key, real>)

  /** The table invariant: labels are listed once each, every stored text
      has listed labels, and every numeric value has a text. */
  predicate Valid(t: Table) {
    && Distinct(t.rows) && Distinct(t.cols)
    && (forall k :: k in t.values ==> k.0 in t.rows && k.1 in t.cols)
    && (forall k :: k in t.dvalues ==> k in t.values)
  }

  /** `Table(title, right_justify)`. */
  function NewTable(title: string, rightJustify: bool): (t: Table)
    ensures Valid(t) && |t.rows| == 0 && |t.cols| == 0
    ensures forall k :: k !in t.values && k !in t.dvalues
  {
    Table(title, rightJustify, [], [], map[], map[])
  }

  /** Append `x` to a label list unless it is already listed. */
  function AddLabel(xs: seq<string>, x: string): (r: seq<string>)
    requires Distinct(xs)
    ensures Distinct(r) && x in r
    ensures |xs| <= |r| <= |xs| + 1 && r[..|xs|] == xs
    ensures forall y :: y in r <==> y in xs || y == x
    ensures x in xs <==> r == xs
  {
    if x in xs then xs else xs + [x]
  }

  /** `set(row, col, std::string)`: list the labels if new and store the
      text. The numeric value of the key, if any, is left as it was. */
  function SetString(t: Table, row: string, col: string, value: string): (r: Table)
    requires Valid(t)
    ensures Valid(r)
    ensures row in r.rows && col in r.cols
    ensures |r.rows| == |t.rows| + (if row in t.rows then 0 else 1)
    ensures |r.cols| == |t.cols| + (if col in t.cols then 0 else 1)
    ensures r.rows[..|t.rows|] == t.rows && r.cols[..|t.cols|] == t.cols
    ensures (row, col) in r.values && r.values[(row, col)] == value
    ensures forall k :: k != (row, col) ==> (k in r.values <==> k in t.values)
    ensures forall k :: k != (row, col) && k in t.values ==> r.values[k] == t.values[k]
    ensures r.dvalues == t.dvalues && r.name == t.name && r.rightJustify == t.rightJustify
  {
    StoreKeepsValid(t, row, col, value);
    t.(rows := AddLabel(t.rows, row), cols := AddLabel(t.cols, col), values := t.values[(row, col) := value])
  }

  lemma StoreKeepsValid(t: Table, row: string, col: string, value: string)
    requires Valid(t)
    ensures Valid(t.(rows := AddLabel(t.rows, row), cols := AddLabel(t.cols, col), values := t.values[(row, col) := value]))
  {
  }

  /** `set(row, col, int)`: the decimal text and the exact value. */
  function SetInt(t: Table, row: string, col: string, value: Int32): (r: Table)
    requires Valid(t)
    ensures Valid(r)
    ensures r.values == SetString(t, row, col, FromInt(value)).values
    ensures r.rows == SetString(t, row, col, FromInt(value)).rows
    ensures r.cols == SetString(t, row, col, FromInt(value)).cols
    ensures (row, col) in r.dvalues && r.dvalues[(row, col)] == value as real
    ensures forall k :: k != (row, col) ==> (k in r.dvalues <==> k in t.dvalues)
    ensures forall k :: k != (row, col) && k in t.dvalues ==> r.dvalues[k] == t.dvalues[k]
    ensures r.name == t.name && r.rightJustify == t.rightJustify
  {
    var s := SetString(t, row, col, FromInt(value));
    s.(dvalues := s.dvalues[(row, col) := value as real])
  }

  /** `set(row, col, std::size_t)`: the decimal text and the value as a
      `double`, which is the value itself below 2^53 and the nearest
      binary64 value above. */
  function SetSize(t: Table, row: string, col: string, value: Size64): (r: Table)
    requires Valid(t)
    ensures Valid(r)
    ensures r.values == SetString(t, row, col, FromNat(value)).values
    ensures r.rows == SetString(t, row, col, FromNat(value)).rows
    ensures r.cols == SetString(t, row, col, FromNat(value)).cols
    ensures (row, col) in r.dvalues && r.dvalues[(row, col)] == RoundToDouble(value) as real
    ensures value < TwoTo53 ==> r.dvalues[(row, col)] == value as real
    ensures forall k :: k != (row, col) ==> (k in r.dvalues <==> k in t.dvalues)
    ensures forall k :: k != (row, col) && k in t.dvalues ==> r.dvalues[k] == t.dvalues[k]
    ensures r.name == t.name && r.rightJustify == t.rightJustify
  {
    var s := SetString(t, row, col, FromNat(value));
    var d := RoundToDouble(value);
    assert value < TwoTo53 ==> d == value;
    s.(dvalues := s.dvalues[(row, col) := d as real])
  }

  /** A value below `DBL_EPSILON` in magnitude is stored as zero. */
  function Snap(value: real): (r: real)
    ensures r == value || r == 0.0
    ensures r != 0.0 ==> r >= DblEpsilon || r <= -DblEpsilon
    ensures DblEpsilon <= value || value <= -DblEpsilon ==> r == value
  {
    if -DblEpsilon < value < DblEpsilon then 0.0 else value
  }

  /** `set(row, col, double)`: snap tiny values to zero, then store the
      text `format` gives the snapped value (five significant digits in
      the source) and the snapped value. */
  function SetReal(t: Table, row: string, col: string, value: real, format: real -> string): (r: Table)
    requires Valid(t)
    ensures Valid(r)
    ensures r.values == SetString(t, row, col, format(Snap(value))).values
    ensures r.rows == SetString(t, row, col, format(Snap(value))).rows
    ensures r.cols == SetString(t, row, col, format(Snap(value))).cols
    ensures (row, col) in r.dvalues && r.dvalues[(row, col)] == Snap(value)
    ensures forall k :: k != (row, col) ==> (k in r.dvalues <==> k in t.dvalues)
    ensures forall k :: k != (row, col) && k in t.dvalues ==> r.dvalues[k] == t.dvalues[k]
    ensures r.name == t.name && r.rightJustify == t.rightJustify
  {
    var v := Snap(value);
    var s := SetString(t, row, col, format(v));
    s.(dvalues := s.dvalues[(row, col) := v])
  }

  /** `get(row, col)`: the stored text, or an error for a key never set. */
  function Get(t: Table, row: string, col: string): (r: Result<string, TableError>)
    ensures r.Ok? <==> (row, col) in t.values
    ensures r.Ok? ==> r.value == t.values[(row, col)]
    ensures r.Err? ==> r.error == MissingValue(row, col)
  {
    if (row, col) in t.values then Ok(t.values[(row, col)]) else Err(MissingValue(row, col))
  }

  /** `get_value(row, col)`: the stored number, or an error for a key that
      never received one. */
  function GetValue(t: Table, row: string, col: string): (r: Result<real, TableError>)
    ensures r.Ok? <==> (row, col) in t.dvalues
    ensures r.Ok? ==> r.value == t.dvalues[(row, col)]
    ensures r.Err? ==> r.error == MissingDouble(row, col)
  {
    if (row, col) in t.dvalues then Ok(t.dvalues[(row, col)]) else Err(MissingDouble(row, col))
  }

  /** After `set(r, c, v)`, `get(r, c)` is `v` and every other key reads as
      before; the numbers are untouched. */
  lemma SetThenGet(t: Table, row: string, col: string, value: string, row': string, col': string)
    requires Valid(t)
    ensures Get(SetString(t, row, col, value), row', col')
         == if (row', col') == (row, col) then Ok(value) else Get(t, row', col')
    ensures GetValue(SetString(t, row, col, value), row', col') == GetValue(t, row', col')
  {
  }

  /** The numeric setters make `get_value` return the value and `get` its
      decimal text, which parses back to the value. */
  lemma SetIntThenGet(t: Table, row: string, col: string, value: Int32)
    requires Valid(t)
    ensures GetValue(SetInt(t, row, col, value), row, col) == Ok(value as real)
    ensures Get(SetInt(t, row, col, value), row, col) == Ok(FromInt(value))
    ensures IsIntText(Get(SetInt(t, row, col, value), row, col).value)
    ensures ToInt(Get(SetInt(t, row, col, value), row, col).value) == value
  {
    IntRoundTrip(value);
  }

  /** A `std::size_t` reads back exactly as text; as a `double` it reads
      back exactly below 2^53 and rounded above (2^53 + 1 reads back as
      2^53). */
  lemma SetSizeThenGet(t: Table, row: string, col: string, value: Size64)
    requires Valid(t)
    ensures GetValue(SetSize(t, row, col, value), row, col) == Ok(RoundToDouble(value) as real)
    ensures value < TwoTo53 ==> GetValue(SetSize(t, row, col, value), row, col) == Ok(value as real)
    ensures value == TwoTo53 + 1 ==> GetValue(SetSize(t, row, col, value), row, col) == Ok(TwoTo53 as real)
    ensures Get(SetSize(t, row, col, value), row, col) == Ok(FromNat(value))
    ensures ToNat(Get(SetSize(t, row, col, value), row, col).value) == value
  {
    NatRoundTrip(value);
    FirstInexact();
  }

  /** The keys named by a sequence of string sets. */
  function SetKeys(sets: seq<(string, string, string)>): set<Key> {
    set k | 0 <= k < |sets| :: (sets[k].0, sets[k].1)
  }

  /** Apply `set(row, col, std::string)` for every triple in turn. */
  function SetStrings(t: Table, sets: seq<(string, string, string)>): (r: Table)
    requires Valid(t)
    ensures Valid(r) && r.dvalues == t.dvalues
    ensures r.values.Keys == t.values.Keys + SetKeys(sets)
    ensures forall k :: 0 <= k < |sets| ==> (sets[k].0, sets[k].1) in r.values
    decreases |sets|
  {
    if |sets| == 0 then t
    else
      var t' := SetString(t, sets[0].0, sets[0].1, sets[0].2);
      var r := SetStrings(t', sets[1..]);
      SetStringsStep(t, sets, r);
      r
  }

  /** One step of `SetStrings`: the first set adds its key, the rest add
      theirs. */
  lemma SetStringsStep(t: Table, sets: seq<(string, string, string)>, r: Table)
    requires Valid(t) && |sets| > 0
    requires r.values.Keys == SetString(t, sets[0].0, sets[0].1, sets[0].2).values.Keys + SetKeys(sets[1..])
    ensures r.values.Keys == t.values.Keys + SetKeys(sets)
    ensures forall k :: 0 <= k < |sets| ==> (sets[k].0, sets[k].1) in r.values
  {
    SetKeysCons(sets);
    SetStringKeys(t, sets[0].0, sets[0].1, sets[0].2);
    forall k | 0 <= k < |sets| ensures (sets[k].0, sets[k].1) in r.values {
      assert (sets[k].0, sets[k].1) in SetKeys(sets);
    }
  }

  lemma SetKeysCons(sets: seq<(string, string, string)>)
    requires |sets| > 0
    ensures SetKeys(sets) == {(sets[0].0, sets[0].1)} + SetKeys(sets[1..])
  {
    forall key | key in SetKeys(sets) ensures key in {(sets[0].0, sets[0].1)} + SetKeys(sets[1..]) {
      var k :| 0 <= k < |sets| && key == (sets[k].0, sets[k].1);
      if k > 0 {
        assert sets[1..][k - 1] == sets[k];
      }
    }
    forall key | key in SetKeys(sets[1..]) ensures key in SetKeys(sets) {
      var k :| 0 <= k < |sets[1..]| && key == (sets[1..][k].0, sets[1..][k].1);
      assert sets[1..][k] == sets[k + 1];
    }
  }

  lemma SetStringKeys(t: Table, row: string, col: string, value: string)
    requires Valid(t)
    ensures SetString(t, row, col, value).values.Keys == t.values.Keys + {(row, col)}
  {
  }

  /** On a table filled only through the string setter, `get_value` fails
      for every key, while `get` succeeds exactly for the keys that were
      set. */
  lemma StringsOnlyHaveNoValues(title: string, rightJustify: bool,
                                                   sets: seq<(string, string, string)>, row: string, col: string)
    ensures GetValue(SetStrings(NewTable(title, rightJustify), sets), row, col) == Err(MissingDouble(row, col))
    ensures Get(SetStrings(NewTable(title, rightJustify), sets), row, col).Ok?
        <==> exists k :: 0 <= k < |sets| && sets[k].0 == row && sets[k].1 == col
  {
    var r := SetStrings(NewTable(title, rightJustify), sets);
    if Get(r, row, col).Ok? {
      assert (row, col) in SetKeys(sets);
    }
  }

  /** The value of an entry assignment `table(row, col) = value`. */
  datatype EntryValue =
    | IntValue(i: Int32)
    | SizeValue(n: Size64)
    | RealValue(x: real)
    | StringValue(s: string)

  /** `TableEntry::operator=`: forward to the matching setter. */
  function Assign(t: Table, row: string, col: string, v: EntryValue, format: real -> string): (r: Table)
    requires Valid(t)
    ensures Valid(r) && row in r.rows && col in r.cols
  {
    match v
    case IntValue(i) => SetInt(t, row, col, i)
    case SizeValue(n) => SetSize(t, row, col, n)
    case RealValue(x) => SetReal(t, row, col, x, format)
    case StringValue(s) => SetString(t, row, col, s)
  }

  /** `TableEntry::operator std::string`: the text of the entry. */
  function Convert(t: Table, row: string, col: string): (r: Result<string, TableError>)
  {
    Get(t, row, col)
  }

  /** Assigning through an entry and converting back yields the text the
      setter stored: the string itself, the decimal text of an integer, or
      the formatted snapped value. */
  lemma EntryRoundTrip(t: Table, row: string, col: string, v: EntryValue, format: real -> string)
    requires Valid(t)
    ensures Convert(Assign(t, row, col, v, format), row, col) == Ok(
      match v
      case IntValue(i) => FromInt(i)
      case SizeValue(n) => FromNat(n)
      case RealValue(x) => format(Snap(x))
      case StringValue(s) => s)
    ensures v.StringValue? ==> Convert(Assign(t, row, col, v, format), row, col) == Ok(v.s)
  {
  }

  // ----- Rendering -----

  /** `str(false)`: the size summary. */
  function Summary(t: Table): (s: string)
    ensures |s| > 15 && s[..15] == "<Table of size " && s[|s| - 1] == '>'
  {
    "<Table of size " + (FromNat(|t.rows|) + (" x " + (FromNat(|t.cols|) + ">")))
  }

  /** Digit strings followed by text that starts with a non-digit split in
      one way only. */
  lemma DigitsPrefixUnique(a: string, x: string, a': string, y: string)
    requires AllDigits(a) && AllDigits(a')
    requires |x| > 0 && !IsDigit(x[0]) && |y| > 0 && !IsDigit(y[0])
    requires a + x == a' + y
    ensures a == a' && x == y
  {
    assert a == (a + x)[..|a|];
    assert a' == (a' + y)[..|a'|];
    assert x == (a + x)[|a|..];
    assert y == (a' + y)[|a'|..];
  }

  /** The summary determines the number of rows and of columns. */
  lemma SummaryDeterminesSize(t: Table, t': Table)
    requires Summary(t) == Summary(t')
    ensures |t.rows| == |t'.rows| && |t.cols| == |t'.cols|
  {
    var a, b := FromNat(|t.rows|), FromNat(|t.cols|);
    var a', b' := FromNat(|t'.rows|), FromNat(|t'.cols|);
    assert a + (" x " + (b + ">")) == Summary(t)[15..];
    assert a' + (" x " + (b' + ">")) == Summary(t')[15..];
    DigitsPrefixUnique(a, " x " + (b + ">"), a', " x " + (b' + ">"));
    assert b + ">" == (" x " + (b + ">"))[3..];
    assert b' + ">" == (" x " + (b' + ">"))[3..];
    DigitsPrefixUnique(b, ">", b', ">");
    FromNatInjective(|t.rows|, |t'.rows|);
    FromNatInjective(|t.cols|, |t'.cols|);
  }

  /** Every (row, column) pair of the listed labels has a text. */
  predicate Complete(t: Table) {
    forall i, j :: 0 <= i < |t.rows| && 0 <= j < |t.cols| ==> (t.rows[i], t.cols[j]) in t.values
  }

  /** The texts of one row, read with `get` column by column; the first
      missing one is the error. */
  function RowCells(t: Table, row: string, cols: seq<string>): (r: Result<seq<string>, TableError>)
    ensures r.Ok? <==> forall j :: 0 <= j < |cols| ==> (row, cols[j]) in t.values
    ensures r.Ok? ==> |r.value| == |cols| && forall j :: 0 <= j < |cols| ==> r.value[j] == t.values[(row, cols[j])]
    ensures r.Err? ==> exists j :: (0 <= j < |cols| && (row, cols[j]) !in t.values
      && (forall j' :: 0 <= j' < j ==> (row, cols[j']) in t.values) && r.error == MissingValue(row, cols[j]))
  {
    if |cols| == 0 then Ok([])
    else
      var v :- Get(t, row, cols[0]);
      var rest := RowCells(t, row, cols[1..]);
      if rest.Err? then
        assert forall j :: 0 <= j < |cols| - 1 ==> cols[1..][j] == cols[j + 1];
        Err(rest.error)
      else Ok([v] + rest.value)
  }

  /** The texts of all rows, read row by row as the renderers do. */
  function Cells(t: Table, rows: seq<string>): (r: Result<seq<seq<string>>, TableError>)
    ensures r.Ok? <==> forall i, j :: 0 <= i < |rows| && 0 <= j < |t.cols| ==> (rows[i], t.cols[j]) in t.values
    ensures r.Ok? ==> |r.value| == |rows| && forall i :: 0 <= i < |rows| ==>
      |r.value[i]| == |t.cols| && forall j :: 0 <= j < |t.cols| ==> r.value[i][j] == t.values[(rows[i], t.cols[j])]
    ensures r.Err? ==> exists i, j :: (0 <= i < |rows| && 0 <= j < |t.cols| && (rows[i], t.cols[j]) !in t.values
      && r.error == MissingValue(rows[i], t.cols[j]))
  {
    if |rows| == 0 then Ok([])
    else
      var first :- RowCells(t, rows[0], t.cols);
      var rest := Cells(t, rows[1..]);
      if rest.Err? then
        assert forall i :: 0 <= i < |rows| - 1 ==> rows[1..][i] == rows[i + 1];
        Err(rest.error)
      else Ok([first] + rest.value)
  }

  /** The longest of `init` and the lengths of `xs`. */
  function MaxLen(xs: seq<string>, init: nat): (w: nat)
    ensures w >= init && forall k :: 0 <= k < |xs| ==> w >= |xs[k]|
    ensures w == init || exists k :: 0 <= k < |xs| && w == |xs[k]|
  {
    if |xs| == 0 then init
    else
      var w := MaxLen(xs[1..], init);
      if |xs[0]| > w then |xs[0]| else
        assert forall k :: 0 <= k < |xs| - 1 ==> xs[1..][k] == xs[k + 1];
        w
  }

  function Column(cells: seq<seq<string>>, j: nat): (c: seq<string>)
    requires forall i :: 0 <= i < |cells| ==> j < |cells[i]|
    ensures |c| == |cells| && forall i :: 0 <= i < |cells| ==> c[i] == cells[i][j]
  {
    seq(|cells|, i requires 0 <= i < |cells| => cells[i][j])
  }

  /** `col_sizes`: the label column is as wide as the title and every row
      label, each data column as wide as its header and every text in it,
      and no wider. */
  function Widths(t: Table, cells: seq<seq<string>>): (w: seq<nat>)
    requires |cells| == |t.rows| && forall i :: 0 <= i < |cells| ==> |cells[i]| == |t.cols|
    ensures |w| == |t.cols| + 1
    ensures w[0] >= |t.name| && forall i :: 0 <= i < |t.rows| ==> w[0] >= |t.rows[i]|
    ensures w[0] == |t.name| || exists i :: 0 <= i < |t.rows| && w[0] == |t.rows[i]|
    ensures forall j :: 0 <= j < |t.cols| ==> w[j + 1] >= |t.cols[j]|
    ensures forall i, j :: 0 <= i < |t.rows| && 0 <= j < |t.cols| ==> w[j + 1] >= |cells[i][j]|
    ensures forall j :: 0 <= j < |t.cols| ==>
      w[j + 1] == |t.cols[j]| || exists i :: 0 <= i < |t.rows| && w[j + 1] == |cells[i][j]|
    ensures Fits(t.cols, w[1..]) && forall i :: 0 <= i < |t.rows| ==> Fits(cells[i], w[1..])
  {
    var cw := seq(|t.cols|, j requires 0 <= j < |t.cols| => ColumnWidth(cells, j, t.cols[j]));
    var w := [MaxLen(t.rows, |t.name|)] + cw;
    assert w[1..] == cw;
    w
  }

  /** The width of column `j`: its header and every text in it fit, and
      the width is one of their lengths. */
  function ColumnWidth(cells: seq<seq<string>>, j: nat, header: string): (w: nat)
    requires forall i :: 0 <= i < |cells| ==> j < |cells[i]|
    ensures w >= |header| && forall i :: 0 <= i < |cells| ==> w >= |cells[i][j]|
    ensures w == |header| || exists i :: 0 <= i < |cells| && w == |cells[i][j]|
  {
    var c := Column(cells, j);
    MaxLen(c, |header|)
  }

  function Sum(ws: seq<nat>): nat {
    if |ws| == 0 then 0 else ws[0] + Sum(ws[1..])
  }

  /** `row_size`: two separator characters per column plus the bar, plus
      the widths. */
  function RowSize(w: seq<nat>): nat {
    2 * |w| + 1 + Sum(w)
  }

  function Spaces(n: nat): (s: string)
    ensures |s| == n && forall k :: 0 <= k < n ==> s[k] == ' '
  {
    seq(n, _ => ' ')
  }

  /** The blanks `std::setw(width)` adds to `x`: none when `x` is at least
      as long as the width. */
  function Pad(x: string, width: nat): nat {
    if |x| < width then width - |x| else 0
  }

  /** One field of `width` (plus two separator blanks), padded on the left
      for right-justified tables and on the right otherwise. */
  function Field(x: string, width: nat, rightJustify: bool): (s: string)
    ensures |x| <= width ==> |s| == width + 2
  {
    if rightJustify then Spaces(Pad(x, width)) + "  " + x else "  " + x + Spaces(Pad(x, width))
  }

  predicate Fits(xs: seq<string>, ws: seq<nat>) {
    |xs| == |ws| && forall j :: 0 <= j < |xs| ==> |xs[j]| <= ws[j]
  }

  function Fields(xs: seq<string>, ws: seq<nat>, rightJustify: bool): (s: string)
    requires |xs| == |ws|
  {
    if |xs| == 0 then "" else Field(xs[0], ws[0], rightJustify) + Fields(xs[1..], ws[1..], rightJustify)
  }

  lemma {:induction false} FieldsLength(xs: seq<string>, ws: seq<nat>, rightJustify: bool)
    requires Fits(xs, ws)
    ensures |Fields(xs, ws, rightJustify)| == 2 * |ws| + Sum(ws)
  {
    if |xs| > 0 {
      assert Fits(xs[1..], ws[1..]) by {
        assert forall k :: 0 <= k < |xs| - 1 ==> xs[1..][k] == xs[k + 1] && ws[1..][k] == ws[k + 1];
      }
      FieldsLength(xs[1..], ws[1..], rightJustify);
    }
  }

  /** Where field `j` starts within `Fields`. */
  function FieldStart(ws: seq<nat>, j: nat): nat
    requires j <= |ws|
  {
    if j == 0 then 0 else ws[0] + 2 + FieldStart(ws[1..], j - 1)
  }

  /** The padding before the text of a field. */
  function Lead(x: string, width: nat, rightJustify: bool): nat {
    if rightJustify then Pad(x, width) else 0
  }

  /** `x` appears in `s` starting at position `at`. */
  predicate OccursAt(x: string, s: string, at: nat) {
    at + |x| <= |s| && s[at..at + |x|] == x
  }

  /** The text of a field follows its padding and the two blanks. */
  lemma FieldText(x: string, width: nat, rightJustify: bool)
    ensures OccursAt(x, Field(x, width, rightJustify), Lead(x, width, rightJustify) + 2)
  {
  }

  /** A text found in `a` is found at the same place in `a + b`. */
  lemma Prefixed(a: string, b: string, i: nat, x: string)
    requires OccursAt(x, a, i)
    ensures OccursAt(x, a + b, i)
  {
    assert (a + b)[i..i + |x|] == a[i..i + |x|];
  }

  /** A text found at `i` in `b` is found `|a|` further on in `a + b`. */
  lemma Shifted(a: string, b: string, i: nat, x: string)
    requires OccursAt(x, b, i)
    ensures OccursAt(x, a + b, |a| + i)
  {
    assert (a + b)[|a| + i..|a| + i + |x|] == b[i..i + |x|];
  }

  /** Dropping the first field of a fitting row leaves a fitting row. */
  lemma FitsTail(xs: seq<string>, ws: seq<nat>)
    requires Fits(xs, ws) && |xs| > 0
    ensures Fits(xs[1..], ws[1..])
  {
    assert forall k :: 0 <= k < |xs| - 1 ==> xs[1..][k] == xs[k + 1] && ws[1..][k] == ws[k + 1];
  }

  /** The first text of a row sits in the first field. */
  lemma FirstFieldHoldsText(xs: seq<string>, ws: seq<nat>, rightJustify: bool)
    requires |xs| == |ws| && |xs| > 0
    ensures OccursAt(xs[0], Fields(xs, ws, rightJustify), Lead(xs[0], ws[0], rightJustify) + 2)
  {
    FieldText(xs[0], ws[0], rightJustify);
    Prefixed(Field(xs[0], ws[0], rightJustify), Fields(xs[1..], ws[1..], rightJustify),
      Lead(xs[0], ws[0], rightJustify) + 2, xs[0]);
  }

  /** A text of the rest of a row sits one field further on in the row. */
  lemma LaterFieldHoldsText(xs: seq<string>, ws: seq<nat>, rightJustify: bool, x: string, at: nat)
    requires |xs| == |ws| && |xs| > 0
    requires OccursAt(x, Fields(xs[1..], ws[1..], rightJustify), at)
    ensures OccursAt(x, Fields(xs, ws, rightJustify), |Field(xs[0], ws[0], rightJustify)| + at)
  {
    Shifted(Field(xs[0], ws[0], rightJustify), Fields(xs[1..], ws[1..], rightJustify), at, x);
  }

  /** Each text sits in its own field: after its padding and the two blanks
      when right-justified, right after the two blanks otherwise. */
  lemma {:induction false} FieldHoldsText(xs: seq<string>, ws: seq<nat>, rightJustify: bool, j: nat)
    requires Fits(xs, ws) && j < |xs|
    ensures OccursAt(xs[j], Fields(xs, ws, rightJustify), FieldStart(ws, j) + Lead(xs[j], ws[j], rightJustify) + 2)
  {
    if j == 0 {
      FirstFieldHoldsText(xs, ws, rightJustify);
    } else {
      FitsTail(xs, ws);
      FieldHoldsText(xs[1..], ws[1..], rightJustify, j - 1);
      assert xs[1..][j - 1] == xs[j] && ws[1..][j - 1] == ws[j];
      LaterFieldHoldsText(xs, ws, rightJustify, xs[j],
        FieldStart(ws[1..], j - 1) + Lead(xs[j], ws[j], rightJustify) + 2);
    }
  }

  /** A line of the verbose rendering: the label padded to the first width,
      the bar, and the fields. The header line has the title as label and
      the column labels as fields. */
  function Line(tag: string, w: seq<nat>, xs: seq<string>, rightJustify: bool): (s: string)
    requires |w| >= 1 && |tag| <= w[0] && Fits(xs, w[1..])
    ensures |s| == RowSize(w) && |tag| <= |s|
    ensures s[..|tag|] == tag
  {
    FieldsLength(xs, w[1..], rightJustify);
    tag + Spaces(w[0] - |tag|) + "  |" + Fields(xs, w[1..], rightJustify)
  }

  /** Join lines with newlines. */
  function JoinLines(lines: seq<string>): string {
    if |lines| == 0 then "" else if |lines| == 1 then lines[0] else lines[0] + "\n" + JoinLines(lines[1..])
  }

  /** One line per row: the row label and the row's texts. */
  function RowLines(t: Table, cells: seq<seq<string>>, w: seq<nat>): (ls: seq<string>)
    requires |cells| == |t.rows| && |w| >= 1
    requires forall i :: 0 <= i < |t.rows| ==> |t.rows[i]| <= w[0] && Fits(cells[i], w[1..])
    ensures |ls| == |t.rows|
    ensures forall i :: 0 <= i < |ls| ==> |ls[i]| == RowSize(w) && |t.rows[i]| <= |ls[i]|
    ensures forall i :: 0 <= i < |ls| ==> ls[i][..|t.rows[i]|] == t.rows[i]
  {
    seq(|t.rows|, i requires 0 <= i < |t.rows| => Line(t.rows[i], w, cells[i], t.rightJustify))
  }

  /** The lines of `str(true)` for column widths `w`: header, dashes, one
      line per row. */
  function Lines(t: Table, cells: seq<seq<string>>, w: seq<nat>): (lines: seq<string>)
    requires |cells| == |t.rows| && |w| >= 1 && |t.name| <= w[0] && Fits(t.cols, w[1..])
    requires forall i :: 0 <= i < |t.rows| ==> |t.rows[i]| <= w[0] && Fits(cells[i], w[1..])
    ensures |lines| == |t.rows| + 2
  {
    [Line(t.name, w, t.cols, t.rightJustify), seq(RowSize(w), _ => '-')] + RowLines(t, cells, w)
  }

  /** Every line of `str(true)` has the same length; the header starts with
      the title, the second line is all dashes, and each row line starts
      with its row label. */
  lemma LinesLayout(t: Table, cells: seq<seq<string>>, w: seq<nat>)
    requires |cells| == |t.rows| && |w| >= 1 && |t.name| <= w[0] && Fits(t.cols, w[1..])
    requires forall i :: 0 <= i < |t.rows| ==> |t.rows[i]| <= w[0] && Fits(cells[i], w[1..])
    ensures var lines := Lines(t, cells, w);
      && (forall k :: 0 <= k < |lines| ==> |lines[k]| == RowSize(w))
      && |t.name| <= |lines[0]| && lines[0][..|t.name|] == t.name
      && (forall k :: 0 <= k < |lines[1]| ==> lines[1][k] == '-')
      && (forall i :: 0 <= i < |t.rows| ==> |t.rows[i]| <= |lines[i + 2]| && lines[i + 2][..|t.rows[i]|] == t.rows[i])
  {
    var lines := Lines(t, cells, w);
    var body := RowLines(t, cells, w);
    assert forall i :: 0 <= i < |t.rows| ==> lines[i + 2] == body[i];
  }

  /** `str(true)`: nothing for a table without rows, an error naming the
      first missing text, and otherwise the rendered lines. */
  function StrVerbose(t: Table): (r: Result<string, TableError>)
    ensures |t.rows| == 0 ==> r == Ok("")
    ensures |t.rows| > 0 ==> (r.Ok? <==> Complete(t))
    ensures r.Err? ==> exists i, j :: (0 <= i < |t.rows| && 0 <= j < |t.cols| && (t.rows[i], t.cols[j]) !in t.values
      && r.error == MissingValue(t.rows[i], t.cols[j]))
    ensures r.Ok? && |t.rows| > 0 ==> exists cells :: (Cells(t, t.rows) == Ok(cells)
      && r.value == JoinLines(Lines(t, cells, Widths(t, cells))))
  {
    var cells :- Cells(t, t.rows);
    if |t.rows| == 0 then Ok("") else Ok(JoinLines(Lines(t, cells, Widths(t, cells))))
  }

  /** `str(verbose)`. */
  function Str(t: Table, verbose: bool): (r: Result<string, TableError>)
  {
    if verbose then StrVerbose(t) else Ok(Summary(t))
  }

  /** The cells of one LaTeX table line: separated by `&`, ended by `\\`. */
  function LatexCells(xs: seq<string>): string
    requires |xs| >= 1
  {
    if |xs| == 1 then xs[0] + " \\\\\n" else xs[0] + " & " + LatexCells(xs[1..])
  }

  /** `xs` joined with `sep`. */
  function JoinWith(xs: seq<string>, sep: string): string {
    if |xs| == 0 then "" else if |xs| == 1 then xs[0] else xs[0] + sep + JoinWith(xs[1..], sep)
  }

  /** The cell loop of `str_latex` writes the cells joined by " & " and
      then the line end. */
  lemma {:induction false} LatexCellsJoin(xs: seq<string>)
    requires |xs| >= 1
    ensures LatexCells(xs) == JoinWith(xs, " & ") + " \\\\\n"
  {
    if |xs| > 1 {
      LatexCellsJoin(xs[1..]);
    }
  }

  function LatexRows(rows: seq<string>, cells: seq<seq<string>>): string
    requires |cells| == |rows| && forall i :: 0 <= i < |cells| ==> |cells[i]| >= 1
  {
    if |rows| == 0 then ""
    else rows[0] + " & " + LatexCells(cells[0]) + "\\hline\n" + LatexRows(rows[1..], cells[1..])
  }

  function Repeat(s: string, n: nat): (r: string)
    ensures |r| == n * |s|
  {
    if n == 0 then "" else s + Repeat(s, n - 1)
  }

  /** `str_latex`: "Empty table" without rows or columns, an error naming a
      missing text, and otherwise a tabular environment with one `|c` column
      per column label, the header line and one line per row. */
  function StrLatex(t: Table): (r: Result<string, TableError>)
    ensures |t.rows| == 0 || |t.cols| == 0 ==> r == Ok("Empty table")
    ensures |t.rows| > 0 && |t.cols| > 0 ==> (r.Ok? <==> Complete(t))
    ensures r.Err? ==> exists i, j :: (0 <= i < |t.rows| && 0 <= j < |t.cols| && (t.rows[i], t.cols[j]) !in t.values
      && r.error == MissingValue(t.rows[i], t.cols[j]))
    ensures r.Ok? && |t.rows| > 0 && |t.cols| > 0 ==>
      var head := t.name + "\n\\begin{center}\n\\begin{tabular}{|l|";
      var tail := "\\end{tabular}\n\\end{center}\n";
      |r.value| >= |head| + |tail| && r.value[..|head|] == head && r.value[|r.value| - |tail|..] == tail
  {
    if |t.rows| == 0 || |t.cols| == 0 then Ok("Empty table")
    else
      var cells :- Cells(t, t.rows);
      var head := t.name + "\n\\begin{center}\n\\begin{tabular}{|l|";
      var tail := "\\end{tabular}\n\\end{center}\n";
      var body := Repeat("|c", |t.cols|) + "|}\n" + "\\hline\n" + "& " + LatexCells(t.cols) + "\\hline\\hline\n"
        + LatexRows(t.rows, cells);
      var s := head + body + tail;
      assert s[..|head|] == head;
      assert s[|s| - |tail|..] == tail;
      Ok(s)
  }
}

=== FILE: time_slab_build.dfy ===
/** Building a multi-adaptive time slab (dolfin/ode/MultiAdaptiveTimeSlab.cpp):
    the time tests, the two dependency counts, the counting done by the size
    pass, and element creation with its dofs and dependency slots.

    The recursion that decides which sub-slabs exist (`createTimeSlab`,
    `computeEndTime`, `Partition::update`, `Adaptivity`) is not part of this
    model. The size pass is therefore modelled over the pre-order sequence of
    sub-slabs that recursion visits, and element creation over the arguments
    `create_s` passes to it. `method->npoint(n)` enters as the function
    `npoint`, `method->nsize()` as `nsize`. */
module TimeSlabBuild {
  import opened Results
  import opened TimeSlabData
  import opened Arith
  import opened DependencySlots

  /** `within(t, a, b)`: `t` lies in `(a, b]` up to Eps, so that a time on
      the edge between two intervals belongs to the left one. */
  predicate Within(t: real, a: real, b: real) {
    a + Eps < t && t <= b + Eps
  }

  /** `within(a0, b0, a1, b1)`: `[a0, b0]` lies inside `[a1, b1]` up to Eps. */
  predicate WithinInterval(a0: real, b0: real, a1: real, b1: real) {
    a1 <= a0 + Eps && b0 - Eps <= b1
  }

  /** Two adjacent intervals split the times of their union between them,
      and no time belongs to both: the edge point goes to the left one. */
  lemma AdjacentIntervalsSplitTime(t: real, a: real, x: real, c: real)
    requires a <= x <= c
    ensures Within(t, a, c) <==> Within(t, a, x) || Within(t, x, c)
    ensures !(Within(t, a, x) && Within(t, x, c))
    ensures Within(x, a, x) == (a + Eps < x)
  {
  }

  /** Interval containment tolerates Eps and holds of every genuinely
      nested pair, in particular of an interval and itself. */
  lemma NestedIntervalsAreWithin(a0: real, b0: real, a1: real, b1: real)
    requires a1 <= a0 && b0 <= b1
    ensures WithinInterval(a0, b0, a1, b1)
    ensures WithinInterval(a0, b0, a0, b0)
  {
  }

  /** Every component index in `deps` is below `n`. */
  predicate DepsWf(deps: seq<seq<nat>>, n: nat) {
    |deps| == n && forall i, k :: 0 <= i < n && 0 <= k < |deps[i]| ==> deps[i][k] < n
  }

  predicate IndicesBelow(xs: seq<nat>, n: nat) {
    forall k :: 0 <= k < |xs| ==> xs[k] < n
  }

  /** Positions of `deps` whose component lags the latest time of `i0` by
      more than Eps: the dependencies on components with smaller steps. */
  ghost function FinerByTime(deps: seq<nat>, latest: seq<real>, i0: nat): set<nat>
    requires i0 < |latest| && IndicesBelow(deps, |latest|)
  {
    set pos | 0 <= pos < |deps| && latest[i0] > latest[deps[pos]] + Eps
  }

  lemma FinerByTimeSnoc(deps: seq<nat>, latest: seq<real>, i0: nat)
    requires |deps| > 0 && i0 < |latest| && IndicesBelow(deps, |latest|)
    ensures |FinerByTime(deps, latest, i0)|
         == |FinerByTime(deps[..|deps| - 1], latest, i0)|
            + (if latest[i0] > latest[deps[|deps| - 1]] + Eps then 1 else 0)
  {
    var last := |deps| - 1;
    var before := FinerByTime(deps[..last], latest, i0);
    var after := FinerByTime(deps, latest, i0);
    var added: set<nat> := if latest[i0] > latest[deps[last]] + Eps then {last} else {};
    forall pos: nat ensures pos in after <==> pos in before + added {
      if pos < last {
        assert deps[..last][pos] == deps[pos];
      }
    }
    assert after == before + added;
    assert last !in before;
  }

  /** `countDependencies(i0)`, used by the size pass with `u` (here
      `latest`) holding the latest time reached by each component: `nsize`
      slots for every dependency on a component with a smaller step. */
  function CountDependenciesByTime(deps: seq<nat>, latest: seq<real>, i0: nat, nsize: nat): (n: nat)
    requires i0 < |latest| && IndicesBelow(deps, |latest|)
    ensures n == nsize * |FinerByTime(deps, latest, i0)|
    ensures n <= nsize * |deps|
  {
    if |deps| == 0 then
      assert FinerByTime(deps, latest, i0) == {};
      0
    else
      var init := deps[..|deps| - 1];
      var finer := latest[i0] > latest[deps[|deps| - 1]] + Eps;
      FinerByTimeSnoc(deps, latest, i0);
      var c := |FinerByTime(init, latest, i0)|;
      assert nsize * (c + 1) == nsize * c + nsize;
      assert nsize * |deps| == nsize * |init| + nsize;
      CountDependenciesByTime(init, latest, i0, nsize) + (if finer then nsize else 0)
  }

  /** The dependency `i1` has not reached `b0`: it has no element yet, or its
      last element ends more than Eps before `b0`. */
  predicate Lagging(s: Slab, i1: nat, b0: real)
    requires Storage(s) && Threaded(s, s.sizeE.next) && i1 < |s.elast|
  {
    s.elast[i1] == NoElement || s.sb[s.es[s.elast[i1]]] < b0 - Eps
  }

  ghost function FinerByElement(s: Slab, deps: seq<nat>, b0: real): set<nat>
    requires Storage(s) && Threaded(s, s.sizeE.next) && IndicesBelow(deps, |s.elast|)
  {
    set pos | 0 <= pos < |deps| && Lagging(s, deps[pos], b0)
  }

  lemma FinerByElementSnoc(s: Slab, deps: seq<nat>, b0: real)
    requires Storage(s) && Threaded(s, s.sizeE.next) && IndicesBelow(deps, |s.elast|) && |deps| > 0
    ensures |FinerByElement(s, deps, b0)|
         == |FinerByElement(s, deps[..|deps| - 1], b0)| + (if Lagging(s, deps[|deps| - 1], b0) then 1 else 0)
  {
    var last := |deps| - 1;
    var before := FinerByElement(s, deps[..last], b0);
    var after := FinerByElement(s, deps, b0);
    var added: set<nat> := if Lagging(s, deps[last], b0) then {last} else {};
    forall pos: nat ensures pos in after <==> pos in before + added {
      if pos < last {
        assert deps[..last][pos] == deps[pos];
      }
    }
    assert after == before + added;
    assert last !in before;
  }

  /** `countDependencies(i0, b0)`, used while creating elements: `nsize`
      slots for every dependency that has not reached `b0`. */
  function CountDependenciesByElement(s: Slab, deps: seq<nat>, b0: real, nsize: nat): (n: nat)
    requires Storage(s) && Threaded(s, s.sizeE.next) && IndicesBelow(deps, |s.elast|)
    ensures n == nsize * |FinerByElement(s, deps, b0)|
    ensures n <= nsize * |deps|
  {
    if |deps| == 0 then
      assert FinerByElement(s, deps, b0) == {};
      0
    else
      var init := deps[..|deps| - 1];
      var finer := Lagging(s, deps[|deps| - 1], b0);
      FinerByElementSnoc(s, deps, b0);
      var c := |FinerByElement(s, init, b0)|;
      assert nsize * (c + 1) == nsize * c + nsize;
      assert nsize * |deps| == nsize * |init| + nsize;
      CountDependenciesByElement(s, init, b0, nsize) + (if finer then nsize else 0)
  }

  /** One sub-slab met by the size pass: its end time and the group
      `order[offset..end)` of components it holds (`partition.index`). */
  datatype Visit = Visit(b: real, offset: nat, end: nat)

  predicate TraceWf(trace: seq<Visit>, order: seq<nat>) {
    forall k :: 0 <= k < |trace| ==> trace[k].offset <= trace[k].end <= |order|
  }

  /** Record `b` as the latest time of every component of the group
      `order[lo..hi)`. */
  function MarkReached(latest: seq<real>, order: seq<nat>, lo: nat, hi: nat, b: real): (r: seq<real>)
    requires lo <= hi <= |order| && IndicesBelow(order, |latest|)
    ensures |r| == |latest|
    ensures forall k :: lo <= k < hi ==> r[order[k]] == b
    ensures forall i :: 0 <= i < |latest| && r[i] != latest[i] ==> r[i] == b
    decreases hi - lo
  {
    if lo == hi then latest else MarkReached(latest[order[lo] := b], order, lo + 1, hi, b)
  }

  /** Total number of dependencies of the components of `order[lo..hi)`. */
  function GroupDegree(order: seq<nat>, lo: nat, hi: nat, deps: seq<seq<nat>>): nat
    requires lo <= hi <= |order| && IndicesBelow(order, |deps|)
    decreases hi - lo
  {
    if lo == hi then 0 else |deps[order[lo]]| + GroupDegree(order, lo + 1, hi, deps)
  }

  /** The dependency slots counted for the group `order[lo..hi)` of a
      sub-slab: a multiple of `nsize` and at most `nsize` per dependency. */
  function GroupDependencies(order: seq<nat>, lo: nat, hi: nat, deps: seq<seq<nat>>,
                             latest: seq<real>, nsize: nat): (n: nat)
    requires lo <= hi <= |order| && DepsWf(deps, |latest|) && IndicesBelow(order, |latest|)
    requires nsize >= 1
    ensures n % nsize == 0
    ensures n <= nsize * GroupDegree(order, lo, hi, deps)
    decreases hi - lo
  {
    if lo == hi then 0
    else
      var i0 := order[lo];
      var own := CountDependenciesByTime(deps[i0], latest, i0, nsize);
      var rest := GroupDependencies(order, lo + 1, hi, deps, latest, nsize);
      Multiple(nsize, |FinerByTime(deps[i0], latest, i0)|);
      MultipleSum(own, rest, nsize);
      MulAdd(nsize, |deps[i0]|, GroupDegree(order, lo + 1, hi, deps));
      own + rest
  }

  /** The contribution of one sub-slab to the counts of the size pass
      (`computeDataSize` without its recursion): mark the group as having
      reached `b`, then add one sub-slab, one element and `nsize` dofs per
      component, and the dependency slots of the group. */
  function VisitCounts(acc: DataSize, v: Visit, order: seq<nat>, deps: seq<seq<nat>>, nsize: nat): (r: DataSize)
    requires v.offset <= v.end <= |order|
    requires DepsWf(deps, |acc.latest|) && IndicesBelow(order, |acc.latest|) && nsize >= 1
  {
    var latest := MarkReached(acc.latest, order, v.offset, v.end, v.b);
    DataSize(acc.ns + 1,
             acc.ne + (v.end - v.offset),
             acc.nj + nsize * (v.end - v.offset),
             acc.nd + GroupDependencies(order, v.offset, v.end, deps, latest, nsize),
             latest)
  }

  /** Number of elements of the sub-slabs of `trace`. */
  function Elements(trace: seq<Visit>): nat
    requires forall k :: 0 <= k < |trace| ==> trace[k].offset <= trace[k].end
  {
    if |trace| == 0 then 0 else (trace[0].end - trace[0].offset) + Elements(trace[1..])
  }

  /** Number of dependencies of the components of the sub-slabs of `trace`. */
  function Degree(trace: seq<Visit>, order: seq<nat>, deps: seq<seq<nat>>): nat
    requires TraceWf(trace, order) && IndicesBelow(order, |deps|)
  {
    if |trace| == 0 then 0
    else GroupDegree(order, trace[0].offset, trace[0].end, deps) + Degree(trace[1..], order, deps)
  }

  /** The size pass continued from the counts `acc` over the sub-slabs of `trace`. */
  function SizePassFrom(acc: DataSize, trace: seq<Visit>, order: seq<nat>, deps: seq<seq<nat>>, nsize: nat): (r: DataSize)
    requires TraceWf(trace, order)
    requires DepsWf(deps, |acc.latest|) && IndicesBelow(order, |acc.latest|) && nsize >= 1
    requires acc.nj == nsize * acc.ne && acc.nd % nsize == 0
    ensures |r.latest| == |acc.latest|
    ensures r.ns == acc.ns + |trace|
    ensures r.ne == acc.ne + Elements(trace)
    ensures r.nj == nsize * r.ne
    ensures r.nd % nsize == 0
    ensures r.nd <= acc.nd + nsize * Degree(trace, order, deps)
    decreases |trace|
  {
    if |trace| == 0 then acc
    else
      var v := trace[0];
      var next := VisitCounts(acc, v, order, deps, nsize);
      var g := GroupDependencies(order, v.offset, v.end, deps, next.latest, nsize);
      assert next.ne == acc.ne + (v.end - v.offset) && next.nd == acc.nd + g;
      MulAdd(nsize, acc.ne, v.end - v.offset);
      MultipleSum(acc.nd, g, nsize);
      var rest := trace[1..];
      assert TraceWf(rest, order);
      var r := SizePassFrom(next, rest, order, deps, nsize);
      assert Elements(trace) == (v.end - v.offset) + Elements(rest);
      assert Degree(trace, order, deps) == GroupDegree(order, v.offset, v.end, deps) + Degree(rest, order, deps);
      MulAdd(nsize, GroupDegree(order, v.offset, v.end, deps), Degree(rest, order, deps));
      r
  }

  /** The size pass of `allocData`: every component starts at time `a`, and
      the counts of all sub-slabs the recursion visits are added up. There is
      one sub-slab per visit, one element per component of each group,
      `nsize` dofs per element, and the dependency slots are a multiple of
      `nsize` bounded by `nsize` per dependency of every element. */
  function SizePass(a: real, n: nat, trace: seq<Visit>, order: seq<nat>, deps: seq<seq<nat>>, nsize: nat): (r: DataSize)
    requires TraceWf(trace, order) && DepsWf(deps, n) && IndicesBelow(order, n) && nsize >= 1
    ensures |r.latest| == n
    ensures r.ns == |trace|
    ensures r.ne == Elements(trace)
    ensures r.nj == nsize * r.ne
    ensures r.nd % nsize == 0
    ensures r.nd <= nsize * Degree(trace, order, deps)
  {
    SizePassFrom(DataSize(0, 0, 0, 0, seq(n, _ => a)), trace, order, deps, nsize)
  }

  /** `create_j`: claim the next `nsize` dofs and set them to the initial
      value of the component. The capacity check is the `dolfin_assert`
      `next + nsize - 1 < size` in unsigned arithmetic, where a zero sum
      wraps to the largest `uint` and fails. */
  method CreateDofs(s: Slab, index: nat, nsize: nat) returns (r: Result<Slab, Fault>)
    requires Storage(s) && index < |s.u0|
    ensures r.Err? <==> s.sizeJ.next + nsize == 0 || s.sizeJ.next + nsize > s.sizeJ.size
    ensures r.Err? ==> r.error == DofCapacity
    ensures r.Ok? ==> Storage(r.value)
    ensures r.Ok? ==> r.value.sizeJ == Alloc(s.sizeJ.next + nsize, s.sizeJ.size)
    ensures r.Ok? ==> |r.value.jx| == |s.jx|
    ensures r.Ok? ==> forall k :: s.sizeJ.next <= k < s.sizeJ.next + nsize ==> r.value.jx[k] == s.u0[index]
    ensures r.Ok? ==> forall k :: 0 <= k < s.sizeJ.next ==> r.value.jx[k] == s.jx[k]
    ensures r.Ok? ==> forall k :: s.sizeJ.next + nsize <= k < |s.jx| ==> r.value.jx[k] == s.jx[k]
    ensures r.Ok? ==> r.value == s.(jx := r.value.jx, sizeJ := r.value.sizeJ)
  {
    if s.sizeJ.next + nsize == 0 || s.sizeJ.next + nsize > s.sizeJ.size {
      return Err(DofCapacity);
    }
    var pos := s.sizeJ.next;
    var jx := s.jx;
    var n := 0;
    while n < nsize
      invariant 0 <= n <= nsize && |jx| == |s.jx|
      invariant forall k :: pos <= k < pos + n ==> jx[k] == s.u0[index]
      invariant forall k :: 0 <= k < |jx| && !(pos <= k < pos + n) ==> jx[k] == s.jx[k]
    {
      jx := jx[pos + n := s.u0[index]];
      n := n + 1;
    }
    r := Ok(s.(jx := jx, sizeJ := Alloc(pos + nsize, s.sizeJ.size)));
  }

  /** The number of dof points `n' >= n` of an element on `[a1, a1 + k1]`
      whose time `a1 + k1 * npoint(n')` falls in `(a0, b0]`. */
  function PointsWithin(a1: real, k1: real, a0: real, b0: real, npoint: nat -> real, n: nat, nsize: nat): nat
    decreases nsize - n
  {
    if n >= nsize then 0
    else (if Within(a1 + k1 * npoint(n), a0, b0) then 1 else 0) + PointsWithin(a1, k1, a0, b0, npoint, n + 1, nsize)
  }

  /** `n` copies of `e`. */
  function Repeat(e: nat, n: nat): (r: seq<nat>)
    ensures |r| == n && forall k :: 0 <= k < n ==> r[k] == e
  {
    if n == 0 then [] else [e] + Repeat(e, n - 1)
  }

  /** The last element of every component, when there is one, has a stored
      sub-slab and a slot range inside `de`. */
  predicate LastStored(s: Slab) {
    && |s.sb| == |s.sa|
    && (forall e :: 0 <= e < |s.ed| ==> s.ed[e] <= |s.de|)
    && forall i :: 0 <= i < |s.elast| ==>
         s.elast[i] == NoElement || (0 <= s.elast[i] < |s.es| && s.es[s.elast[i]] < |s.sa| && s.elast[i] + 1 < |s.ed|)
  }

  /** Component `i1`'s last element must record the new element on
      `[a0, b0]` in sub-slab `s0`: it exists, its interval contains
      `[a0, b0]`, and it lies in another sub-slab. */
  predicate Records(s: Slab, i1: nat, s0: nat, a0: real, b0: real)
    requires LastStored(s) && i1 < |s.elast|
  {
    && s.elast[i1] != NoElement
    && var s1 := s.es[s.elast[i1]];
    && WithinInterval(a0, b0, s.sa[s1], s.sb[s1]) && s0 != s1
  }

  /** The elements created so far satisfy `LastStored`. */
  lemma ThreadedLastStored(s: Slab)
    requires Storage(s) && Threaded(s, s.sizeE.next)
    requires forall i :: 0 <= i < |s.elast| ==> s.elast[i] + 1 < |s.ed|
    ensures LastStored(s)
  {
  }

  /** The slot requests one dependent component makes: one per dof point of
      its last element that falls in `(a0, b0]`. */
  function DependencyRequests(s: Slab, i1: nat, s0: nat, a0: real, b0: real, nsize: nat, npoint: nat -> real): seq<nat>
    requires LastStored(s) && i1 < |s.elast|
  {
    if Records(s, i1, s0, a0, b0) then
      var e1 := s.elast[i1];
      var s1 := s.es[e1];
      Repeat(e1, PointsWithin(s.sa[s1], s.sb[s1] - s.sa[s1], a0, b0, npoint, 0, nsize))
    else []
  }

  /** The slot requests of `create_d`, in the order of its loops: by
      dependent component, then by dof point. Each names the element whose
      slot range receives the new element. */
  function Requests(s: Slab, deps: seq<nat>, s0: nat, a0: real, b0: real, nsize: nat, npoint: nat -> real): (r: seq<nat>)
    requires LastStored(s) && IndicesBelow(deps, |s.elast|)
    ensures RangesIn(r, s.ed, |s.de|)
    decreases |deps|
  {
    if |deps| == 0 then []
    else DependencyRequests(s, deps[0], s0, a0, b0, nsize, npoint) + Requests(s, deps[1..], s0, a0, b0, nsize, npoint)
  }

  /** The requests from position `pos` on are those of `deps[pos]`
      followed by those from `pos + 1` on. */
  lemma RequestsStep(s: Slab, deps: seq<nat>, pos: nat, s0: nat, a0: real, b0: real, nsize: nat, npoint: nat -> real)
    requires LastStored(s) && IndicesBelow(deps, |s.elast|) && pos < |deps|
    ensures RangesIn(DependencyRequests(s, deps[pos], s0, a0, b0, nsize, npoint), s.ed, |s.de|)
    ensures Requests(s, deps[pos..], s0, a0, b0, nsize, npoint)
      == DependencyRequests(s, deps[pos], s0, a0, b0, nsize, npoint) + Requests(s, deps[pos + 1..], s0, a0, b0, nsize, npoint)
  {
    assert deps[pos..][1..] == deps[pos + 1..];
    var r := Requests(s, deps[pos..], s0, a0, b0, nsize, npoint);
    var here := DependencyRequests(s, deps[pos], s0, a0, b0, nsize, npoint);
    forall k | 0 <= k < |here| ensures here[k] + 1 < |s.ed| && s.ed[here[k] + 1] <= |s.de| {
      assert r[k] == here[k];
    }
  }

  /** An element is requested exactly when it is the last element of a
      dependent component that records the new element at one of its dof
      points. */
  lemma {:induction false} RequestsAreRecords(s: Slab, deps: seq<nat>, s0: nat, a0: real, b0: real, nsize: nat,
                                              npoint: nat -> real, e: nat)
    requires LastStored(s) && IndicesBelow(deps, |s.elast|)
    ensures e in Requests(s, deps, s0, a0, b0, nsize, npoint) <==>
      exists p :: 0 <= p < |deps| && s.elast[deps[p]] == e && e in DependencyRequests(s, deps[p], s0, a0, b0, nsize, npoint)
    ensures forall i1 :: 0 <= i1 < |s.elast| ==>
      (e in DependencyRequests(s, i1, s0, a0, b0, nsize, npoint) <==>
        s.elast[i1] == e && Records(s, i1, s0, a0, b0)
        && PointsWithin(s.sa[s.es[e]], s.sb[s.es[e]] - s.sa[s.es[e]], a0, b0, npoint, 0, nsize) > 0)
    decreases |deps|
  {
    if |deps| > 0 {
      RequestsAreRecords(s, deps[1..], s0, a0, b0, nsize, npoint, e);
      if e in Requests(s, deps, s0, a0, b0, nsize, npoint) && e !in DependencyRequests(s, deps[0], s0, a0, b0, nsize, npoint) {
        var p :| 0 <= p < |deps[1..]| && s.elast[deps[1..][p]] == e
          && e in DependencyRequests(s, deps[1..][p], s0, a0, b0, nsize, npoint);
        assert deps[1..][p] == deps[p + 1];
      }
      forall p | 0 < p < |deps| ensures deps[1..][p - 1] == deps[p] { }
    }
    forall i1 | 0 <= i1 < |s.elast| && e in DependencyRequests(s, i1, s0, a0, b0, nsize, npoint)
      ensures s.elast[i1] == e
    {
      var r := DependencyRequests(s, i1, s0, a0, b0, nsize, npoint);
      var k :| 0 <= k < |r| && r[k] == e;
    }
  }

  /** The slot search of `create_d` for one request on element `e1`: the
      first empty slot of `[ed[e1], ed[e1 + 1])` receives `e0`. */
  method TakeSlot(de: seq<int>, lo: nat, hi: nat, e0: nat) returns (found: bool, de': seq<int>)
    requires hi <= |de|
    ensures found <==> FirstFree(de, lo, hi).Free?
    ensures found ==> de' == de[FirstFree(de, lo, hi).d := e0]
    ensures !found ==> de' == de
  {
    found := false;
    de' := de;
    var d := lo;
    while d < hi
      invariant lo <= d && de' == de
      invariant FirstFree(de, lo, hi) == FirstFree(de, d, hi)
      decreases hi - d
    {
      if de'[d] == NoElement {
        de' := de'[d := e0];
        found := true;
        break;
      }
      d := d + 1;
    }
  }

  /** The dof loop of `create_d` for one dependent element `e1` on
      `[a1, a1 + k1]`: every dof point inside `(a0, b0]` takes a slot of
      `e1`'s range. */
  method RecordPoints(de: seq<int>, ed: seq<nat>, e0: nat, e1: nat, a1: real, k1: real, a0: real, b0: real,
                      nsize: nat, npoint: nat -> real)
    returns (r: Result<seq<int>, Fault>)
    requires e1 + 1 < |ed| && ed[e1 + 1] <= |de|
    ensures RangesIn(Repeat(e1, PointsWithin(a1, k1, a0, b0, npoint, 0, nsize)), ed, |de|)
    ensures r == Fill(de, Repeat(e1, PointsWithin(a1, k1, a0, b0, npoint, 0, nsize)), ed, e0)
  {
    var cur := de;
    var n := 0;
    while n < nsize
      invariant 0 <= n <= nsize && |cur| == |de|
      invariant Fill(de, Repeat(e1, PointsWithin(a1, k1, a0, b0, npoint, 0, nsize)), ed, e0)
        == Fill(cur, Repeat(e1, PointsWithin(a1, k1, a0, b0, npoint, n, nsize)), ed, e0)
    {
      var t := a1 + k1 * npoint(n);
      if Within(t, a0, b0) {
        assert Repeat(e1, PointsWithin(a1, k1, a0, b0, npoint, n, nsize))
          == [e1] + Repeat(e1, PointsWithin(a1, k1, a0, b0, npoint, n + 1, nsize));
        FillFirst(cur, e1, Repeat(e1, PointsWithin(a1, k1, a0, b0, npoint, n + 1, nsize)), ed, e0);
        var found, next := TakeSlot(cur, ed[e1], ed[e1 + 1], e0);
        if !found {
          return Err(NoFreeSlot(e1));
        }
        cur := next;
      }
      n := n + 1;
    }
    r := Ok(cur);
  }

  /** One pass of the dependency loop of `create_d`, for dependent component
      `i1`: when its last element records the new element, every dof point
      of that element inside `(a0, b0]` takes a slot of its range. */
  method RecordDependency(s: Slab, de: seq<int>, i1: nat, e0: nat, s0: nat, a0: real, b0: real,
                          nsize: nat, npoint: nat -> real)
    returns (r: Result<seq<int>, Fault>)
    requires LastStored(s) && i1 < |s.elast| && |de| == |s.de|
    ensures RangesIn(DependencyRequests(s, i1, s0, a0, b0, nsize, npoint), s.ed, |de|)
    ensures r == Fill(de, DependencyRequests(s, i1, s0, a0, b0, nsize, npoint), s.ed, e0)
  {
    var e1 := s.elast[i1];
    if e1 == NoElement {
      assert !Records(s, i1, s0, a0, b0);
      return Ok(de);
    }
    var s1 := s.es[e1];
    var a1 := s.sa[s1];
    var b1 := s.sb[s1];
    var k1 := b1 - a1;
    if !WithinInterval(a0, b0, a1, b1) || s0 == s1 {
      assert !Records(s, i1, s0, a0, b0);
      return Ok(de);
    }
    assert Records(s, i1, s0, a0, b0);
    assert DependencyRequests(s, i1, s0, a0, b0, nsize, npoint) == Repeat(e1, PointsWithin(a1, k1, a0, b0, npoint, 0, nsize));
    r := RecordPoints(de, s.ed, e0, e1, a1, k1, a0, b0, nsize, npoint);
  }

  /** `create_d`: for every component `i1` that depends on `i0` and already
      has an element on a larger step whose interval contains `[a0, b0]`
      (and lies in another sub-slab), each dof point of that element that
      falls inside `(a0, b0]` takes the first empty slot of the element's
      slot range `[ed[e1], ed[e1 + 1])` and records `e0` there. Finding no
      empty slot is the `dolfin_assert`. The result is `Fill` of the
      `Requests` these loops make, so the lemmas about `Fill` apply: one
      slot per request, each in its element's range, and failure exactly
      when a range is full. */
  method CreateDependencies(s: Slab, i0: nat, e0: nat, s0: nat, a0: real, b0: real,
                            nsize: nat, npoint: nat -> real, transpose: seq<seq<nat>>)
    returns (r: Result<seq<int>, Fault>)
    requires i0 < |transpose|
    requires LastStored(s) && IndicesBelow(transpose[i0], |s.elast|)
    ensures r == Fill(s.de, Requests(s, transpose[i0], s0, a0, b0, nsize, npoint), s.ed, e0)
    ensures r.Ok? ==> FillsOnly(s.de, r.value, e0)
    ensures r.Err? ==> r.error.NoFreeSlot?
  {
    var deps := transpose[i0];
    ghost var all := Requests(s, deps, s0, a0, b0, nsize, npoint);
    var de := s.de;
    var pos := 0;
    assert deps[0..] == deps;
    while pos < |deps|
      invariant 0 <= pos <= |deps| && |de| == |s.de|
      invariant Fill(s.de, all, s.ed, e0) == Fill(de, Requests(s, deps[pos..], s0, a0, b0, nsize, npoint), s.ed, e0)
    {
      RequestsStep(s, deps, pos, s0, a0, b0, nsize, npoint);
      FillAppend(de, DependencyRequests(s, deps[pos], s0, a0, b0, nsize, npoint),
                 Requests(s, deps[pos + 1..], s0, a0, b0, nsize, npoint), s.ed, e0);
      var filled := RecordDependency(s, de, deps[pos], e0, s0, a0, b0, nsize, npoint);
      if filled.Err? {
        return filled;
      }
      de := filled.value;
      pos := pos + 1;
    }
    assert deps[pos..] == [];
    r := Ok(de);
  }

  /** The slots after `create_d` records element `pos` of component
      `index`: `Fill` of the requests of the components that depend on
      `index`. */
  function LinkSlots(t: Slab, index: nat, pos: nat, subslab: nat, a: real, b: real,
                     nsize: nat, npoint: nat -> real, transpose: seq<seq<nat>>): Result<seq<int>, Fault>
    requires index < |transpose|
    requires LastStored(t) && IndicesBelow(transpose[index], |t.elast|)
  {
    Fill(t.de, Requests(t, transpose[index], subslab, a, b, nsize, npoint), t.ed, pos)
  }

  /** The requests read only `elast`, the sub-slabs of the last elements,
      `sa`, `sb`, `ed` and the length of `de`: two slabs that agree there
      make the same requests. */
  lemma {:induction false} RequestsFrame(s: Slab, t: Slab, deps: seq<nat>, s0: nat, a0: real, b0: real,
                                         nsize: nat, npoint: nat -> real)
    requires LastStored(s) && LastStored(t) && IndicesBelow(deps, |s.elast|)
    requires t.elast == s.elast && t.sa == s.sa && t.sb == s.sb && t.ed == s.ed && |t.de| == |s.de|
    requires forall i :: 0 <= i < |s.elast| && s.elast[i] != NoElement ==> t.es[s.elast[i]] == s.es[s.elast[i]]
    ensures Requests(t, deps, s0, a0, b0, nsize, npoint) == Requests(s, deps, s0, a0, b0, nsize, npoint)
    decreases |deps|
  {
    if |deps| > 0 {
      assert Records(t, deps[0], s0, a0, b0) == Records(s, deps[0], s0, a0, b0);
      assert DependencyRequests(t, deps[0], s0, a0, b0, nsize, npoint)
        == DependencyRequests(s, deps[0], s0, a0, b0, nsize, npoint);
      RequestsFrame(s, t, deps[1..], s0, a0, b0, nsize, npoint);
    }
  }

  /** Before element `pos = next` is created, every component's last
      element is an earlier one with a stored sub-slab and slot range. */
  lemma ArenaLastStored(s: Slab, nsize: nat)
    requires Arena(s, nsize) && s.sizeE.next < s.sizeE.size
    ensures LastStored(s)
  {
    assert forall i :: 0 <= i < |s.elast| ==> s.elast[i] + 1 < |s.ed|;
    ThreadedLastStored(s);
  }

  /** Writing element `pos = next` and its dofs leaves the slots `create_d`
      fills for it unchanged: every last element lies below `pos`. */
  lemma LinkSlotsBeforeElement(s: Slab, t: Slab, index: nat, subslab: nat, a: real, b: real,
                               nsize: nat, npoint: nat -> real, transpose: seq<seq<nat>>)
    requires Arena(s, nsize) && s.sizeE.next < s.sizeE.size
    requires index < |s.elast| && DepsWf(transpose, |s.elast|)
    requires LastStored(t) && |t.es| == |s.es|
    requires t.elast == s.elast && t.sa == s.sa && t.sb == s.sb && t.ed == s.ed && t.de == s.de
    requires forall e :: 0 <= e < |s.es| && e != s.sizeE.next ==> t.es[e] == s.es[e]
    ensures LastStored(s) && IndicesBelow(transpose[index], |s.elast|)
    ensures LinkSlots(t, index, s.sizeE.next, subslab, a, b, nsize, npoint, transpose)
      == LinkSlots(s, index, s.sizeE.next, subslab, a, b, nsize, npoint, transpose)
  {
    ArenaLastStored(s, nsize);
    assert IndicesBelow(transpose[index], |s.elast|);
    RequestsFrame(s, t, transpose[index], subslab, a, b, nsize, npoint);
  }

  /** The end of `create_e`: record the new element `pos` of component
      `index` in the dependency slots (`create_d`) and make it the
      component's last element. Only slots change, and only from empty to
      `pos`. */
  method LinkElement(t: Slab, index: nat, pos: nat, subslab: nat, a: real, b: real,
                     nsize: nat, npoint: nat -> real, transpose: seq<seq<nat>>)
    returns (r: Result<Slab, Fault>)
    requires index < |transpose| && index < |t.elast|
    requires LastStored(t) && IndicesBelow(transpose[index], |t.elast|)
    ensures r.Err? <==> LinkSlots(t, index, pos, subslab, a, b, nsize, npoint, transpose).Err?
    ensures r.Err? ==> r.error.NoFreeSlot? && LinkSlots(t, index, pos, subslab, a, b, nsize, npoint, transpose) == Err(r.error)
    ensures r.Ok? ==> r.value == t.(de := r.value.de, elast := t.elast[index := pos])
    ensures r.Ok? ==> r.value.de == LinkSlots(t, index, pos, subslab, a, b, nsize, npoint, transpose).value
    ensures r.Ok? ==> FillsOnly(t.de, r.value.de, pos)
  {
    var de := CreateDependencies(t, index, pos, subslab, a, b, nsize, npoint, transpose);
    if de.Err? {
      return Err(de.error);
    }
    r := Ok(t.(de := de.value, elast := t.elast[index := pos]));
  }

  /** The start of `create_e`, past the element capacity check: element
      `pos = next` records its component, its sub-slab and its predecessor
      `elast[index]`, and `create_j` gives it `nsize` dofs holding
      `u0[index]`. */
  method PlaceElement(s: Slab, index: nat, subslab: nat, nsize: nat) returns (r: Result<Slab, Fault>)
    requires Arena(s, nsize) && index < |s.elast| && subslab < |s.sa| && s.sizeE.next < s.sizeE.size
    ensures r.Err? <==> s.sizeJ.next + nsize == 0 || s.sizeJ.next + nsize > s.sizeJ.size
    ensures r.Err? ==> r.error == DofCapacity
    ensures r.Ok? ==> var pos := s.sizeE.next;
      r.value == s.(ei := s.ei[pos := index], es := s.es[pos := subslab], ee := s.ee[pos := s.elast[index]],
                    sizeE := Alloc(pos + 1, s.sizeE.size), jx := r.value.jx, sizeJ := Alloc(s.sizeJ.next + nsize, s.sizeJ.size))
    ensures r.Ok? ==> |r.value.jx| == |s.jx|
    ensures r.Ok? ==> forall k :: s.sizeJ.next <= k < s.sizeJ.next + nsize ==> r.value.jx[k] == s.u0[index]
    ensures r.Ok? ==> forall k :: 0 <= k < s.sizeJ.next ==> r.value.jx[k] == s.jx[k]
    ensures r.Ok? ==> forall k :: s.sizeJ.next + nsize <= k < |s.jx| ==> r.value.jx[k] == s.jx[k]
    ensures r.Ok? ==> LastStored(r.value)
  {
    var pos := s.sizeE.next;
    var t := s.(ei := s.ei[pos := index], es := s.es[pos := subslab], ee := s.ee[pos := s.elast[index]],
                sizeE := Alloc(pos + 1, s.sizeE.size));
    r := CreateDofs(t, index, nsize);
    if r.Ok? {
      assert forall i :: 0 <= i < |r.value.elast| ==> r.value.elast[i] + 1 < |r.value.ed|;
      ThreadedLastStored(r.value);
    }
  }

  /** `create_e`: take the next element position for component `index` in
      sub-slab `subslab`, link it to the component's previous last element,
      create its dofs and the dependency slots that point at it, and make it
      the component's last element. The capacity check is the
      `dolfin_assert`. */
  method CreateElement(s: Slab, index: nat, subslab: nat, a: real, b: real,
                       nsize: nat, npoint: nat -> real, transpose: seq<seq<nat>>)
    returns (r: Result<Slab, Fault>)
    requires Arena(s, nsize)
    requires index < |s.elast| && subslab < |s.sa|
    requires DepsWf(transpose, |s.elast|)
    ensures s.sizeE.next >= s.sizeE.size ==> r == Err(ElementCapacity)
    ensures s.sizeE.next < s.sizeE.size && (s.sizeJ.next + nsize == 0 || s.sizeJ.next + nsize > s.sizeJ.size) ==>
      r == Err(DofCapacity)
    ensures r.Ok? ==> Arena(r.value, nsize)
    ensures r.Ok? ==> r.value.sizeE.next == s.sizeE.next + 1
    ensures r.Ok? ==> r.value.sizeJ.next == s.sizeJ.next + nsize
    ensures r.Ok? ==> var pos := s.sizeE.next;
      && r.value.ei[pos] == index && r.value.es[pos] == subslab && r.value.ee[pos] == s.elast[index]
    ensures r.Ok? ==> r.value.elast == s.elast[index := s.sizeE.next]
    ensures r.Ok? ==> forall k :: s.sizeJ.next <= k < r.value.sizeJ.next ==> r.value.jx[k] == s.u0[index]
    ensures r.Ok? ==> forall k :: 0 <= k < s.sizeJ.next ==> r.value.jx[k] == s.jx[k]
    ensures r.Ok? ==> |r.value.jx| == |s.jx| && forall k :: s.sizeJ.next + nsize <= k < |s.jx| ==> r.value.jx[k] == s.jx[k]
    ensures r.Ok? ==> var pos := s.sizeE.next;
      && r.value.ei == s.ei[pos := index] && r.value.es == s.es[pos := subslab] && r.value.ee == s.ee[pos := s.elast[index]]
    ensures r.Ok? ==> forall e :: 0 <= e < s.sizeE.next ==>
      r.value.ei[e] == s.ei[e] && r.value.es[e] == s.es[e] && r.value.ee[e] == s.ee[e]
    ensures r.Ok? ==> FillsOnly(s.de, r.value.de, s.sizeE.next)
    ensures r.Ok? ==> r.value.sa == s.sa && r.value.sb == s.sb && r.value.ed == s.ed && r.value.u0 == s.u0
    ensures r.Ok? ==> r.value == s.(ei := r.value.ei, es := r.value.es, ee := r.value.ee, sizeE := r.value.sizeE,
                                    jx := r.value.jx, sizeJ := r.value.sizeJ, de := r.value.de, elast := r.value.elast)
    ensures s.sizeE.next < s.sizeE.size && 0 < s.sizeJ.next + nsize <= s.sizeJ.size ==>
      && LastStored(s) && IndicesBelow(transpose[index], |s.elast|)
      && (r.Err? <==> LinkSlots(s, index, s.sizeE.next, subslab, a, b, nsize, npoint, transpose).Err?)
      && (r.Err? ==> LinkSlots(s, index, s.sizeE.next, subslab, a, b, nsize, npoint, transpose) == Err(r.error))
      && (r.Ok? ==> r.value.de == LinkSlots(s, index, s.sizeE.next, subslab, a, b, nsize, npoint, transpose).value)
  {
    if s.sizeE.next >= s.sizeE.size {
      return Err(ElementCapacity);
    }
    var pos := s.sizeE.next;
    var placed := PlaceElement(s, index, subslab, nsize);
    if placed.Err? {
      return Err(placed.error);
    }
    var t := placed.value;
    LinkSlotsBeforeElement(s, t, index, subslab, a, b, nsize, npoint, transpose);
    var linked := LinkElement(t, index, pos, subslab, a, b, nsize, npoint, transpose);
    if linked.Err? {
      return linked;
    }
    t := linked.value;
    CreatedElementKeepsArena(s, t, index, subslab, nsize);
    r := Ok(t);
  }

  /** Appending element `pos = next` of component `index`, with its `nsize`
      dofs, and making it the component's last element keeps the arena
      invariant and the earlier elements and dofs. */
  lemma CreatedElementKeepsArena(s: Slab, t: Slab, index: nat, subslab: nat, nsize: nat)
    requires Arena(s, nsize) && index < |s.elast| && subslab < |s.sa| && s.sizeE.next < s.sizeE.size
    requires s.sizeJ.next + nsize <= s.sizeJ.size && |t.jx| == |s.jx| && |t.de| == |s.de|
    requires var pos := s.sizeE.next;
      t == s.(ei := s.ei[pos := index], es := s.es[pos := subslab], ee := s.ee[pos := s.elast[index]],
              sizeE := Alloc(pos + 1, s.sizeE.size), jx := t.jx, sizeJ := Alloc(s.sizeJ.next + nsize, s.sizeJ.size),
              de := t.de, elast := s.elast[index := pos])
    ensures Arena(t, nsize)
    ensures t.sizeE.next == s.sizeE.next + 1 && t.sizeJ.next == s.sizeJ.next + nsize
    ensures var pos := s.sizeE.next; t.ei[pos] == index && t.es[pos] == subslab && t.ee[pos] == s.elast[index]
    ensures var pos := s.sizeE.next;
      t.ei == s.ei[pos := index] && t.es == s.es[pos := subslab] && t.ee == s.ee[pos := s.elast[index]]
    ensures forall e :: 0 <= e < s.sizeE.next ==> t.ei[e] == s.ei[e] && t.es[e] == s.es[e] && t.ee[e] == s.ee[e]
    ensures t.sa == s.sa && t.sb == s.sb && t.ed == s.ed && t.u0 == s.u0
    ensures t == s.(ei := t.ei, es := t.es, ee := t.ee, sizeE := t.sizeE, jx := t.jx, sizeJ := t.sizeJ, de := t.de,
                    elast := t.elast)
  {
    var pos := s.sizeE.next;
    assert (pos + 1) * nsize == pos * nsize + nsize;
  }

  /** The predecessor chain of element `e`: `e`, its predecessor, and so on
      back to the first element of the component. Every element of the
      chain belongs to the component of `e`, the chain strictly descends and
      it ends at an element without predecessor. */
  function Chain(s: Slab, count: nat, e: nat): (c: seq<nat>)
    requires Storage(s) && Threaded(s, count) && e < count
    ensures |c| >= 1 && c[0] == e
    ensures forall k :: 0 <= k < |c| ==> c[k] < count && s.ei[c[k]] == s.ei[e]
    ensures forall k :: 0 < k < |c| ==> c[k] == s.ee[c[k - 1]] && c[k] < c[k - 1]
    ensures s.ee[c[|c| - 1]] == NoElement
    decreases e
  {
    if s.ee[e] == NoElement then [e]
    else
      var p := s.ee[e] as nat;
      assert p < e && s.ei[p] == s.ei[e];
      var rest := Chain(s, count, p);
      assert forall k :: 0 < k < |rest| + 1 ==> ([e] + rest)[k] == rest[k - 1];
      [e] + rest
  }
}

=== FILE: time_slab_data.dfy ===
/** Storage of a multi-adaptive time slab (dolfin/ode/MultiAdaptiveTimeSlab.cpp).

    The C++ class keeps parallel raw arrays: sub-slabs (`sa`, `sb`), elements
    (`ei`, `es`, `ee`, `ed`), dofs (`jx`) and dependency slots (`de`). Each
    group of arrays has an allocation record whose `size` is the capacity and
    whose `next` is the first free position. Here every array is a sequence
    whose length is the capacity of its group. */
module TimeSlabData {
  import opened Arith

  /** Stand-in for `real_epsilon()`, the tolerance of every time comparison
      in the slab. Only its positivity matters to the model. */
  const Eps: real := 0.0000000000000003

  /** The `-1` of `ee`, `de` and `elast`: no element. */
  const NoElement: int := -1

  /** Allocation record of one group of parallel arrays. */
  datatype Alloc = Alloc(next: nat, size: nat)

  datatype Slab = Slab(
    // sub-slabs: interval [sa[s], sb[s]]
    sa: seq<real>, sb: seq<real>, sizeS: Alloc,
    // elements: component, sub-slab, predecessor, first dependency slot
    ei: seq<nat>, es: seq<nat>, ee: seq<int>, ed: seq<nat>, sizeE: Alloc,
    // dofs, `nsize` consecutive values per element
    jx: seq<real>, sizeJ: Alloc,
    // dependency slots: the element that fills the slot, or NoElement
    de: seq<int>, sizeD: Alloc,
    // counts of the last size pass
    ns: nat, ne: nat, nj: nat, nd: nat,
    // per-component state that survives rebuilds
    elast: seq<int>, u0: seq<real>, u: seq<real>,
    // interval of the slab, `_a` and `_b`
    a: real, b: real)

  /** Failed internal consistency checks (`dolfin_assert`). */
  datatype Fault =
    | ElementCapacity
    | DofCapacity
    | NoFreeSlot(element: nat)
    | MissingElement(component: nat)
    | NotAtEndTime(component: nat)

  /** Counts and scratch times computed by the size pass. */
  datatype DataSize = DataSize(ns: nat, ne: nat, nj: nat, nd: nat, latest: seq<real>)

  /** Array lengths agree with the capacities, cursors stay within them, and
      every recorded dependency-slot bound lies inside `de`. */
  predicate Storage(s: Slab) {
    && |s.sa| == s.sizeS.size && |s.sb| == s.sizeS.size && s.sizeS.next <= s.sizeS.size
    && |s.ei| == s.sizeE.size && |s.es| == s.sizeE.size
    && |s.ee| == s.sizeE.size && |s.ed| == s.sizeE.size && s.sizeE.next <= s.sizeE.size
    && |s.jx| == s.sizeJ.size && s.sizeJ.next <= s.sizeJ.size
    && |s.de| == s.sizeD.size && s.sizeD.next <= s.sizeD.size
    && |s.elast| == |s.u0| && |s.u| == |s.u0|
    && (forall e :: 0 <= e < |s.ed| ==> s.ed[e] <= |s.de|)
  }

  /** The first `count` elements name a component and a stored sub-slab,
      each one's predecessor is an earlier element of the same component (or
      none), and `elast[i]` is either NoElement or one of them that belongs
      to component `i`. */
  predicate Threaded(s: Slab, count: nat)
    requires Storage(s)
  {
    && count <= s.sizeE.size
    && (forall e :: 0 <= e < count ==> s.ei[e] < |s.elast| && s.es[e] < |s.sa|)
    && (forall e :: 0 <= e < count ==>
          s.ee[e] == NoElement || (0 <= s.ee[e] < e && s.ei[s.ee[e]] == s.ei[e]))
    && (forall i :: 0 <= i < |s.elast| ==>
          s.elast[i] == NoElement || (0 <= s.elast[i] < count && s.ei[s.elast[i]] == i))
  }

  /** Invariant of a slab under construction: the created elements are
      threaded and own the dof blocks in creation order. */
  predicate Arena(s: Slab, nsize: nat) {
    && Storage(s)
    && Threaded(s, s.sizeE.next)
    && s.sizeJ.next == s.sizeE.next * nsize
  }

  /** Invariant of a built slab: the `ne` elements counted by the size pass
      are threaded and their dofs fit in `jx`. */
  predicate Built(s: Slab, nsize: nat) {
    && Storage(s)
    && Threaded(s, s.ne)
    && s.ne * nsize <= |s.jx|
  }

  lemma {:induction false} BlockBound(e: nat, n: nat, count: nat, nsize: nat)
    requires e < count && n < nsize
    ensures e * nsize + n < count * nsize
    decreases count - e
  {
    if e + 1 < count {
      BlockBound(e + 1, n, count, nsize);
    }
  }

  /** Position of dof `n` of element `e` in `jx`: element `e` owns the block
      `[e * nsize, (e + 1) * nsize)`. */
  function DofIndex(e: nat, n: nat, nsize: nat, count: nat): (j: nat)
    requires e < count && n < nsize
    ensures e * nsize <= j < e * nsize + nsize
    ensures j < count * nsize
  {
    BlockBound(e, n, count, nsize);
    e * nsize + n
  }

  /** The storage after `Alloc::realloc`: the first `|data|` entries are
      kept and new entries take `fill` (the source leaves them undefined). */
  function Grow<T>(data: seq<T>, newsize: nat, fill: T): (r: seq<T>)
    ensures |r| == Max(|data|, newsize)
    ensures r[..|data|] == data
    ensures newsize <= |data| ==> r == data
  {
    if newsize <= |data| then data else data + seq(newsize - |data|, _ => fill)
  }

  /** `alloc_s`: reset the sub-slab cursor and grow the sub-slab arrays to
      at least `newsize`; storage that is large enough is reused. */
  function AllocS(s: Slab, newsize: nat): (r: Slab)
    requires Storage(s)
    ensures Storage(r)
    ensures r.sizeS.next == 0
    ensures r.sizeS.size == Max(s.sizeS.size, newsize)
    ensures r.sizeS.size >= s.sizeS.size && r.sizeS.size >= newsize
    ensures r.sa[..|s.sa|] == s.sa && r.sb[..|s.sb|] == s.sb
    ensures newsize <= s.sizeS.size ==> r.sa == s.sa && r.sb == s.sb
    ensures r == s.(sa := r.sa, sb := r.sb, sizeS := r.sizeS)
  {
    if newsize <= s.sizeS.size then
      s.(sizeS := Alloc(0, s.sizeS.size))
    else
      s.(sa := Grow(s.sa, newsize, 0.0), sb := Grow(s.sb, newsize, 0.0), sizeS := Alloc(0, newsize))
  }

  /** `alloc_e`: the same for the four element arrays. */
  function AllocE(s: Slab, newsize: nat): (r: Slab)
    requires Storage(s)
    ensures Storage(r)
    ensures r.sizeE.next == 0
    ensures r.sizeE.size == Max(s.sizeE.size, newsize)
    ensures r.sizeE.size >= s.sizeE.size && r.sizeE.size >= newsize
    ensures r.ei[..|s.ei|] == s.ei && r.es[..|s.es|] == s.es
    ensures r.ee[..|s.ee|] == s.ee && r.ed[..|s.ed|] == s.ed
    ensures newsize <= s.sizeE.size ==> r.ei == s.ei && r.es == s.es && r.ee == s.ee && r.ed == s.ed
    ensures r == s.(ei := r.ei, es := r.es, ee := r.ee, ed := r.ed, sizeE := r.sizeE)
  {
    if newsize <= s.sizeE.size then
      s.(sizeE := Alloc(0, s.sizeE.size))
    else
      s.(ei := Grow(s.ei, newsize, 0), es := Grow(s.es, newsize, 0),
         ee := Grow(s.ee, newsize, 0), ed := Grow(s.ed, newsize, 0),
         sizeE := Alloc(0, newsize))
  }

  /** `alloc_j`: the same for the dof array. */
  function AllocJ(s: Slab, newsize: nat): (r: Slab)
    requires Storage(s)
    ensures Storage(r)
    ensures r.sizeJ.next == 0
    ensures r.sizeJ.size == Max(s.sizeJ.size, newsize)
    ensures r.sizeJ.size >= s.sizeJ.size && r.sizeJ.size >= newsize
    ensures r.jx[..|s.jx|] == s.jx
    ensures newsize <= s.sizeJ.size ==> r.jx == s.jx
    ensures r == s.(jx := r.jx, sizeJ := r.sizeJ)
  {
    if newsize <= s.sizeJ.size then
      s.(sizeJ := Alloc(0, s.sizeJ.size))
    else
      s.(jx := Grow(s.jx, newsize, 0.0), sizeJ := Alloc(0, newsize))
  }

  /** `alloc_d`: the same for the dependency slots. */
  function AllocD(s: Slab, newsize: nat): (r: Slab)
    requires Storage(s)
    ensures Storage(r)
    ensures r.sizeD.next == 0
    ensures r.sizeD.size == Max(s.sizeD.size, newsize)
    ensures r.sizeD.size >= s.sizeD.size && r.sizeD.size >= newsize
    ensures r.de[..|s.de|] == s.de
    ensures newsize <= s.sizeD.size ==> r.de == s.de
    ensures r == s.(de := r.de, sizeD := r.sizeD)
  {
    if newsize <= s.sizeD.size then
      s.(sizeD := Alloc(0, s.sizeD.size))
    else
      s.(de := Grow(s.de, newsize, NoElement), sizeD := Alloc(0, newsize))
  }

  /** `allocData`: record the counts of the size pass (which leaves the latest
      reached time of every component in `u`), grow every group of arrays
      and mark the first `nd` dependency slots empty. */
  method AllocData(s: Slab, size: DataSize) returns (r: Slab)
    requires Storage(s) && |size.latest| == |s.u0|
    ensures Storage(r)
    ensures r.ns == size.ns && r.ne == size.ne && r.nj == size.nj && r.nd == size.nd
    ensures r.u == size.latest
    ensures r.sizeS == Alloc(0, Max(s.sizeS.size, size.ns))
    ensures r.sizeE == Alloc(0, Max(s.sizeE.size, size.ne))
    ensures r.sizeJ == Alloc(0, Max(s.sizeJ.size, size.nj))
    ensures r.sizeD == Alloc(0, Max(s.sizeD.size, size.nd))
    ensures r.sa[..|s.sa|] == s.sa && r.sb[..|s.sb|] == s.sb
    ensures r.ei[..|s.ei|] == s.ei && r.es[..|s.es|] == s.es && r.ee[..|s.ee|] == s.ee && r.ed[..|s.ed|] == s.ed
    ensures r.jx[..|s.jx|] == s.jx
    ensures forall d :: 0 <= d < size.nd ==> r.de[d] == NoElement
    ensures forall d :: size.nd <= d < |s.de| ==> r.de[d] == s.de[d]
    ensures r.elast == s.elast && r.u0 == s.u0 && r.a == s.a && r.b == s.b
  {
    r := s.(u := size.latest, ns := size.ns, ne := size.ne, nj := size.nj, nd := size.nd);
    r := AllocS(r, size.ns);
    r := AllocE(r, size.ne);
    r := AllocJ(r, size.nj);
    r := AllocD(r, size.nd);
    ghost var grown := r.de;
    var de := r.de;
    var d := 0;
    while d < size.nd
      invariant 0 <= d <= size.nd
      invariant |de| == |grown|
      invariant forall k :: 0 <= k < d ==> de[k] == NoElement
      invariant forall k :: d <= k < |de| ==> de[k] == grown[k]
    {
      de := de[d := NoElement];
      d := d + 1;
    }
    r := r.(de := de);
  }

  /** The start of `build`: allocate for the counts of the size pass and
      forget the last element of every component. The result is an empty
      arena ready for element creation. */
  method PrepareBuild(s: Slab, size: DataSize, nsize: nat) returns (r: Slab)
    requires Storage(s) && |size.latest| == |s.u0|
    ensures Arena(r, nsize)
    ensures r.sizeE.next == 0 && r.sizeS.next == 0 && r.sizeJ.next == 0 && r.sizeD.next == 0
    ensures |r.elast| == |s.elast|
    ensures forall i :: 0 <= i < |r.elast| ==> r.elast[i] == NoElement
    ensures r.ns == size.ns && r.ne == size.ne && r.nj == size.nj && r.nd == size.nd
    ensures r.sizeS.size >= size.ns && r.sizeE.size >= size.ne && r.sizeJ.size >= size.nj && r.sizeD.size >= size.nd
    ensures forall d :: 0 <= d < size.nd ==> r.de[d] == NoElement
  {
    r := AllocData(s, size);
    var elast := r.elast;
    var i := 0;
    while i < |elast|
      invariant 0 <= i <= |elast| && |elast| == |r.elast|
      invariant forall k :: 0 <= k < i ==> elast[k] == NoElement
    {
      elast := elast[i := NoElement];
      i := i + 1;
    }
    r := r.(elast := elast);
  }
}

=== FILE: time_slab_sample.dfy ===
/** Using a built multi-adaptive time slab (dolfin/ode/MultiAdaptiveTimeSlab.cpp):
    resetting the dofs to the initial values, stepping the last element of
    each component across a sub-slab, and shifting the end-time values into
    the initial values of the next slab. */
module TimeSlabSample {
  import opened Results
  import opened Arith
  import opened TimeSlabData

  /** Every dof of every built element holds the initial value of the
      element's component: the state `reset` leaves behind. */
  predicate AtInitialValues(s: Slab, nsize: nat)
    requires Built(s, nsize)
  {
    forall e, n :: 0 <= e < s.ne && 0 <= n < nsize ==>
      s.jx[DofIndex(e, n, nsize, s.ne)] == s.u0[s.ei[e]]
  }

  /** The dof blocks of the elements before `e` all end before the block of `e`. */
  lemma EarlierBlocksBelow(e: nat, nsize: nat, count: nat)
    requires e <= count
    ensures forall e', m :: 0 <= e' < e && 0 <= m < nsize ==> DofIndex(e', m, nsize, count) < e * nsize
  {
    forall e', m | 0 <= e' < e && 0 <= m < nsize
      ensures DofIndex(e', m, nsize, count) < e * nsize
    {
      MulMono(nsize, e' + 1, e);
    }
  }

  /** `reset`: set all dofs of the `ne` elements to the initial value of
      their component, leaving the dofs beyond them alone. */
  method Reset(s: Slab, nsize: nat) returns (r: Slab)
    requires Built(s, nsize)
    ensures Built(r, nsize) && AtInitialValues(r, nsize)
    ensures |r.jx| == |s.jx|
    ensures forall k :: s.ne * nsize <= k < |s.jx| ==> r.jx[k] == s.jx[k]
    ensures r == s.(jx := r.jx)
  {
    var jx := s.jx;
    var j := 0;
    var e := 0;
    while e < s.ne
      invariant 0 <= e <= s.ne && j == e * nsize && |jx| == |s.jx|
      invariant forall e', m :: 0 <= e' < e && 0 <= m < nsize ==>
        jx[DofIndex(e', m, nsize, s.ne)] == s.u0[s.ei[e']]
      invariant forall k :: j <= k < |jx| ==> jx[k] == s.jx[k]
    {
      var i := s.ei[e];
      EarlierBlocksBelow(e, nsize, s.ne);
      var n := 0;
      while n < nsize
        invariant 0 <= n <= nsize && |jx| == |s.jx|
        invariant forall e', m :: 0 <= e' < e && 0 <= m < nsize ==>
          jx[DofIndex(e', m, nsize, s.ne)] == s.u0[s.ei[e']]
        invariant forall m :: 0 <= m < n ==> jx[DofIndex(e, m, nsize, s.ne)] == s.u0[i]
        invariant forall k :: j + n <= k < |jx| ==> jx[k] == s.jx[k]
      {
        assert j + n == DofIndex(e, n, nsize, s.ne);
        jx := jx[j + n := s.u0[i]];
        n := n + 1;
      }
      assert (e + 1) * nsize == e * nsize + nsize;
      j := j + nsize;
      e := e + 1;
    }
    r := s.(jx := jx);
  }

  /** The last element of component `i` among `ei[lo..hi)`, or `prior` when
      there is none: a backward search. */
  function LastIn(ei: seq<nat>, i: nat, lo: nat, hi: nat, prior: int): int
    requires lo <= hi <= |ei|
    decreases hi
  {
    if hi == lo then prior
    else if ei[hi - 1] == i then hi - 1
    else LastIn(ei, i, lo, hi - 1, prior)
  }

  /** `LastIn` finds the element of `i` in `[lo, hi)` that no later element
      of `i` follows, and keeps `prior` exactly when there is none. */
  lemma {:induction false} LastInIsLast(ei: seq<nat>, i: nat, lo: nat, hi: nat, prior: int)
    requires lo <= hi <= |ei|
    ensures (forall k :: lo <= k < hi ==> ei[k] != i) ==> LastIn(ei, i, lo, hi, prior) == prior
    ensures (exists k :: lo <= k < hi && ei[k] == i) ==>
      var e := LastIn(ei, i, lo, hi, prior);
      lo <= e < hi && ei[e] == i && forall k :: e < k < hi ==> ei[k] != i
    decreases hi
  {
    if hi > lo && ei[hi - 1] != i {
      LastInIsLast(ei, i, lo, hi - 1, prior);
    }
  }

  /** `coverSlab(subslab, e0)`: walk the elements from `e0` while they lie in
      sub-slab `subslab`, making each the last element of its component.
      Returns the first element past the sub-slab. */
  method CoverSlab(s: Slab, subslab: int, e0: nat) returns (e: nat, r: Slab)
    requires Storage(s) && Threaded(s, s.ne)
    ensures e0 <= e && (e0 <= s.ne ==> e <= s.ne) && (s.ne < e0 ==> e == e0)
    ensures forall k :: e0 <= k < e ==> s.es[k] as int == subslab
    ensures e < s.ne ==> s.es[e] as int != subslab
    ensures Storage(r) && Threaded(r, s.ne)
    ensures |r.elast| == |s.elast|
    ensures e0 <= s.ne ==> forall i :: 0 <= i < |s.elast| ==> r.elast[i] == LastIn(s.ei, i, e0, e, s.elast[i])
    ensures s.ne < e0 ==> r == s
    ensures r == s.(elast := r.elast)
  {
    var elast := s.elast;
    e := e0;
    while e < s.ne && s.es[e] as int == subslab
      invariant e0 <= e && (e0 <= s.ne ==> e <= s.ne) && (s.ne < e0 ==> e == e0)
      invariant forall k :: e0 <= k < e ==> s.es[k] as int == subslab
      invariant |elast| == |s.elast|
      invariant Storage(s.(elast := elast)) && Threaded(s.(elast := elast), s.ne)
      invariant e0 <= s.ne ==> forall i :: 0 <= i < |s.elast| ==> elast[i] == LastIn(s.ei, i, e0, e, s.elast[i])
      invariant s.ne < e0 ==> elast == s.elast
      decreases s.ne - e
    {
      elast := elast[s.ei[e] := e];
      e := e + 1;
    }
    r := s.(elast := elast);
  }

  /** Component `i` has a last element and it ends at the end of the slab:
      the two `dolfin_assert`s of `shift`. */
  predicate AtEnd(s: Slab, i: nat)
    requires Storage(s) && Threaded(s, s.ne) && i < |s.elast|
  {
    s.elast[i] != NoElement && s.sb[s.es[s.elast[i]]] == s.b
  }

  /** The fault `shift` raises for a component that is not `AtEnd`. */
  function EndFault(s: Slab, i: nat): Fault
    requires i < |s.elast|
  {
    if s.elast[i] == NoElement then MissingElement(i) else NotAtEndTime(i)
  }

  /** The value at the end time of component `i`: the last dof of its last
      element. */
  function EndValue(s: Slab, nsize: nat, i: nat): real
    requires Built(s, nsize) && nsize >= 1 && i < |s.elast| && s.elast[i] != NoElement
  {
    s.jx[DofIndex(s.elast[i] as nat, nsize - 1, nsize, s.ne)]
  }

  /** `shift(end)` after `coverTime(_b)`: read the last dof of every
      component's last element into `u`, offer `u` to the ODE's `update`
      (which may stop the computation), and on acceptance make `u` the
      initial value of the next slab. A component without a last element at
      the end time fails the first `dolfin_assert`s it meets. */
  method Shift(s: Slab, nsize: nat, end: bool, update: (seq<real>, real, bool) -> bool)
    returns (r: Result<Slab, Fault>, accepted: bool)
    requires Built(s, nsize) && nsize >= 1
    ensures r.Err? <==> exists i :: 0 <= i < |s.elast| && !AtEnd(s, i)
    ensures r.Err? ==> !accepted
    ensures r.Err? ==> exists i :: (0 <= i < |s.elast| && !AtEnd(s, i)
      && (forall i' :: 0 <= i' < i ==> AtEnd(s, i')) && r.error == EndFault(s, i))
    ensures r.Ok? ==> |r.value.u| == |s.elast|
    ensures r.Ok? ==> forall i :: 0 <= i < |s.elast| ==> AtEnd(s, i) && r.value.u[i] == EndValue(s, nsize, i)
    ensures r.Ok? ==> accepted == update(r.value.u, s.b, end)
    ensures r.Ok? ==> r.value.u0 == if accepted then r.value.u else s.u0
    ensures r.Ok? ==> r.value == s.(u := r.value.u, u0 := r.value.u0)
    ensures r.Ok? && AtInitialValues(s, nsize) ==> r.value.u == s.u0
  {
    var u := s.u;
    var i := 0;
    while i < |s.elast|
      invariant 0 <= i <= |s.elast| && |u| == |s.elast|
      invariant forall i' :: 0 <= i' < i ==> AtEnd(s, i') && u[i'] == EndValue(s, nsize, i')
    {
      var e := s.elast[i];
      if e == NoElement {
        assert !AtEnd(s, i);
        return Err(MissingElement(i)), false;
      }
      if s.sb[s.es[e]] != s.b {
        assert !AtEnd(s, i);
        return Err(NotAtEndTime(i)), false;
      }
      u := u[i := s.jx[DofIndex(e as nat, nsize - 1, nsize, s.ne)]];
      i := i + 1;
    }
    accepted := update(u, s.b, end);
    if !accepted {
      return Ok(s.(u := u)), false;
    }
    r := Ok(s.(u := u, u0 := u));
  }
}

=== FILE: time_slab_solver.dfy ===
/** Choice of the nonlinear solver of a multi-adaptive time slab
    (`chooseSolver` in dolfin/ode/MultiAdaptiveTimeSlab.cpp), driven by the
    ODE parameters "ODE implicit" and "ODE nonlinear solver". */
module TimeSlabSolver {
  import opened Results

  datatype SolverKind = FixedPoint | Newton

  /** The two `error(...)` calls of `chooseSolver`. */
  datatype ConfigError = ImplicitOde | UnknownSolver(name: string)

  /** The solver names `chooseSolver` accepts. */
  predicate KnownName(name: string) {
    name == "fixed-point" || name == "newton" || name == "default"
  }

  /** `chooseSolver`: implicit ODEs are refused whatever the name; then
      "fixed-point" and "default" select the fixed-point solver, "newton"
      the Newton solver, and any other name is an error naming it. */
  function ChooseSolver(implicit: bool, name: string): (r: Result<SolverKind, ConfigError>)
    ensures implicit ==> r == Err(ImplicitOde)
    ensures !implicit ==> (r.Ok? <==> KnownName(name))
    ensures !implicit && !KnownName(name) ==> r == Err(UnknownSolver(name))
    ensures r == Ok(Newton) <==> !implicit && name == "newton"
    ensures r == Ok(FixedPoint) <==> !implicit && (name == "fixed-point" || name == "default")
  {
    if implicit then Err(ImplicitOde)
    else if name == "fixed-point" then Ok(FixedPoint)
    else if name == "newton" then Ok(Newton)
    else if name == "default" then Ok(FixedPoint)
    else Err(UnknownSolver(name))
  }

  /** The parameter value naming each solver explicitly. */
  function SolverName(k: SolverKind): string {
    match k
    case FixedPoint => "fixed-point"
    case Newton => "newton"
  }

  /** Every solver can be selected by its name, and "default" is the
      fixed-point solver. */
  lemma SolverNameRoundTrip(k: SolverKind)
    ensures ChooseSolver(false, SolverName(k)) == Ok(k)
    ensures ChooseSolver(false, "default") == ChooseSolver(false, SolverName(FixedPoint))
  {
  }
}

=== FILE: wave_equation.dfy ===
/** The sparsity pattern of the wave-equation benchmark
    (src/demo/bench/ode/main.cpp). The unknowns are displacements and
    velocities on the `(n + 1)^3` nodes of a unit-cube grid: unknown `i` of
    the first half depends on the velocity `i + offset`, and unknown
    `offset + j` of the second half depends on the displacements at the grid
    neighbours of node `j`. */
module WaveEquation {
  import opened Arith
  import opened Seqs
  import opened Results

  /** The modulus of `unsigned int` arithmetic. */
  const Word: nat := 0x1_0000_0000

  /** The number of grid nodes, `(n + 1)^3`. */
  function Nodes(n: nat): nat {
    (n + 1) * (n + 1) * (n + 1)
  }

  /** The system size `2 (n + 1)^3` is representable in 32 bits. */
  predicate Fits(n: nat) {
    2 * Nodes(n) < Word
  }

  /** `N` as the constructor computes it: `2*(n+1)*(n+1)*(n+1)` in
      `unsigned int`, each product reduced modulo 2^32. */
  function SystemSize(n: nat): nat
    requires n < Word
  {
    var m := (n + 1) % Word;
    (((2 * m) % Word * m) % Word * m) % Word
  }

  /** `offset = N/2`. */
  function Offset(n: nat): nat
    requires n < Word
  {
    SystemSize(n) / 2
  }

  lemma Small(x: nat)
    requires x < Word
    ensures x % Word == x
  {
    DivModUnique(x, Word, 0, x);
  }

  /** When the size fits, no product wraps: `N = 2 (n + 1)^3` and the
      offset is the number of nodes. */
  lemma SizeWithoutWrap(n: nat)
    requires Fits(n)
    ensures n < Word
    ensures SystemSize(n) == 2 * Nodes(n)
    ensures Offset(n) == Nodes(n)
  {
    var m := n + 1;
    var m2 := m * m;
    var m3 := m2 * m;
    assert Nodes(n) == m3;
    MulMono(m, 1, m);
    MulMono(m2, 1, m);
    assert m <= m2 <= m3;
    Small(m);
    Small(2 * m);
    assert 2 * m * m == 2 * m2;
    Small(2 * m2);
    assert 2 * m2 * m == 2 * m3;
    Small(2 * m3);
  }

  /** A grid node by its coordinates. */
  datatype Node = Node(x: nat, y: nat, z: nat)

  predicate OnGrid(n: nat, p: Node) {
    p.x <= n && p.y <= n && p.z <= n
  }

  /** The number of a node: `x + m y + m^2 z` with `m = n + 1`. */
  function Index(n: nat, p: Node): nat {
    var m := n + 1;
    p.x + m * p.y + m * m * p.z
  }

  /** `jx = j % m`, `jy = (j / m) % m`, `jz = j / (m*m)`. */
  function Coord(n: nat, j: nat): Node {
    var m := n + 1;
    Node(j % m, (j / m) % m, j / (m * m))
  }

  /** Dividing by `m` twice is dividing by `m * m`. */
  lemma DivDiv(j: nat, m: nat)
    requires m >= 1
    ensures j / (m * m) == (j / m) / m
    ensures j == m * m * (j / (m * m)) + (m * ((j / m) % m) + j % m)
  {
    var q1, r1 := j / m, j % m;
    var q2, r2 := q1 / m, q1 % m;
    assert q1 == m * q2 + r2;
    MulAdd(m, m * q2, r2);
    assert j == m * m * q2 + (m * r2 + r1);
    MulMono(m, r2, m - 1);
    DivModUnique(j, m * m, q2, m * r2 + r1);
  }

  /** The coordinates of a node number are on the grid and number it back. */
  lemma CoordIndex(n: nat, j: nat)
    requires j < Nodes(n)
    ensures OnGrid(n, Coord(n, j))
    ensures Index(n, Coord(n, j)) == j
  {
    var m := n + 1;
    DivDiv(j, m);
    var z := j / (m * m);
    if z >= m {
      MulMono(m * m, m, z);
      assert false;
    }
  }

  /** Every grid node is numbered below `(n + 1)^3`. */
  lemma IndexBound(n: nat, p: Node)
    requires OnGrid(n, p)
    ensures Index(n, p) < Nodes(n)
  {
    var m := n + 1;
    assert m * p.y <= m * n by { MulMono(m, p.y, n); }
    assert m * m * p.z <= m * m * n by { MulMono(m * m, p.z, n); }
    assert m * m == m * n + m by { MulAdd(m, n, 1); }
    assert Nodes(n) == m * m * n + m * m by { MulAdd(m * m, n, 1); }
  }

  /** The number of a grid node gives back its coordinates. */
  lemma IndexCoord(n: nat, p: Node)
    requires OnGrid(n, p)
    ensures Index(n, p) < Nodes(n)
    ensures Coord(n, Index(n, p)) == p
  {
    var m := n + 1;
    var j := Index(n, p);
    IndexBound(n, p);
    var q := p.y + m * p.z;
    assert j == m * q + p.x by { MulAdd(m, p.y, m * p.z); }
    DivModUnique(j, m, q, p.x);
    DivModUnique(q, m, p.z, p.y);
    DivDiv(j, m);
  }

  function Count(c: bool): nat {
    if c then 1 else 0
  }

  /** The `size` the second-half loop declares for node `j`: one per face
      of the cube that `j` is not on. */
  function DeclaredSize(n: nat, j: nat): nat {
    var p := Coord(n, j);
    Count(p.x > 0) + Count(p.y > 0) + Count(p.z > 0) + Count(p.x < n) + Count(p.y < n) + Count(p.z < n)
  }

  /** One guarded `sparsity.set`: `[k]` when `c` holds, nothing otherwise. */
  function When(c: bool, k: int): seq<int> {
    if c then [k] else []
  }

  /** The guarded backward steps `-1, -m, -mm` from `j`. */
  function Backward(j: int, m: int, mm: int, g1: bool, g2: bool, g3: bool): seq<int> {
    When(g1, j - 1) + When(g2, j - m) + When(g3, j - mm)
  }

  /** The guarded forward steps `+1, +m, +mm` from `j`. */
  function Forward(j: int, m: int, mm: int, g4: bool, g5: bool, g6: bool): seq<int> {
    When(g4, j + 1) + When(g5, j + m) + When(g6, j + mm)
  }

  /** The six guarded steps `-1, -m, -mm, +1, +m, +mm` from `j`. */
  function Guarded(j: int, m: int, mm: int, g1: bool, g2: bool, g3: bool, g4: bool, g5: bool, g6: bool): seq<int> {
    Backward(j, m, mm, g1, g2, g3) + Forward(j, m, mm, g4, g5, g6)
  }

  /** The six guarded `sparsity.set` calls for node `j`, in order. */
  function Neighbours(n: nat, j: nat): seq<int> {
    var p := Coord(n, j);
    Guarded(j, n + 1, (n + 1) * (n + 1), p.x > 0, p.y > 0, p.z > 0, p.x < n, p.y < n, p.z < n)
  }

  /** A division by an `unsigned int` that has wrapped to zero. */
  datatype Trap = DivisionByZero

  /** `a + b` in `unsigned int`. */
  function Add32(a: nat, b: nat): nat {
    (a + b) % Word
  }

  /** `a * b` in `unsigned int`. */
  function Mul32(a: nat, b: nat): nat {
    (a * b) % Word
  }

  /** `jx`, `jy` and `jz` as the loop computes them, with `m = n + 1` and
      `m*m` in `unsigned int`; a divisor that wraps to zero traps. */
  function Coord32(n: nat, j: nat): Result<Node, Trap> {
    var m := Add32(n, 1);
    var mm := Mul32(m, m);
    if m == 0 || mm == 0 then Err(DivisionByZero) else Ok(Node(j % m, (j / m) % m, j / mm))
  }

  /** The six guarded `sparsity.set` calls for node `j` as the loop makes
      them: the sums `j + 1`, `j + m` and `j + m*m` wrap modulo 2^32. The
      differences cannot wrap, because each guard implies `j` is at least
      the amount subtracted. */
  function Neighbours32(n: nat, j: nat): Result<seq<int>, Trap> {
    var m := Add32(n, 1);
    var mm := Mul32(m, m);
    match Coord32(n, j)
    case Err(e) => Err(e)
    case Ok(p) =>
      Ok(Backward(j, m, mm, p.x > 0, p.y > 0, p.z > 0) + Forward32(j, m, mm, p.x < n, p.y < n, p.z < n))
  }

  /** The guarded forward steps `+1, +m, +mm` from `j` in `unsigned int`. */
  function Forward32(j: nat, m: nat, mm: nat, g4: bool, g5: bool, g6: bool): seq<int> {
    When(g4, Add32(j, 1)) + When(g5, Add32(j, m)) + When(g6, Add32(j, mm))
  }

  /** While `2(n+1)^3` fits in 32 bits, `m`, `m*m` and the three sums of
      the loop stay below 2^32. */
  lemma NoWrap(n: nat, j: nat)
    requires Fits(n) && j < Nodes(n)
    ensures Add32(n, 1) == n + 1 && Mul32(n + 1, n + 1) == (n + 1) * (n + 1)
    ensures Add32(j, 1) == j + 1 && Add32(j, n + 1) == j + (n + 1)
    ensures Add32(j, (n + 1) * (n + 1)) == j + (n + 1) * (n + 1)
  {
    var m := n + 1;
    var mm := m * m;
    MulMono(m, 1, m);
    MulMono(mm, 1, m);
    assert m <= mm <= Nodes(n);
    Small(m);
    Small(mm);
    Small(j + 1);
    Small(j + m);
    Small(j + mm);
  }

  /** While `2(n+1)^3` fits in 32 bits, nothing in the loop wraps: the
      unsigned coordinates and neighbours are the grid's. */
  lemma Neighbours32Agree(n: nat, j: nat)
    requires Fits(n) && j < Nodes(n)
    ensures Coord32(n, j) == Ok(Coord(n, j))
    ensures Neighbours32(n, j) == Ok(Neighbours(n, j))
  {
    NoWrap(n, j);
    var m, mm := n + 1, (n + 1) * (n + 1);
    var p := Coord(n, j);
    assert Coord32(n, j) == Ok(p);
    assert Forward32(j, m, mm, p.x < n, p.y < n, p.z < n) == Forward(j, m, mm, p.x < n, p.y < n, p.z < n);
  }

  /** At `n = 65535`, `m*m = 2^32` wraps to zero and the loop divides by
      zero for every node. */
  lemma SquareWrapsToZero(j: nat)
    ensures Mul32(65536, 65536) == 0
    ensures Coord32(65535, j) == Err(DivisionByZero)
    ensures Neighbours32(65535, j) == Err(DivisionByZero)
  {
  }

  /** The dependencies `setSparsity` gives unknown `i`. `i + offset` cannot
      wrap, because `offset = N/2 < 2^31`. */
  function Dependencies(n: nat, i: nat): Result<seq<int>, Trap>
    requires n < Word
  {
    if i < Offset(n) then Ok([i + Offset(n)]) else Neighbours32(n, i - Offset(n))
  }

  /** The declared size is the number of neighbours set, between 3 and 6
      once the grid has more than one node per side. */
  lemma DeclaredSizeCounts(n: nat, j: nat)
    requires j < Nodes(n)
    ensures |Neighbours(n, j)| == DeclaredSize(n, j)
    ensures DeclaredSize(n, j) <= 6
    ensures n >= 1 ==> 3 <= DeclaredSize(n, j)
    ensures n == 0 ==> DeclaredSize(n, j) == 0
  {
    CoordIndex(n, j);
  }

  /** Grid nodes one step apart along one axis. */
  predicate Adjacent(p: Node, q: Node) {
    Gap(p.x, q.x) + Gap(p.y, q.y) + Gap(p.z, q.z) == 1
  }

  function Gap(a: nat, b: nat): nat {
    if a < b then b - a else a - b
  }

  /** The node one step from `p` along an axis, as the neighbour number. */
  lemma StepIndex(n: nat, p: Node, q: Node)
    requires OnGrid(n, p) && OnGrid(n, q) && Adjacent(p, q)
    ensures q.x == p.x + 1 ==> Index(n, q) == Index(n, p) + 1
    ensures q.x + 1 == p.x ==> Index(n, q) == Index(n, p) - 1
    ensures q.y == p.y + 1 ==> Index(n, q) == Index(n, p) + (n + 1)
    ensures q.y + 1 == p.y ==> Index(n, q) == Index(n, p) - (n + 1)
    ensures q.z == p.z + 1 ==> Index(n, q) == Index(n, p) + (n + 1) * (n + 1)
    ensures q.z + 1 == p.z ==> Index(n, q) == Index(n, p) - (n + 1) * (n + 1)
  {
    var m := n + 1;
    if q.y == p.y + 1 {
      MulAdd(m, p.y, 1);
    } else if q.y + 1 == p.y {
      MulAdd(m, q.y, 1);
    } else if q.z == p.z + 1 {
      MulAdd(m * m, p.z, 1);
    } else if q.z + 1 == p.z {
      MulAdd(m * m, q.z, 1);
    }
  }

  /** Membership in the neighbour list: one of the six guarded numbers. */
  predicate IsNeighbour(n: nat, p: Node, j: int, k: int) {
    var m := n + 1;
    || (p.x > 0 && k == j - 1) || (p.y > 0 && k == j - m) || (p.z > 0 && k == j - m * m)
    || (p.x < n && k == j + 1) || (p.y < n && k == j + m) || (p.z < n && k == j + m * m)
  }

  lemma NeighbourCases(n: nat, j: nat)
    ensures forall k :: k in Neighbours(n, j) <==> IsNeighbour(n, Coord(n, j), j, k)
  {
  }

  /** Each listed neighbour is a grid node adjacent to `j`. */
  lemma ListedIsAdjacent(n: nat, j: nat, k: int)
    requires j < Nodes(n) && IsNeighbour(n, Coord(n, j), j, k)
    ensures 0 <= k < Nodes(n) && Adjacent(Coord(n, k), Coord(n, j))
  {
    var m := n + 1;
    var p := Coord(n, j);
    CoordIndex(n, j);
    var q: Node;
    if p.x > 0 && k == j - 1 {
      q := p.(x := p.x - 1);
    } else if p.y > 0 && k == j - m {
      q := p.(y := p.y - 1);
    } else if p.z > 0 && k == j - m * m {
      q := p.(z := p.z - 1);
    } else if p.x < n && k == j + 1 {
      q := p.(x := p.x + 1);
    } else if p.y < n && k == j + m {
      q := p.(y := p.y + 1);
    } else {
      q := p.(z := p.z + 1);
    }
    StepIndex(n, p, q);
    IndexCoord(n, q);
  }

  /** Each grid node adjacent to `j` is listed. */
  lemma AdjacentIsListed(n: nat, j: nat, k: int)
    requires j < Nodes(n) && 0 <= k < Nodes(n) && Adjacent(Coord(n, k), Coord(n, j))
    ensures IsNeighbour(n, Coord(n, j), j, k)
  {
    CoordIndex(n, j);
    CoordIndex(n, k);
    StepIndex(n, Coord(n, j), Coord(n, k));
  }

  /** The neighbours `setSparsity` lists for node `j` are exactly the grid
      nodes adjacent to it. */
  lemma NeighboursAreAdjacent(n: nat, j: nat)
    requires j < Nodes(n)
    ensures forall k: int :: k in Neighbours(n, j) <==>
      (0 <= k < Nodes(n) && Adjacent(Coord(n, k), Coord(n, j)))
  {
    NeighbourCases(n, j);
    forall k: int ensures k in Neighbours(n, j) <==> (0 <= k < Nodes(n) && Adjacent(Coord(n, k), Coord(n, j))) {
      if k in Neighbours(n, j) {
        ListedIsAdjacent(n, j, k);
      }
      if 0 <= k < Nodes(n) && Adjacent(Coord(n, k), Coord(n, j)) {
        AdjacentIsListed(n, j, k);
      }
    }
  }

  lemma DistinctConcat(s: seq<int>, t: seq<int>)
    requires Distinct(s) && Distinct(t)
    requires forall k :: k in s ==> k !in t
    ensures Distinct(s + t)
  {
    forall a, b | 0 <= a < b < |s + t| ensures (s + t)[a] != (s + t)[b] {
      if a < |s| && b >= |s| {
        assert (s + t)[a] in s && (s + t)[b] == t[b - |s|];
      }
    }
  }

  /** The backward steps `-1, -m, -mm` are distinct and below `j`. */
  lemma StepsBelow(j: int, m: int, mm: int, g1: bool, g2: bool, g3: bool)
    requires g1 || g2 || g3 ==> 1 < m < mm
    ensures Distinct(Backward(j, m, mm, g1, g2, g3))
    ensures forall k :: k in Backward(j, m, mm, g1, g2, g3) ==> k < j
  {
    var a, b, c := When(g1, j - 1), When(g2, j - m), When(g3, j - mm);
    DistinctConcat(a, b);
    DistinctConcat(a + b, c);
  }

  /** The forward steps `+1, +m, +mm` are distinct and above `j`. */
  lemma StepsAbove(j: int, m: int, mm: int, g4: bool, g5: bool, g6: bool)
    requires g4 || g5 || g6 ==> 1 < m < mm
    ensures Distinct(Forward(j, m, mm, g4, g5, g6))
    ensures forall k :: k in Forward(j, m, mm, g4, g5, g6) ==> k > j
  {
    var d, e, f := When(g4, j + 1), When(g5, j + m), When(g6, j + mm);
    DistinctConcat(d, e);
    DistinctConcat(d + e, f);
  }

  /** The guarded steps are distinct and miss `j` as long as `1 < m < mm`. */
  lemma StepsDistinct(j: int, m: int, mm: int, g1: bool, g2: bool, g3: bool, g4: bool, g5: bool, g6: bool)
    requires g1 || g2 || g3 || g4 || g5 || g6 ==> 1 < m < mm
    ensures Distinct(Guarded(j, m, mm, g1, g2, g3, g4, g5, g6))
    ensures j !in Guarded(j, m, mm, g1, g2, g3, g4, g5, g6)
  {
    StepsBelow(j, m, mm, g1, g2, g3);
    StepsAbove(j, m, mm, g4, g5, g6);
    DistinctConcat(Backward(j, m, mm, g1, g2, g3), Forward(j, m, mm, g4, g5, g6));
  }

  /** No neighbour is listed twice, and none is the node itself. */
  lemma NeighboursDistinct(n: nat, j: nat)
    requires j < Nodes(n)
    ensures Distinct(Neighbours(n, j))
    ensures j !in Neighbours(n, j)
  {
    var m := n + 1;
    var p := Coord(n, j);
    if n == 0 {
      assert j == 0 && p == Node(0, 0, 0);
    } else {
      MulMono(m, 2, m);
    }
    StepsDistinct(j, m, m * m, p.x > 0, p.y > 0, p.z > 0, p.x < n, p.y < n, p.z < n);
  }

  /** Every dependency `setSparsity` declares is an unknown of the system:
      the first half depends on the second half, the second half on the
      first. */
  lemma DependenciesInRange(n: nat, i: nat)
    requires Fits(n) && i < 2 * Nodes(n)
    ensures n < Word
    ensures Dependencies(n, i).Ok?
    ensures i < Offset(n) ==> Dependencies(n, i).value == [i + Nodes(n)] && i + Nodes(n) < SystemSize(n)
    ensures i >= Offset(n) ==> Dependencies(n, i).value == Neighbours(n, i - Offset(n))
    ensures i >= Offset(n) ==> forall k :: k in Dependencies(n, i).value ==> 0 <= k < Offset(n)
    ensures i >= Offset(n) ==> i - Offset(n) !in Dependencies(n, i).value
    ensures Distinct(Dependencies(n, i).value)
  {
    SizeWithoutWrap(n);
    if i >= Offset(n) {
      Neighbours32Agree(n, i - Offset(n));
      NeighboursDistinct(n, i - Offset(n));
      NeighboursAreAdjacent(n, i - Offset(n));
    }
  }
}
